=== FILE: README.md ===
# Document Management System — a Dafny model of its core

The system is a small document store: an ASP.NET backend over MySQL and a React
front end. Users sign in with a one-time code sent for their mobile number.
Documents are filed under a major head and a minor head and labelled with
free-text tags. The upload API accepts any signed-in caller, but the upload page
serves only admins. Anyone signed in can search, download, zip and delete
documents. Admins also create admin accounts and minor heads.

This project models the logic of that core as pure Dafny functions over
immutable records and proves what the code promises about them.

- **Tables** (`tables.dfy`). The MySQL tables of `AppDbContext` become
  sequences of records shaped after the DDL. That covers users, tags, major and
  minor heads, documents and document–tag links. The unique keys become
  predicates. A statement that would break a key returns a `Failure`, which is
  the model of the exception the database throws.
- **Catalog** (`catalog_seed.dfy`, `catalog_insert.dfy`, `catalog_query.dfy`).
  Seeding from configuration, the one-transaction document insert with its tag
  look-up-or-create, the join plus fold that turns joined rows into documents,
  the search filter, and the `ORDER BY`.
- **Sign-in and accounts** (`auth_service.dfy`, `auth_controller.dfy`,
  `admin_controller.dfy`, `jwt_token_helper.dfy`). The OTP store is a
  `map<string, string>` next to the tables. The controllers' status-code
  decisions are modelled in order. The token's claim list and the `AdminOnly`
  policy are modelled as well.
- **Files and documents endpoints** (`file_helpers.dfy`, `file_service.dfy`,
  `documents_controller.dfy`, `heads_controller.dfy`). The file store is a set
  of stored names. These files cover extension whitelisting, stored-name shape,
  size limit, upload precondition order and defaults, download, delete, zip
  membership, the zip name, and minor-head endpoints.
- **Front end** (`http.ts`, `documentsApi.ts`, the store and six pages).
  Query-string building, the auth header, error-message shaping, the search and
  upload requests, the persisted auth slice, the tag-chip editor, comma tag
  parsing, preview type inference, the selection toggle, the form validators,
  the three-step login machine, and the session countdown.
- **Shared** (`text.dfy`, `seqs.dfy`, `wrappers.dfy`). Trimming under the two
  platforms' white-space sets, splitting and joining, decimal rendering and
  `int.TryParse`, and order-preserving `Distinct`, `Filter` and `RemoveAll`.

Opaque pieces are parameters of the functions that use them:

| opaque piece | modelled as |
|---|---|
| BCrypt | `hash: string -> string` |
| the JWT header, payload and signature encoders | a `Jose` record of functions |
| `Random.Next` | a `roll: nat` |
| `Guid.NewGuid` | a `guid` string |
| `DateTime.UtcNow` | a timestamp argument |
| URL encoding, `JSON.stringify`, `JSON.parse`, `atob` | functions |
| whether the server has started reading the request body when an action runs | a `bodyRead` flag |

The file system is a `set<string>` of stored names, and `localStorage` is a
`map<string, string>`.

## Behaviour of the code worth knowing

Documents:

- Every documents action, upload included, needs only an authenticated
  caller. No documents endpoint filters by user or checks the admin claim.
- Tag names are not trimmed by the server. Names that are null or white space
  are skipped, and every other name is stored as sent.
- Zip de-duplication is ordinal: two names that differ only in case are two
  entries.
- `Upload` stores the client's file name in the `FileName` column and returns
  the GUID-based stored name. So the name a client later downloads by is not
  the one the catalog lists.
- `Upload` sets the request-body size limit in its first line. Kestrel
  refuses to change that limit once the request body has been read, and it
  throws `InvalidOperationException`. Binding the `[FromForm]` request reads
  the form before the action runs. So every signed-in upload that sends a form
  answers 500 at that line, before any check and with nothing stored.
  `DocumentsController.Upload` takes the `bodyRead` flag for this (see
  "Findings").
- Past that line, `Upload` never sets the document's `FileOriginalName`, yet
  the insert binds it into a `NOT NULL` column. Every admitted upload within
  the size limit would then answer 500, after its file was saved.
  `DocumentsController.UploadCorrected` is the action without either defect:
  no size-limit line, and the client's file name as the original name. The
  lemmas about stored uploads are stated for it.
- The head ids of the upload form are plain `int`s, so an omitted one binds to
  0. No head has id 0 (AUTO_INCREMENT starts at 1), so the insert's foreign
  key refuses it.
- `DocumentsController` has no `search` or `tags` action, although
  `documentsApi.ts` calls `documents/search` and `documents/tags`. The model
  keeps the client's request and the data layer's search as separate members.
- `IFileService.GetPhysicalFilePath` is not in `FileService`. Whether a file
  exists is modelled as membership of the stored-name set.
- `IsValidFile` is never called by the upload path. It is modelled on its own.
- The file is saved before the insert. A failed insert therefore leaves the
  stored file behind, which the model keeps.
- The size limit the model applies is the file service's, which compares
  the file's length with its configured maximum.

Accounts and sign-in:

- `UpdateUserAsync` ignores its `Department` argument. On every call that
  gets past the rename check it inserts a minor head under major head 1, named
  after the user. That insert runs after the user row was written and outside
  any transaction. Without a major head 1, every sign-in with valid profile
  fields therefore answers 500 and keeps the profile change.
- `User.cs` has no `DepartmentId`, although `AuthController` replies with one.
  The model keeps the column of the DDL.
- `AuthController.ValidateOtp` answers 206 for an empty token and 404 for a
  missing user. Neither can happen: a minted token is never empty, and the user
  was just found. So the login page's details step is never reached against
  this server.

## Model

| member | source | states |
|---|---|---|
| Tables.NextId | Backend/Data/AppDbContext.cs:32 | an AUTO_INCREMENT id is positive and larger than every id already in the table |
| Tables.UserByMobile | Backend/Data/AppDbContext.cs:184-188 | returns a stored user with exactly that mobile, and none only when no user has it |
| Tables.UserById | Backend/Data/AppDbContext.cs:190-194 | returns a stored user with that id, and none only when no user has it |
| Tables.UserByIdFindsRow | Backend/Data/AppDbContext.cs:190-194 | with unique ids, looking up any stored user's id gives back that very row |
| Tables.InsertUser | Backend/Data/AppDbContext.cs:196-202 | fails exactly when the username or mobile is taken (the UNIQUE keys); otherwise appends one user with a fresh id and keeps both keys unique |
| Tables.TagByName | Backend/Data/AppDbContext.cs:272-273 | finds a tag with exactly that name, or reports that none exists |
| Tables.TagByNameFindsRow | Backend/Data/AppDbContext.cs:272-273 | with unique names, looking up a stored tag's name gives back that row |
| Tables.InsertTag | Backend/Data/AppDbContext.cs:211-215 | appends one tag under an id no tag had, and keeps names unique when the name was new |
| Tables.MinorHeadsByMajor | Backend/Data/AppDbContext.cs:230-234 | returns exactly the minor heads filed under that major head |
| Tables.InsertMinorHead | Backend/Data/AppDbContext.cs:242-246 | fails with nothing inserted exactly when no major head has the given id (the foreign key declared at line 61); otherwise appends one minor head under an id no minor head had and returns that id |
| Tables.DeleteMinorHead | Backend/Data/AppDbContext.cs:248-253 | with the foreign key of AppDbContext.cs:79, fails with a foreign-key error, changing nothing, exactly when a row has the id and some document is filed under it; otherwise reports true exactly when some row had the id, and exactly the rows with other ids remain |
| Tables.InsertThenDeleteMinorHead | Backend/Data/AppDbContext.cs:242-253 | when every document's minor head exists, deleting the id that an insert under an existing major returned restores the tables and reports true |
| Seeding.MajorIdByName | Backend/Data/AppDbContext.cs:110-112 | gives the id of a major head with exactly that name, or none when no head has the name |
| Seeding.SeedMinor | Backend/Data/AppDbContext.cs:123-133 | for the major just found or inserted, a non-blank minor name ends up present, trimmed, under it; it is inserted once and only when absent; a blank name changes nothing; the majors stay |
| Seeding.SeedAdmin | Backend/Data/AppDbContext.cs:140-157 | inserts an admin exactly when mobile, username and password are non-blank and neither mobile nor username is taken; the user table stays unique |
| Seeding.SeedMinorsEffect | Backend/Data/AppDbContext.cs:121-134 | seeding a major's minor list only adds minor heads, and afterwards every non-blank listed name is present |
| Seeding.SeedMajorEffect | Backend/Data/AppDbContext.cs:106-135 | seeding one major only extends the tables and leaves its configuration satisfied |
| Seeding.SeedAdminsEffect | Backend/Data/AppDbContext.cs:138-158 | seeding the admins only adds users, satisfies every admin entry and keeps users unique |
| Seeding.SeedMeetsConfiguration | Backend/Data/AppDbContext.cs:95-167 | after seeding, every configured major, minor and admin is satisfied, and nothing that was there is lost |
| Seeding.SeedSatisfiedIsIdentity | Backend/Data/AppDbContext.cs:106-158 | seeding tables that already satisfy the configuration changes nothing |
| Seeding.SeedIdempotent | Backend/Data/AppDbContext.cs:95-167 | seeding twice gives the same tables as seeding once |
| DocumentStore.Kept | Backend/Data/AppDbContext.cs:271 | the tag names an insert acts on are exactly the names that are not null or white space, untrimmed |
| DocumentStore.ResolveTag | Backend/Data/AppDbContext.cs:272-283 | reuses the id of an existing tag with exactly that name, otherwise inserts a new tag |
| DocumentStore.ResolveTagFacts | Backend/Data/AppDbContext.cs:272-283 | after resolving, exactly one tag bears the name and it has the returned id; only the tag table grew |
| DocumentStore.LinkTagStep | Backend/Data/AppDbContext.cs:588-592 | linking fails exactly when the document already carries that name (the (DocumentId, TagId) primary key); otherwise it adds exactly that name and one link row |
| DocumentStore.LinkTagsCharacter | Backend/Data/AppDbContext.cs:269-286 | the tag loop succeeds exactly when the kept names repeat none and none is linked yet; then the document's names become the old ones plus the kept ones |
| DocumentStore.LinkTagsGrows | Backend/Data/AppDbContext.cs:269-286 | the tag loop only appends tags and links and never touches other tables |
| DocumentStore.LinkTagsLinksDocument | Backend/Data/AppDbContext.cs:285 | every link row the loop adds belongs to the new document |
| DocumentStore.InsertDocument | Backend/Data/AppDbContext.cs:256-296 | a null original name fails on its NOT NULL column; a major, minor or uploader id that names no row fails its foreign key; on success the document is appended under an id no document had, users and heads are untouched, and documents still file under existing minor heads; on failure nothing is kept (the rollback) |
| DocumentStore.InsertDocumentTags | Backend/Data/AppDbContext.cs:256-296 | the insert succeeds exactly when the original name is set, the referenced heads and uploader exist, and the kept tag names repeat none; then the tables stay valid and the new document is linked to exactly the kept names |
| DocumentQueries.Join | Backend/Data/AppDbContext.cs:304-308 | a joined row has a stored document, its major and minor head, and either one of its tag links or, for an untagged document, no tag (the LEFT JOINs) |
| DocumentQueries.TagRows | Backend/Data/AppDbContext.cs:307-308 | the LEFT JOIN gives every document at least one row |
| DocumentQueries.Aggregate | Backend/Data/AppDbContext.cs:311-351 | the folded documents' ids are the distinct row ids in order of first appearance |
| DocumentQueries.AggregateIds | Backend/Data/AppDbContext.cs:313-336 | the fold lists each document id once, only ids that occur in the rows, and every id that does |
| DocumentQueries.AggregateHeaders | Backend/Data/AppDbContext.cs:316-336 | each document's fields and heads come from the first row with its id |
| DocumentQueries.AggregateTagsDistinct | Backend/Data/AppDbContext.cs:337-349 | no document lists a tag id twice |
| DocumentQueries.AggregateTagsCarried | Backend/Data/AppDbContext.cs:337-349 | every listed tag comes from a row of that document with a non-null tag |
| DocumentQueries.AggregateTagsComplete | Backend/Data/AppDbContext.cs:337-349 | every non-null tag of a row is listed on its document, so a null tag adds nothing and loses nothing |
| DocumentQueries.AggregateSound | Backend/Data/AppDbContext.cs:311-351 | every folded document describes some row with its id, and each of its tags is carried by such a row |
| DocumentQueries.SortRows | Backend/Data/AppDbContext.cs:365 | the rows come out as a permutation of the input, ordered by UploadedAt then Id, both descending |
| DocumentQueries.AggregateNewestFirst | Backend/Data/AppDbContext.cs:365-407 | folding ordered rows gives documents strictly newest first (UploadedAt desc, then Id desc) |
| DocumentQueries.GetAllDocuments | Backend/Data/AppDbContext.cs:354-408 | lists every document the join reaches, once each, newest first |
| DocumentQueries.GetDocumentById | Backend/Data/AppDbContext.cs:298-352 | finds a document exactly when the join has a row for that id, and it has that id |
| DocumentQueries.GetDocumentByIdTags | Backend/Data/AppDbContext.cs:298-352 | the found document's tag names are exactly the names linked to it |
| DocumentQueries.InsertThenGetById | Backend/Data/AppDbContext.cs:256-352 | after a successful insert, reading the new id back gives the inserted fields (its heads exist, so the inner joins find it), tagged with exactly the kept names |
| DocumentQueries.GetDocumentByFileName | Backend/Data/AppDbContext.cs:475-528 | finds a document exactly when the join has a row with that stored file name, and it has that name |
| DocumentQueries.GetDocumentsByFileNames | Backend/Data/AppDbContext.cs:531-585 | an absent or empty list gives nothing; otherwise every reachable document with a listed name appears once and nothing else does |
| DocumentQueries.MatchingRowsMatch | Backend/Data/AppDbContext.cs:421-429 | the filtered rows are exactly the joined rows that meet every present filter, with From and To inclusive and a non-empty tag list filtering by row |
| DocumentQueries.SearchWithoutFilters | Backend/Data/AppDbContext.cs:421-429 | with no filter and no or an empty tag list, search returns exactly the full listing |
| DocumentQueries.SearchSound | Backend/Data/AppDbContext.cs:410-472 | every result meets the head and date filters; under a tag filter it has a tag, and lists only matching tags |
| DocumentQueries.SearchComplete | Backend/Data/AppDbContext.cs:410-472 | every document with a joined row that meets the filters is in the result |
| DocumentQueries.SearchNewestFirst | Backend/Data/AppDbContext.cs:429-471 | search results are distinct and newest first |
| AuthService.OtpCode | Backend/Services/AuthService.cs:23 | a code is six decimal digits worth 100000 to 999998 (the upper bound of Next is exclusive) |
| AuthService.OtpCodeCovers | Backend/Services/AuthService.cs:23 | every value from 100000 to 999998 is some roll's code |
| AuthService.RequestOtp | Backend/Services/AuthService.cs:21-55 | overwrites the mobile's code and no other; inserts a placeholder user (username = mobile, empty hash, not admin) only for an unseen mobile; fails with tables untouched when the mobile is another user's username |
| AuthService.RequestReplacesCode | Backend/Services/AuthService.cs:25 | after a second request, the first code no longer validates |
| AuthService.ValidateOtp | Backend/Services/AuthService.cs:57-69 | succeeds exactly when the stored code matches and a user has the mobile; then it removes that code and returns that user; otherwise nothing changes |
| AuthService.ValidateConsumes | Backend/Services/AuthService.cs:59-66 | a code that validated once does not validate again |
| AuthService.RequestThenValidate | Backend/Services/AuthService.cs:21-69 | the code a successful request issues validates and returns the user with that mobile |
| AuthService.CreateAdmin | Backend/Services/AuthService.cs:71-101 | a taken username yields none with no change; otherwise one admin whose mobile equals its username is appended (failing if that mobile is taken) |
| AuthService.CreateAdminTwice | Backend/Services/AuthService.cs:73-77 | creating the same admin again is refused and changes nothing |
| AuthService.Updated | Backend/Services/AuthService.cs:109-123 | renames to the trimmed name only when it is non-blank and differs untrimmed from the current one; rehashes only a non-blank password; id, mobile and role stay |
| AuthService.ReplaceUser | Backend/Services/AuthService.cs:127-128 | the UPDATE replaces exactly the rows with the user's id |
| AuthService.UpdateUser | Backend/Services/AuthService.cs:103-135 | an unknown id gives none; a clashing rename fails with nothing written; otherwise it writes only when something changed and mints a token, and then fails with the write kept when major head 1 does not exist, or inserts MinorHead(1, username) |
| AuthService.RenameIsTrimmed | Backend/Services/AuthService.cs:112-116 | a rename stores a non-empty name with no white space at either end |
| AuthService.UpdateUserKeepsUsersUnique | Backend/Services/AuthService.cs:125-129 | a profile update, completed or stopped after its write, never makes two users share an id, username or mobile |
| AuthController.RequestOtp | Backend/Controllers/AuthController.cs:25-31 | a missing or blank mobile gives 400 and touches no state; otherwise the code is stored and the reply echoes mobile and code, or is 500 when the insert fails |
| AuthController.ValidateOtp | Backend/Controllers/AuthController.cs:37-55 | a blank mobile or code gives 400 before the store is read; a wrong code gives 401 with nothing consumed; a right code is consumed before the profile checks |
| AuthController.CompleteLogin | Backend/Controllers/AuthController.cs:45-54 | a given username that is blank, or a given password shorter than 6 UTF-16 code units, gives 400 with nothing written; for a stored user anything else gives 200 with the updated user and its token, or 500; a 500 changes at most the user rows, changes nothing while major head 1 exists, and always happens when it does not; never 206 |
| AuthController.AstralPasswordLongEnough | Backend/Controllers/AuthController.cs:47 | a password of three characters outside the Basic Multilingual Plane is six code units long and passes the length rule |
| AuthController.ValidateOtpNeverPartial | Backend/Controllers/AuthController.cs:50-54 | validate-otp never answers 206 |
| AuthController.ValidateOtpReplay | Backend/Controllers/AuthController.cs:42-50 | replaying a request that signed in is refused with 401 |
| AuthController.WrongCodeKeepsCode | Backend/Controllers/AuthController.cs:42-43 | a wrong code gives 401 and leaves the stored code in place |
| AuthController.SessionBelongsToCaller | Backend/Controllers/AuthController.cs:42-54 | a session reply carries the id and mobile of the user who owns the mobile, and its admin flag decides the AdminOnly policy exactly as that user's role |
| AdminController.CreateAdminUser | Backend/Controllers/AdminController.cs:9-31 | no principal gives 401, no admin claim 403, a blank field 400, a taken username 409; otherwise 200 with the new admin, whose mobile is its username |
| AdminController.CreatedAdminIsAuthorized | Backend/Controllers/AdminController.cs:26-30 | a created admin's own token passes the AdminOnly policy |
| AdminController.CreateAdminUserRepeat | Backend/Controllers/AdminController.cs:26-28 | repeating a successful create gives 409 and changes nothing |
| JwtTokenHelper.UserClaimsRead | Backend/Helpers/JwtTokenHelper.cs:17-24 | the token carries four claims: sub is the decimal id, a null mobile or username reads as "", and isAdmin is "true" exactly for an admin and "false" otherwise |
| JwtTokenHelper.FindFirst | Backend/Controllers/DocumentsController.cs:47-50 | finds the value of the first claim whose type matches ignoring case, or none when no claim matches |
| JwtTokenHelper.GenerateToken | Backend/Helpers/JwtTokenHelper.cs:26-34 | a minted token is never empty |
| JwtTokenHelper.TokenSegments | Backend/Helpers/JwtTokenHelper.cs:26-34 | a minted token splits on '.' into header, payload and signature |
| JwtTokenHelper.AdminOnlyIffAdmin | Backend/Program.cs:73-78 | a token minted for a user passes the AdminOnly policy exactly when the user is an admin |
| JwtTokenHelper.AuthorizeAdmin | Backend/Program.cs:73-78 | an admin-only action admits exactly callers with isAdmin "true", challenges anonymous callers and forbids the rest |
| JwtTokenHelper.AuthorizeAny | Backend/Controllers/DocumentsController.cs:39 | an [Authorize] action admits every authenticated caller and never forbids |
| FileHelpers.GetExtension | Backend/Helpers/FileHelpers.cs:8 | the extension is the final '.'-suffix of the last path segment, or empty exactly when there is none or the name ends in '.' |
| FileHelpers.GetExtensionOfSuffix | Backend/Helpers/FileHelpers.cs:8 | a name ending in a '.'-led extension yields exactly that extension, whatever precedes it |
| FileHelpers.GetExtensionLower | Backend/Helpers/FileHelpers.cs:8 | lower-casing the name and taking the extension commute |
| FileHelpers.IsValidFileIff | Backend/Helpers/FileHelpers.cs:5-11 | a file is valid exactly when its final extension, lower-cased, is .jpg, .jpeg, .png, .gif or .pdf |
| FileHelpers.IsValidFileIgnoresCase | Backend/Helpers/FileHelpers.cs:8-9 | validity does not depend on letter case |
| FileHelpers.OnlyFinalExtensionCounts | Backend/Helpers/FileHelpers.cs:8-9 | "report.pdf.exe" is refused and "scan.exe.PDF" accepted |
| FileHelpers.NoExtensionRefused | Backend/Helpers/FileHelpers.cs:9 | a name without '.' or ending in '.' is refused |
| FileService.SaveFile | Backend/Services/FileService.cs:23-37 | fails exactly when the length exceeds the limit (equal is allowed); otherwise adds exactly one name: the GUID followed by the original's final extension, or by nothing when it has none |
| FileService.StoredNameKeepsOnlyExtension | Backend/Services/FileService.cs:28 | two uploads differing only in the stem get the same stored name, GUID + extension |
| FileService.DefaultLimit | Backend/Services/FileService.cs:17 | without configuration the limit is 10 × 1048576 bytes |
| FileService.DeleteFile | Backend/Services/FileService.cs:39-48 | reports true exactly when the file existed, and afterwards it is gone and nothing else changed |
| FileService.SaveThenDelete | Backend/Services/FileService.cs:23-48 | deleting a freshly saved file restores the store and reports true |
| FileService.GetFileUrl | Backend/Services/FileService.cs:50-53 | the URL is "/uploads/" followed by the stored name |
| FileService.FileUrlInjective | Backend/Services/FileService.cs:52 | different stored names get different URLs |
| HeadsController.GetByMajor | Backend/Controllers/HeadsController.cs:22-27 | lists exactly the minor heads with that major head id |
| HeadsController.Create | Backend/Controllers/HeadsController.cs:31-38 | no principal 401, no admin claim 403, a blank name 400 with nothing inserted; an unknown major id 500 with nothing inserted; otherwise inserts the trimmed name under a fresh id and echoes the untrimmed name |
| HeadsController.Delete | Backend/Controllers/HeadsController.cs:40-47 | no principal 401, no admin claim 403; for an admin, 404 exactly when no row has the id, 500 with nothing changed exactly when the head exists and a document is filed under it, otherwise 204 with exactly that id's rows removed |
| HeadsController.InUseHeadNotDeleted | Backend/Controllers/HeadsController.cs:40-47 | an admin deleting the minor head of a stored document gets 500 and the tables stay as they were |
| HeadsController.CreateListDelete | Backend/Controllers/HeadsController.cs:22-47 | a created minor head is listed under its major, and when every document's minor head exists, deleting it restores the tables |
| HeadsController.CreatedNameTrimmed | Backend/Controllers/HeadsController.cs:35-36 | the stored name is non-blank and already trimmed |
| DocumentsController.Stamp | Backend/Controllers/DocumentsController.cs:168 | yyyyMMddHHmmss is fourteen digits whose columns read back as year, month, day, hour, minute and second |
| DocumentsController.StampValue | Backend/Controllers/DocumentsController.cs:168 | read as one decimal number, the stamp is the four-digit year followed by month, day, hour, minute and second as two-digit columns |
| DocumentsController.DefaultZipName | Backend/Controllers/DocumentsController.cs:168 | the default name is "documents_", the stamp and ".zip": 28 characters |
| DocumentsController.WithZipSuffix | Backend/Controllers/DocumentsController.cs:168 | keeps a name that ends in ".zip" ignoring case, otherwise appends ".zip"; the requested name is always a prefix |
| DocumentsController.ZipName | Backend/Controllers/DocumentsController.cs:168 | a blank or absent name gives the default name, any other gets the suffix rule; the result always ends in ".zip" ignoring case |
| DocumentsController.ZipNameIdempotent | Backend/Controllers/DocumentsController.cs:168 | requesting an already chosen name returns it unchanged, at any later time |
| DocumentsController.ZipEntries | Backend/Controllers/DocumentsController.cs:157-165 | the archive holds each requested name that exists exactly once, in first-request order, and nothing else |
| DocumentsController.DownloadZip | Backend/Controllers/DocumentsController.cs:148-170 | 401 without a principal, 400 for an absent or empty list, otherwise a zip of those entries under the chosen name |
| DocumentsController.ZipSkipsMissingAndRepeats | Backend/Controllers/DocumentsController.cs:157-161 | asking for a present, a missing and the present name again zips the present one once |
| DocumentsController.Download | Backend/Controllers/DocumentsController.cs:129-140 | 401 without a principal, 400 for a blank name, 404 for a missing file, otherwise the file as an octet stream under its own name |
| DocumentsController.Delete | Backend/Controllers/DocumentsController.cs:172-179 | any authenticated caller may delete; 404 exactly when the file is absent, otherwise 204 with only that file removed |
| DocumentsController.DeleteTwice | Backend/Controllers/DocumentsController.cs:176-178 | deleting the same name again gives 404 |
| DocumentsController.CallerId | Backend/Controllers/DocumentsController.cs:46-53 | the uploader id is the first present claim (name identifier, sub, id) when it parses as a positive 32-bit integer |
| DocumentsController.UploadCallerIsTokenOwner | Backend/Controllers/DocumentsController.cs:46-53 | for a token the server minted, the uploader id is the token owner's id |
| DocumentsController.MappedCallerIsTokenOwner | Backend/Controllers/DocumentsController.cs:46-53 | the same holds after the default inbound mapping turns "sub" into the name-identifier claim |
| DocumentsController.Store | Backend/Controllers/DocumentsController.cs:59-79 | an oversized file is a 500 with nothing stored; within the limit the GUID-named file is saved whatever the insert does; a null original name is always a 500; a 500 never changes the tables; success returns the saved name (which starts with the GUID) and its /uploads/ URL and appends the row under the returned id |
| DocumentsController.Upload | Backend/Controllers/DocumentsController.cs:38-80 | anonymous gives 401; once the request body was read, every signed-in request is a 500 with nothing stored; otherwise the rest of the action runs with FileOriginalName left null |
| DocumentsController.UploadBinding | Backend/Controllers/DocumentsController.cs:43-79 | checks in order: 401 anonymous, 400 missing or empty file, 401 bad id claim or unknown user; only then stores |
| DocumentsController.UnsetNameFailsInsert | Backend/Controllers/DocumentsController.cs:58-77 | past the size-limit line, every admitted upload within the limit is a 500 that leaves the tables unchanged and its saved file in the directory |
| DocumentsController.UploadNeverSucceeds | Backend/Controllers/DocumentsController.cs:38-80 | no request ever gets a 200 from the action as written |
| DocumentsController.UploadCorrected | Backend/Controllers/DocumentsController.cs:43-79 | the same check order as the action; a success appends a row whose original name is the client's file name |
| DocumentsController.UploadDefaults | Backend/Controllers/DocumentsController.cs:62-77 | a corrected upload that is admitted and within the limit succeeds exactly when both head ids name existing heads and the non-blank tag names repeat none; the stored row records the client's file name (as original and file name) and size, remarks "" when null, date now when null, upload time now and the caller; its tags are exactly the non-blank names sent |
| DocumentsController.UploadThenDownload | Backend/Controllers/DocumentsController.cs:129-140 | the stored name a corrected upload returns can be downloaded |
| Http.KeptPairs | Frontend/src/api/http.ts:50-52 | keeps exactly the entries whose value is not undefined, null or '', each stringified |
| Http.KeptPairsOrder | Frontend/src/api/http.ts:50-52 | any two kept pairs come from parameters in the same relative order |
| Http.BuildQuery | Frontend/src/api/http.ts:48-55 | '' exactly when nothing is kept, otherwise '?' and the encoded kept pairs |
| Http.ZeroIsSent | Frontend/src/api/http.ts:51 | the number 0 is kept and sent as "0" |
| Http.BuildQueryRoundTrip | Frontend/src/api/http.ts:48-55 | parsing the built query with a matching decoder gives back exactly the kept pairs |
| Http.WithAuth | Frontend/src/api/http.ts:19-25 | adds "Authorization: Bearer <token>" exactly when a non-empty token is set and leaves every other header alone |
| Http.BearerCarriesToken | Frontend/src/api/http.ts:22 | the header value is "Bearer " followed by the token |
| Http.RejectionMessage | Frontend/src/api/http.ts:28-44 | with a response: a non-empty string message; else, when message is not a string, a non-empty string error; else the status text when non-empty; else "Request failed" (an empty string message falls through to the status text); no response gives the network message; an unsent request keeps its own message |
| Http.EmptyMessageShadowsError | Frontend/src/api/http.ts:34-37 | an empty message string hides the error field and falls back to the status text |
| Http.PlainBodyNotShown | Frontend/src/api/http.ts:32-37 | a body that is not an object is never shown |
| DocumentsApi.SearchSendsTags | Frontend/src/api/documentsApi.ts:15 | tags are sent exactly when the list is non-empty and its ',' join is non-empty, and the value sent is that join |
| DocumentsApi.AbsentFiltersOmitted | Frontend/src/api/documentsApi.ts:10-16 | every sent parameter comes from a present filter |
| DocumentsApi.TagsValueSplits | Frontend/src/api/documentsApi.ts:15 | tags without commas split back into the same list |
| DocumentsApi.TagEntries | Frontend/src/api/documentsApi.ts:33 | one Tags field per tag, in order |
| DocumentsApi.UploadFormFields | Frontend/src/api/documentsApi.ts:27-33 | the form starts with File, has both head ids, Remarks and DocumentDate only when non-empty, and the tags in order |
| DocumentsApi.FieldValues | Frontend/src/api/documentsApi.ts:27-33 | every field name carries exactly the values listed for it and no other name carries any |
| DocumentsApi.StripTrailingSlash | Frontend/src/api/documentsApi.ts:39 | removes at most one trailing '/' |
| DocumentsApi.DownloadUrl | Frontend/src/api/documentsApi.ts:38-42 | the URL ends with the file name |
| DocumentsApi.TrailingSlashIgnored | Frontend/src/api/documentsApi.ts:39-45 | a base URL with or without one trailing '/' gives the same download and zip URLs |
| DocumentsApi.OnlyOneSlashRemoved | Frontend/src/api/documentsApi.ts:39 | of two trailing slashes only one is removed |
| AuthStore.Persisted | Frontend/src/store/index.ts:10-16 | no entry, or an empty one, gives nothing; otherwise whatever parsing gives, a parse error giving nothing |
| AuthStore.InitialState | Frontend/src/store/index.ts:18-21 | the persisted token when it is non-empty and the persisted user when present; everything else is null |
| AuthStore.SetCredentials | Frontend/src/store/index.ts:27-31 | the state takes the payload and exactly the payload's JSON is stored under dms_auth; other keys stay |
| AuthStore.Logout | Frontend/src/store/index.ts:32-36 | token and user become null and dms_auth is removed; other keys stay |
| AuthStore.LogoutIdempotent | Frontend/src/store/index.ts:32-36 | logging out twice equals once, whatever the prior state |
| AuthStore.ReloadAfterSetCredentials | Frontend/src/store/index.ts:10-31 | reloading after setCredentials restores the same state, except that an empty token comes back null |
| AuthStore.ReloadAfterLogout | Frontend/src/store/index.ts:10-36 | reloading after logout starts signed out |
| UploadPage.AddTag | Frontend/src/pages/UploadPage.tsx:54-58 | appends the trimmed input at the end unless it is empty or already listed, in which case the list is unchanged |
| UploadPage.RemoveTag | Frontend/src/pages/UploadPage.tsx:60-62 | removes exactly that tag |
| UploadPage.RemoveTagKeepsOrder | Frontend/src/pages/UploadPage.tsx:60-62 | removing a listed tag keeps the others in order |
| UploadPage.AddTagKeepsOk | Frontend/src/pages/UploadPage.tsx:54-58 | adding keeps the list free of blanks, untrimmed names and duplicates |
| UploadPage.RemoveTagKeepsOk | Frontend/src/pages/UploadPage.tsx:60-62 | removing keeps the list free of blanks, untrimmed names and duplicates |
| UploadPage.EditsKeepTagsOk | Frontend/src/pages/UploadPage.tsx:54-62 | any sequence of adds and removes keeps that invariant |
| UploadPage.ReachableTagsOk | Frontend/src/pages/UploadPage.tsx:54-62 | every list reachable from the empty one is free of blanks and duplicates |
| UploadPage.AddThenRemove | Frontend/src/pages/UploadPage.tsx:54-62 | adding a new tag and removing it restores the list |
| UploadPage.KeyDown | Frontend/src/pages/UploadPage.tsx:64-70 | Enter or ',' adds the input as a tag and clears the input; other keys change nothing |
| UploadPage.Suggestions | Frontend/src/pages/UploadPage.tsx:142 | the first ten known tags not yet chosen, in order |
| UploadPage.PickSuggestion | Frontend/src/pages/UploadPage.tsx:72-74 | clicking a trimmed suggestion appends it |
| UploadPage.Submit | Frontend/src/pages/UploadPage.tsx:76-90 | no file gives 'File required' first, else a missing head 'Select major and minor'; otherwise it uploads the file with both heads, remarks and date only when non-empty, and the tags |
| UploadPage.Completed | Frontend/src/pages/UploadPage.tsx:91-96 | success reports the id and clears file, tags, remarks, date and minor while keeping the major; failure shows its message |
| UploadPage.Clear | Frontend/src/pages/UploadPage.tsx:148 | Clear empties the form, both heads included |
| UploadPage.SelectMajor | Frontend/src/pages/UploadPage.tsx:112 | choosing a major resets the minor and nothing else |
| UploadPage.SubmitAfterUploadNeedsFile | Frontend/src/pages/UploadPage.tsx:79-93 | submitting again right after a success asks for a file |
| UploadPage.PageTagsInsertable | Frontend/src/pages/UploadPage.tsx:83-90 | the page's tags never make the server's insert fail on a repeated tag |
| UploadPage.NextLineTagDropped | Frontend/src/pages/UploadPage.tsx:54-55 | a tag of U+0085 alone survives the browser's trim but the server skips it as white space |
| SearchPage.ParseTags | Frontend/src/pages/SearchPage.tsx:54 | the tags are exactly the non-empty trimmed comma pieces; each is comma-free and trimmed |
| SearchPage.TagsArgument | Frontend/src/pages/SearchPage.tsx:60 | no tags are sent exactly when parsing gives none |
| SearchPage.ParseJoinedTags | Frontend/src/pages/SearchPage.tsx:54 | parsing the comma join of trimmed, non-empty, comma-free tags gives them back |
| SearchPage.ParseEmpty | Frontend/src/pages/SearchPage.tsx:54 | an empty tag field gives no tags |
| SearchPage.ParsedTagsSplitBack | Frontend/src/pages/SearchPage.tsx:54 | the query value sent for parsed tags splits back into the same tags |
| SearchPage.Classify | Frontend/src/pages/SearchPage.tsx:82-85 | jpg, jpeg, png and gif are images, pdf is a PDF, anything else is unsupported |
| SearchPage.InferType | Frontend/src/pages/SearchPage.tsx:80-86 | image exactly for jpg, jpeg, png or gif and pdf exactly for pdf, read from the lower-cased text after the last '.' |
| SearchPage.TypeByExtension | Frontend/src/pages/SearchPage.tsx:80-86 | the stem never matters, and a bare extension is typed like a full name |
| SearchPage.TrailingDotUnsupported | Frontend/src/pages/SearchPage.tsx:81-82 | a name ending in '.' is unsupported |
| SearchPage.UpperCaseRecognised | Frontend/src/pages/SearchPage.tsx:81 | "PDF" is a PDF and "scan.JPG" an image |
| SearchPage.PreviewName | Frontend/src/pages/SearchPage.tsx:93-94 | the original name when present, otherwise the stored name |
| SearchPage.Toggle | Frontend/src/pages/SearchPage.tsx:177 | flips that name's membership, leaves all other names alone and keeps the selection duplicate-free |
| SearchPage.ToggleTwiceRestores | Frontend/src/pages/SearchPage.tsx:177 | checking and unchecking an unselected name restores the selection |
| SearchPage.ToggleTwiceMovesToEnd | Frontend/src/pages/SearchPage.tsx:177 | unchecking and rechecking a selected name moves it to the end |
| SearchPage.ClicksKeepNoDuplicates | Frontend/src/pages/SearchPage.tsx:177 | any sequence of clicks keeps the selection duplicate-free |
| SearchPage.IdOrUndefined | Frontend/src/pages/SearchPage.tsx:56-57 | a head id is sent only when chosen and non-zero |
| SearchPage.PageCriteria | Frontend/src/pages/SearchPage.tsx:54-61 | heads only when non-zero, dates only when non-empty, tags only when some parse |
| SearchPage.ZeroHeadIdNotSent | Frontend/src/pages/SearchPage.tsx:56 | a head id of 0 searches as if none were chosen |
| SearchPage.RunSearch | Frontend/src/pages/SearchPage.tsx:49-61 | without a token nothing happens; otherwise it clears messages, starts loading and sends the page's criteria |
| SearchPage.SearchDone | Frontend/src/pages/SearchPage.tsx:62-67 | success replaces the list, clears the selection and reports the count; failure shows its message |
| SearchPage.SelectMajor | Frontend/src/pages/SearchPage.tsx:125 | choosing a major resets the minor and nothing else |
| SearchPage.Reset | Frontend/src/pages/SearchPage.tsx:151 | Reset clears every filter, the list, the selection and both messages |
| SearchPage.ResetSearchesEverything | Frontend/src/pages/SearchPage.tsx:151 | after Reset a search sends no filter at all |
| SearchPage.BulkZip | Frontend/src/pages/SearchPage.tsx:107-110 | nothing is requested for an empty selection, otherwise exactly the selection |
| SearchPage.BulkZipAccepted | Frontend/src/pages/SearchPage.tsx:107-110 | the server zips exactly the selected names that exist, in selection order |
| CreateAdminPage.Submit | Frontend/src/pages/CreateAdminPage.tsx:17-28 | sends exactly when the trimmed username is 3 or more UTF-16 code units long, the untrimmed password 6 or more, and nothing is loading; the request carries the trimmed username and raw password |
| CreateAdminPage.Completed | Frontend/src/pages/CreateAdminPage.tsx:29-33 | success reports the id and clears both fields and the password toggle; failure keeps the fields and shows a non-empty message |
| CreateAdminPage.CreatedFormInvalid | Frontend/src/pages/CreateAdminPage.tsx:17-30 | right after a success the form is invalid and a submit sends nothing |
| CreateAdminPage.BlankPasswordPassesPageNotServer | Frontend/src/pages/CreateAdminPage.tsx:18 | six spaces pass the page's password rule yet the server answers 400 |
| AdminPage.Submit | Frontend/src/pages/AdminPage.tsx:14-24 | refuses exactly a blank username or an empty password; otherwise sends the trimmed username and raw password |
| AdminPage.Completed | Frontend/src/pages/AdminPage.tsx:25-30 | success reports id and username and clears both fields; failure shows its message |
| AdminPage.ResubmitAfterSuccess | Frontend/src/pages/AdminPage.tsx:18-27 | submitting again right after a success is refused locally |
| AdminPage.SubmitClearsMessages | Frontend/src/pages/AdminPage.tsx:16-17 | a submit starts from an empty result, and from an empty error unless refused |
| LoginPage.RequestOtp | Frontend/src/pages/LoginPage.tsx:40-46 | a blank mobile is refused; otherwise the trimmed mobile is sent |
| LoginPage.OtpRequested | Frontend/src/pages/LoginPage.tsx:46-51 | success moves to the code step and remembers a non-empty returned code; failure shows its message |
| LoginPage.Validate | Frontend/src/pages/LoginPage.tsx:54-67 | a blank mobile or code is refused; otherwise both are sent trimmed, and profile fields only from the details step |
| LoginPage.Validated | Frontend/src/pages/LoginPage.tsx:69-103 | 401 and 400 set their messages and keep the step, 206 moves to details, 200 with a body signs in with its token and user, anything else is unexpected |
| LoginPage.Back | Frontend/src/pages/LoginPage.tsx:133-158 | back from the code step clears the code and returns to the mobile step; back from details returns to the code step |
| LoginPage.BackDropsDetails | Frontend/src/pages/LoginPage.tsx:64-66 | after going back from details, validating sends no profile fields |
| LoginPage.DetailsNeverReached | Frontend/src/pages/LoginPage.tsx:77-87 | against this server the page never reaches the details step |
| LoginPage.SessionSignsIn | Frontend/src/pages/LoginPage.tsx:88-97 | a session reply signs in with exactly the token and user the server sent |
| ProfilePage.ToBase64 | Frontend/src/pages/ProfilePage.tsx:13 | maps '-' to '+' and '_' to '/', character by character |
| ProfilePage.Base64RoundTrip | Frontend/src/pages/ProfilePage.tsx:13 | the mapping is undone by its inverse on strings without '+' or '/' |
| ProfilePage.Base64UrlRoundTrip | Frontend/src/pages/ProfilePage.tsx:13 | and conversely on strings without '-' or '_' |
| ProfilePage.DecodeJwt | Frontend/src/pages/ProfilePage.tsx:9-16 | nothing unless the token has exactly three parts; otherwise the parsed, base64-decoded middle part |
| ProfilePage.DecodesServerToken | Frontend/src/pages/ProfilePage.tsx:9-16 | a token minted by the server decodes to its own payload |
| ProfilePage.TwoPartsRejected | Frontend/src/pages/ProfilePage.tsx:11-12 | a two-part token is rejected |
| ProfilePage.ExpiryMs | Frontend/src/pages/ProfilePage.tsx:39 | the expiry is exp × 1000 when exp is present and non-zero |
| ProfilePage.RemainingMs | Frontend/src/pages/ProfilePage.tsx:41 | the remaining time is never negative and is either 0 or expiry minus now |
| ProfilePage.RemainingMin | Frontend/src/pages/ProfilePage.tsx:42 | whole minutes of the remaining time, present exactly when there is an expiry |
| ProfilePage.RemainingSec | Frontend/src/pages/ProfilePage.tsx:43 | leftover seconds, 0 to 59 |
| ProfilePage.RemainingReconstructs | Frontend/src/pages/ProfilePage.tsx:41-43 | minutes and seconds reconstruct the remaining time to within a second |
| ProfilePage.RemainingShrinks | Frontend/src/pages/ProfilePage.tsx:41 | the remaining time never grows as time passes |
| ProfilePage.ZeroExpiryHidden | Frontend/src/pages/ProfilePage.tsx:39-43 | an exp of 0 shows no expiry |
| Text.Utf16Length | Backend/Controllers/AuthController.cs:47 | the code-unit length lies between the character count and twice it |
| Text.Utf16LengthIsCount | Frontend/src/pages/CreateAdminPage.tsx:17-18 | the code-unit length equals the character count exactly when every character is in the Basic Multilingual Plane |
| Text.Utf16LengthAppend | Frontend/src/pages/CreateAdminPage.tsx:17-18 | code-unit lengths add up over concatenation |
| Text.Trim | Backend/Controllers/HeadsController.cs:36 | removes exactly the leading and trailing white space; empty exactly for a blank string |
| Text.TrimIdempotent | Backend/Controllers/HeadsController.cs:36 | trimming twice is trimming once |
| Text.Lower | Backend/Helpers/FileHelpers.cs:8 | lower-cases character by character, keeping the length |
| Text.Split | Frontend/src/pages/SearchPage.tsx:54 | the pieces contain no separator and join back to the input |
| Text.SplitJoin | Frontend/src/api/documentsApi.ts:15 | joining separator-free pieces and splitting gives them back |
| Text.NatToString | Backend/Helpers/JwtTokenHelper.cs:19 | decimal digits without leading zeros whose value is the number |
| Text.ZeroPad | Backend/Controllers/DocumentsController.cs:168 | exactly the width in digits, with the number's value |
| Text.ParseInt32 | Backend/Controllers/DocumentsController.cs:52 | succeeds exactly when the text without surrounding white space is an optional sign followed by digits whose value fits a 32-bit integer, and then gives that signed value |
| Text.ParseNatToString | Backend/Controllers/DocumentsController.cs:52 | parsing the decimal rendering of a 32-bit natural gives the number back |
| Text.ParseIntToString | Backend/Controllers/DocumentsController.cs:52 | parsing the decimal rendering of any 32-bit integer, negative ones included, gives the number back |
| Text.ParseExamples | Backend/Controllers/DocumentsController.cs:52 | "12abc" is refused and " -5 " parses to -5 |
| Seqs.Distinct | Backend/Controllers/DocumentsController.cs:157 | the result repeats no element and holds exactly the elements of the input |
| Seqs.DistinctOrder | Backend/Controllers/DocumentsController.cs:157 | the distinct elements come in the order of their first occurrence in the input |
| Seqs.DistinctOfNoDuplicates | Backend/Controllers/DocumentsController.cs:157 | Distinct leaves a duplicate-free list as it is |
| Seqs.RemoveAll | Frontend/src/pages/SearchPage.tsx:177 | removes exactly that element and keeps a duplicate-free list duplicate-free |
| Seqs.RemoveAllAt | Frontend/src/pages/UploadPage.tsx:61 | in a duplicate-free list, removing an element keeps the rest in order |
| Seqs.Filter | Frontend/src/pages/UploadPage.tsx:142 | keeps exactly the elements meeting the condition |
| Seqs.FilterAppend | Frontend/src/pages/UploadPage.tsx:142 | filtering a concatenation is the concatenation of the filtered parts, so order and repeats are kept |
| Seqs.FilterSingleton | Frontend/src/pages/UploadPage.tsx:142 | a single element is kept exactly when it meets the condition |
| Seqs.Take | Frontend/src/pages/UploadPage.tsx:142 | the prefix of exactly the given length, or all of a shorter list |

## Left out

- Concurrency and asynchrony: the static OTP dictionary is not thread-safe. Every call is modelled as one atomic step.
- MySQL and Dapper themselves are not modelled: connections, DDL execution, foreign-key cascades and transactions as a mechanism. An insert that fails returns no tables, so the caller keeps the old ones, and that is the rollback.
- MySQL's default collation compares names without regard to case and trailing spaces. The model compares exactly.
- AUTO_INCREMENT is modelled as one more than the largest id in the table. A real counter never reuses an id freed by a delete.
- The foreign keys are enforced on insert for minor heads and documents, and on delete for the reference from Documents.MinorHeadId. Their `ON DELETE CASCADE` actions are not modelled, because no modelled statement deletes a major head, a tag or a document row.
- Column widths are not enforced. Under MySQL's strict mode a value longer than its `VARCHAR` column makes the insert throw. The model's inserts do not fail for it, so the following members succeed where the source throws:
- Tables.InsertUser: does not fail for a Username over 100 or a Mobile over 20 characters (Users, AppDbContext.cs:34-35).
- Tables.InsertTag: does not fail for a name over 100 characters (Tags.Name, AppDbContext.cs:45).
- Tables.InsertMinorHead: does not fail for a name over 100 characters (MinorHeads.Name, AppDbContext.cs:60).
- DocumentStore.InsertDocument: does not fail for a FileOriginalName over 255, a FileName over 500 or a ContentType over 100 characters (AppDbContext.cs:68-70).
- DocumentStore.InsertDocumentTags: its "succeeds exactly when" ignores the widths above and that a new kept name over 100 characters fails the Tags insert and rolls the document back.
- Seeding.SeedMinor: inserts a trimmed minor name over 100 characters, where the source's start-up seeding throws (MinorHeads.Name, AppDbContext.cs:60 and 129-131).
- Seeding.SeedAdmin: inserts an admin whose Mobile is over 20 or whose Username is over 100 characters, where the source's start-up seeding throws (AppDbContext.cs:34-35 and 151-155).
- AuthService.RequestOtp: inserts the placeholder user for an unseen mobile of 21 or more characters, where the source's insert throws on Mobile VARCHAR(20).
- AuthController.RequestOtp: for the same mobile answers 200, where the source answers 500.
- AuthService.UpdateUser: writes a rename to a trimmed name over 100 characters, where the source's UPDATE throws on Users.Username VARCHAR(100) with nothing written. The partial write when major head 1 is missing is modelled.
- AuthController.CompleteLogin: for the same rename answers 200, where the source answers 500.
- HeadsController.Create: inserts a trimmed name over 100 characters, where the source answers 500. The unknown major id is modelled.
- DocumentsController.UploadCorrected: stores a client file name over 255 characters or a content type over 100, where the insert would throw.
- DocumentsController.UploadDefaults: its "succeeds exactly when" ignores the same widths.
- AuthService.CreateAdmin: stores the username as the mobile, so a username of 21 to 100 characters fails Mobile VARCHAR(20) in the source. The model appends the admin.
- AdminController.CreateAdminUser: for the same reason, an admin username of 21 to 100 characters gets 500 from the source. The model answers 200.
- BCrypt, HMAC signing, JWT serialisation, the `double.Parse` of the expiry, `Random`, `Guid.NewGuid` and `DateTime.UtcNow` are parameters. So are URL encoding, `JSON.stringify`, `JSON.parse` and `atob`.
- JwtTokenHelper.GenerateToken: states only that the token is non-empty and splits into three parts. The token's encoding is a parameter.
- JwtTokenHelper.FindFirst: compares claim types ignoring case for ASCII letters only. Culture-specific case folding is not modelled.
- Text.Lower: lower-cases ASCII letters only. ToLowerInvariant and toLowerCase also fold other alphabets.
- Strings are sequences of Unicode characters. Where the source compares a string's length (the server's password rule and the create-admin page's rules), the model counts UTF-16 code units with `Text.Utf16Length`. Indices into strings count characters.
- Streaming is not modelled: ZipArchive compression, file streams and physical paths.
- The request-body size setter at the start of `Upload` is modelled only by its outcome: once the body was read it throws, whatever the value. The value it computes (`_maxFileSize * 1024 * 1024` in 32-bit arithmetic) is not modelled.
- `[ApiController]` model validation runs before the action and is not modelled: its automatic 400 for a request whose binding fails validation.
- DocumentQueries.Aggregate: lists the documents in the order their ids first appear, which is the order `Dictionary.Values` gives when nothing was removed. .NET does not document that order.
- Text.ParseInt32: takes '-' and '+' as the sign symbols. `int.TryParse` reads them from the current culture.
- ASP.NET wiring is not modelled: CORS, Swagger and the middleware order. Authentication is the caller's claim list, or none for an anonymous caller.
- DocumentsController.GetAll and GetById: their anonymous projections of the folded documents are not modelled separately. The fold they return is.
- MinorHeadsController and MajorHeadsController are not part of this model. The second calls data-layer methods that do not exist.
- Rendering, navigation, the page guards on a missing token, the upload page's guard that shows "Only admin can upload." instead of the form to a signed-in non-admin (UploadPage.tsx:100), object URLs, `alert`, the head and tag-suggestion fetches, and the login page's department list are not modelled.
- The thin request wrappers in authApi, headsApi and adminApi are not modelled. The request bodies they send are modelled on the pages.
- `IsValidFile` is modelled on a file name, because the `IFormFile` only contributes its name.

## Findings

| source | as written | input that shows it | evidently intended | confidence | as-written member | corrected member |
|---|---|---|---|---|---|---|
| Backend/Controllers/DocumentsController.cs:42 | the action sets `MaxRequestBodySize` after binding of the `[FromForm]` request has read the body, and Kestrel throws for a limit changed after the body was read | any signed-in upload that sends a multipart form: the reply is 500 and nothing is stored | the limit set before the body is read (a request-size attribute or the server options), so the action's own checks run | medium (depends on the host refusing the change, as Kestrel does), not executed | DocumentsController.Upload | DocumentsController.UploadCorrected |
| Backend/Controllers/DocumentsController.cs:62-73 | the new `Document` never gets a `FileOriginalName`, and the insert binds it into `FileOriginalName VARCHAR(255) NOT NULL` (AppDbContext.cs:68, 263-267) | any admitted upload within the size limit: the insert throws, the reply is 500, the tables are unchanged and the saved file stays in the directory | `FileOriginalName` set to the client's file name | medium (the `Backend.Models.Document` class the data layer binds is not part of this model; its sibling model classes initialise strings to null), not executed | DocumentsController.UnsetNameFailsInsert | DocumentsController.UploadDefaults |

=== FILE: admin_controller.dfy ===
/**
 * AdminController: create-user behind the AdminOnly policy, checking its
 * input before the service is called and mapping "username exists" to 409.
 */
module AdminController {
  import opened Wrappers
  import opened Text
  import opened Tables
  import opened JwtTokenHelper
  import AuthService

  datatype Reply =
    | Created(id: nat, username: string, mobile: string, isAdmin: bool)
    | BadRequest(message: string)
    | Conflict(message: string)
    | Challenged
    | Forbidden
    | ServerError

  function StatusCode(r: Reply): nat {
    match r
    case Created(_, _, _, _) => 200
    case BadRequest(_) => 400
    case Conflict(_) => 409
    case Challenged => 401
    case Forbidden => 403
    case ServerError => 500
  }

  predicate Missing(s: Option<string>) {
    s.None? || IsBlank(DotNet, s.value)
  }

  /**
   * POST api/admin/create-user. Without a principal 401, without the admin
   * claim 403, with a blank field 400, with a taken username 409; otherwise a
   * new admin whose mobile is its username (500 when that mobile is taken).
   * Every refusal leaves the database as it was.
   */
  function CreateAdminUser(db: Db, caller: Option<seq<Claim>>, username: Option<string>, password: Option<string>,
                           hash: string -> string)
    : (r: (Db, Reply))
    ensures StatusCode(r.1) == 401 <==> caller.None?
    ensures StatusCode(r.1) == 403 <==> caller.Some? && !AdminOnly(caller.value)
    ensures StatusCode(r.1) == 400 <==> AuthorizeAdmin(caller) == Allow && (Missing(username) || Missing(password))
    ensures StatusCode(r.1) == 409 <==>
      AuthorizeAdmin(caller) == Allow && !Missing(username) && !Missing(password) && HasUsername(db, username.value)
    ensures r.1.Created? ==>
      && AuthorizeAdmin(caller) == Allow && !Missing(username) && !Missing(password)
      && var u := User(NextUserId(db), None, username.value, username.value, hash(password.value), true);
         && r.1 == Created(u.id, u.username, u.mobile, true)
         && r.0 == db.(users := db.users + [u])
    ensures !r.1.Created? ==> r.0 == db
  {
    match AuthorizeAdmin(caller)
    case Challenge => (db, Challenged)
    case Forbid => (db, Forbidden)
    case Allow =>
      if Missing(username) || Missing(password) then (db, BadRequest("Username and Password required"))
      else
        var (db1, res) := AuthService.CreateAdmin(db, username.value, password.value, hash);
        match res
        case Failure(_) => (db1, ServerError)
        case Success(None) => (db1, Conflict("Username already exists"))
        case Success(Some(u)) => (db1, Created(u.id, u.username, u.mobile, u.isAdmin))
  }

  /**
   * An admin created here can use this endpoint in turn: a token minted for the
   * new row passes the AdminOnly policy.
   */
  lemma CreatedAdminIsAuthorized(db: Db, caller: Option<seq<Claim>>, username: Option<string>,
                                 password: Option<string>, hash: string -> string)
    requires CreateAdminUser(db, caller, username, password, hash).1.Created?
    ensures var (db1, _) := CreateAdminUser(db, caller, username, password, hash);
      var u := db1.users[|db1.users| - 1];
      && AuthorizeAdmin(Some(ClaimsFor(u))) == Allow
      && u.username == username.value && u.mobile == username.value
  {
    var (db1, _) := CreateAdminUser(db, caller, username, password, hash);
    AdminOnlyIffAdmin(db1.users[|db1.users| - 1]);
  }

  /** Repeating a successful request is answered 409 and changes nothing. */
  lemma CreateAdminUserRepeat(db: Db, caller: Option<seq<Claim>>, username: Option<string>,
                              password: Option<string>, hash: string -> string)
    requires CreateAdminUser(db, caller, username, password, hash).1.Created?
    ensures var (db1, _) := CreateAdminUser(db, caller, username, password, hash);
      CreateAdminUser(db1, caller, username, password, hash) == (db1, Conflict("Username already exists"))
  {
    var (db1, _) := CreateAdminUser(db, caller, username, password, hash);
    assert db1.users[|db.users|].username == username.value;
  }
}

=== FILE: admin_page.dfy ===
/**
 * The older admin page: a create-user form that only checks that both
 * fields were filled in before calling the create-user endpoint.
 */
module AdminPage {
  import opened Wrappers
  import opened Text

  const Required: string := "Username and Password required"

  datatype Page = Page(username: string, password: string, loading: bool, error: string, result: string)

  /** The body posted to admin/create-user. */
  datatype CreateRequest = CreateRequest(username: string, password: string)

  /**
   * submit: clears the error and result; a blank username (after trimming)
   * or an empty password sets the error and sends nothing; otherwise the
   * trimmed username and the password as typed are posted.
   */
  function Submit(p: Page): (r: (Page, Option<CreateRequest>))
    ensures r.1.None? <==> IsBlank(JavaScript, p.username) || p.password == ""
    ensures r.1.None? ==> r.0 == p.(error := Required, result := "")
    ensures r.1.Some? ==>
      && r.0 == p.(error := "", result := "", loading := true)
      && r.1.value == CreateRequest(Trim(JavaScript, p.username), p.password)
      && !IsBlank(JavaScript, r.1.value.username) && r.1.value.password != ""
  {
    var cleared := p.(error := "", result := "");
    if Trim(JavaScript, p.username) == "" || p.password == "" then (cleared.(error := Required), None)
    else
      TrimmedNotBlank(JavaScript, p.username);
      (cleared.(loading := true), Some(CreateRequest(Trim(JavaScript, p.username), p.password)))
  }

  /** The reply: success reports id and username and clears both fields; a failure shows its message. */
  function Completed(p: Page, outcome: Result<(int, string), string>): (r: Page)
    ensures !r.loading
    ensures outcome.Success? ==>
      r == p.(result := "Created user id=" + IntToString(outcome.value.0) + " username=" + outcome.value.1,
              username := "", password := "", loading := false)
    ensures outcome.Failure? ==> r == p.(error := outcome.error, loading := false)
  {
    match outcome
    case Success((id, name)) =>
      p.(result := "Created user id=" + IntToString(id) + " username=" + name, username := "", password := "",
         loading := false)
    case Failure(e) => p.(error := e, loading := false)
  }

  /** Submitting again right after a success is refused locally: both fields were cleared. */
  lemma ResubmitAfterSuccess(p: Page, id: int, name: string)
    ensures Submit(Completed(p, Success((id, name)))).1.None?
    ensures Submit(Completed(p, Success((id, name)))).0.error == Required
  {
  }

  /** Whatever the earlier state, a submit starts from an empty error and result unless it is refused. */
  lemma SubmitClearsMessages(p: Page)
    ensures Submit(p).0.result == ""
    ensures Submit(p).1.Some? ==> Submit(p).0.error == ""
  {
  }
}

=== FILE: auth_controller.dfy ===
/**
 * AuthController: the order in which request-otp and validate-otp check their
 * input, consult the service and choose a status code. An exception thrown
 * by the service surfaces as 500.
 */
module AuthController {
  import opened Wrappers
  import opened Text
  import opened Tables
  import opened JwtTokenHelper
  import AuthService

  datatype Reply =
    | OtpIssued(mobile: string, otp: string)
    | Session(id: nat, username: string, mobile: string, departmentId: Option<int>, isAdmin: bool, token: string)
    | BadRequest(message: string)
    | Unauthorized(message: string)
    | NotFound
    | PartialContent
    | ServerError

  function StatusCode(r: Reply): nat {
    match r
    case OtpIssued(_, _) => 200
    case Session(_, _, _, _, _, _) => 200
    case BadRequest(_) => 400
    case Unauthorized(_) => 401
    case NotFound => 404
    case PartialContent => 206
    case ServerError => 500
  }

  /** A string field of a JSON body that string.IsNullOrWhiteSpace rejects. */
  predicate Missing(s: Option<string>) {
    s.None? || IsBlank(DotNet, s.value)
  }

  /**
   * POST api/auth/request-otp: a missing mobile is refused before the store is
   * touched; otherwise the reply echoes the mobile and the issued code.
   */
  function RequestOtp(st: AuthService.AuthState, mobile: Option<string>, roll: nat)
    : (r: (AuthService.AuthState, Reply))
    ensures Missing(mobile) ==> r == (st, BadRequest("Mobile is required"))
    ensures !Missing(mobile) ==>
      && r.0.otps == st.otps[mobile.value := AuthService.OtpCode(roll)]
      && (r.1.OtpIssued? <==> HasMobile(st.db, mobile.value) || !HasUsername(st.db, mobile.value))
      && (r.1.OtpIssued? ==> r.1 == OtpIssued(mobile.value, AuthService.OtpCode(roll)))
      && (!r.1.OtpIssued? ==> r.1 == ServerError && r.0.db == st.db)
  {
    if Missing(mobile) then (st, BadRequest("Mobile is required"))
    else
      var (st1, res) := AuthService.RequestOtp(st, mobile.value, roll);
      match res
      case Failure(_) => (st1, ServerError)
      case Success(otp) => (st1, OtpIssued(mobile.value, otp))
  }

  /** The body of validate-otp. */
  datatype ValidateOtpDto = ValidateOtpDto(
    mobile: Option<string>,
    otp: Option<string>,
    username: Option<string>,
    password: Option<string>,
    department: Option<int>)

  /** The profile checks that run once the code was accepted: a given username must not be blank, a given password needs 6 UTF-16 code units. */
  predicate ProfileInvalid(dto: ValidateOtpDto) {
    (dto.username.Some? && IsBlank(DotNet, dto.username.value))
    || (dto.password.Some? && Utf16Length(dto.password.value) < 6)
  }

  /** A password of three characters outside the Basic Multilingual Plane is six code units long, so it passes. */
  lemma AstralPasswordLongEnough()
    ensures !ProfileInvalid(ValidateOtpDto(Some("m"), Some("1"), None, Some("\U{1F600}\U{1F600}\U{1F600}"), None))
  {
  }

  /**
   * POST api/auth/validate-otp: 400 for a missing mobile or code, 401 when the
   * service does not accept the code, and otherwise the steps of
   * CompleteLogin, which run with the code already consumed.
   */
  function ValidateOtp(st: AuthService.AuthState, dto: ValidateOtpDto, jose: Jose, hash: string -> string)
    : (r: (AuthService.AuthState, Reply))
    ensures Missing(dto.mobile) || Missing(dto.otp) ==> r == (st, BadRequest("Mobile and Otp are required"))
    ensures !Missing(dto.mobile) && !Missing(dto.otp) && !AuthService.Accepts(st, dto.mobile.value, dto.otp.value) ==>
      r == (st, Unauthorized("Invalid OTP"))
    ensures !Missing(dto.mobile) && !Missing(dto.otp) && AuthService.Accepts(st, dto.mobile.value, dto.otp.value) ==>
      var user := UserByMobile(st.db.users, dto.mobile.value).value;
      r == CompleteLogin(st.(otps := st.otps - {dto.mobile.value}), user, dto, jose, hash)
  {
    if Missing(dto.mobile) || Missing(dto.otp) then (st, BadRequest("Mobile and Otp are required"))
    else
      var (st1, found) := AuthService.ValidateOtp(st, dto.mobile.value, dto.otp.value);
      match found
      case None => (st1, Unauthorized("Invalid OTP"))
      case Some(user) => CompleteLogin(st1, user, dto, jose, hash)
  }

  /**
   * What validate-otp does once the code was accepted for `user`: 400 for a
   * whitespace username or a password shorter than 6 UTF-16 code units (absent ones
   * pass), then the profile update; 500 when it throws, and otherwise a
   * session for the updated user. The 404 and 206 outcomes cannot occur for
   * a user taken from the table. A clashing rename throws before anything is
   * written; a missing major head 1 throws after the user row was rewritten,
   * so that 500 keeps the write.
   */
  function CompleteLogin(st: AuthService.AuthState, user: User, dto: ValidateOtpDto, jose: Jose, hash: string -> string)
    : (r: (AuthService.AuthState, Reply))
    ensures r.0.otps == st.otps
    ensures ProfileInvalid(dto) ==> StatusCode(r.1) == 400 && r.0 == st
    ensures user in st.db.users && !ProfileInvalid(dto) ==> StatusCode(r.1) == 200 || StatusCode(r.1) == 500
    ensures StatusCode(r.1) != 206
    ensures StatusCode(r.1) == 500 ==> r.0 == st.(db := st.db.(users := r.0.db.users))
    ensures StatusCode(r.1) == 500 && HasMajor(st.db, 1) ==> r.0 == st
    ensures user in st.db.users && !ProfileInvalid(dto) && !HasMajor(st.db, 1) ==> StatusCode(r.1) == 500
    ensures r.1.Session? ==>
      && UserById(st.db.users, user.id).Some?
      && var u := AuthService.Updated(UserById(st.db.users, user.id).value, dto.username, dto.password, hash);
         r.1 == Session(u.id, u.username, u.mobile, u.departmentId, u.isAdmin, GenerateToken(u, jose))
  {
    if dto.username.Some? && IsBlank(DotNet, dto.username.value) then
      (st, BadRequest("Username cannot be whitespace"))
    else if dto.password.Some? && Utf16Length(dto.password.value) < 6 then
      (st, BadRequest("Password must be at least 6 chars"))
    else
      var (db2, updated) := AuthService.UpdateUser(st.db, jose, user.id, dto.username, dto.password, hash);
      match updated
      case Failure(_) => (st.(db := db2), ServerError)
      case Success(None) => (st.(db := db2), NotFound)
      case Success(Some((u, token))) =>
        if token == "" then (st.(db := db2), PartialContent)
        else (st.(db := db2), Session(u.id, u.username, u.mobile, u.departmentId, u.isAdmin, token))
  }

  /**
   * The 206 branch is dead: the profile update mints a three-segment token,
   * which is never empty, so validate-otp never answers 206.
   */
  lemma ValidateOtpNeverPartial(st: AuthService.AuthState, dto: ValidateOtpDto, jose: Jose, hash: string -> string)
    ensures StatusCode(ValidateOtp(st, dto, jose, hash).1) != 206
  {
  }

  /** Replaying a request that was answered 200 is refused with 401: the code was used up. */
  lemma ValidateOtpReplay(st: AuthService.AuthState, dto: ValidateOtpDto, jose: Jose, hash: string -> string)
    requires ValidateOtp(st, dto, jose, hash).1.Session?
    ensures var (st1, _) := ValidateOtp(st, dto, jose, hash);
      StatusCode(ValidateOtp(st1, dto, jose, hash).1) == 401
  {
    var mobile, otp := dto.mobile.value, dto.otp.value;
    assert !Missing(dto.mobile) && !Missing(dto.otp);
    assert AuthService.Accepts(st, mobile, otp);
    var user := UserByMobile(st.db.users, mobile).value;
    var st1 := CompleteLogin(st.(otps := st.otps - {mobile}), user, dto, jose, hash).0;
    assert st1.otps == st.otps - {mobile};
    assert !AuthService.Accepts(st1, mobile, otp);
  }

  /** A wrong code does not use up the right one. */
  lemma WrongCodeKeepsCode(st: AuthService.AuthState, dto: ValidateOtpDto, jose: Jose, hash: string -> string)
    requires !Missing(dto.mobile) && !Missing(dto.otp)
    requires dto.mobile.value in st.otps && st.otps[dto.mobile.value] != dto.otp.value
    ensures var (st1, r) := ValidateOtp(st, dto, jose, hash);
      StatusCode(r) == 401 && st1.otps == st.otps
  {
  }

  /**
   * With a well-formed user table, a session answers for the user who owns the
   * mobile: same id and mobile, and its token passes the AdminOnly policy
   * exactly when that user is an admin.
   */
  lemma SessionBelongsToCaller(st: AuthService.AuthState, dto: ValidateOtpDto, jose: Jose, hash: string -> string)
    requires UsersUnique(st.db.users)
    requires ValidateOtp(st, dto, jose, hash).1.Session?
    ensures var s := ValidateOtp(st, dto, jose, hash).1;
      var owner := UserByMobile(st.db.users, dto.mobile.value);
      && owner.Some?
      && s.id == owner.value.id && s.mobile == dto.mobile.value
      && (AdminOnly(ClaimsFor(User(s.id, s.departmentId, s.username, s.mobile, "", s.isAdmin))) <==> owner.value.isAdmin)
  {
    var owner := UserByMobile(st.db.users, dto.mobile.value).value;
    var k :| 0 <= k < |st.db.users| && st.db.users[k] == owner;
    UserByIdFindsRow(st.db.users, k);
    var s := ValidateOtp(st, dto, jose, hash).1;
    AdminOnlyIffAdmin(User(s.id, s.departmentId, s.username, s.mobile, "", s.isAdmin));
  }
}

=== FILE: auth_service.dfy ===
/**
 * AuthService: one-time codes kept in a map from mobile number to code, and
 * the user table they unlock. Each operation is a pure function from the
 * state before the call to the state after it and the call's result; the
 * random draw, the password hash and the token encoder are parameters.
 */
module AuthService {
  import opened Wrappers
  import opened Text
  import opened Tables
  import opened JwtTokenHelper

  /** The static OTP dictionary together with the database. */
  datatype AuthState = AuthState(otps: map<string, string>, db: Db)

  /**
   * new Random().Next(100000, 999999).ToString(), with the draw supplied as
   * `roll`: the upper bound is exclusive, so the code is a six-digit decimal
   * numeral between 100000 and 999998.
   */
  function OtpCode(roll: nat): (code: string)
    ensures |code| == 6 && AllDigits(code)
    ensures 100000 <= DigitsValue(code) <= 999998
  {
    var n := 100000 + roll % 899999;
    assert Pow10(5) == 100000 && Pow10(6) == 1000000;
    NatToStringLength(n, 5);
    NatToString(n)
  }

  /** Every value the draw can produce is some roll's code. */
  lemma OtpCodeCovers(n: nat)
    requires 100000 <= n <= 999998
    ensures DigitsValue(OtpCode(n - 100000)) == n
  {
    assert (n - 100000) % 899999 == n - 100000;
  }

  /**
   * RequestOtpAsync: stores a fresh code for `mobile`, replacing any earlier
   * one. An unseen mobile gets a placeholder user whose username and mobile
   * are both the number, with an empty hash and no admin rights; that insert
   * throws when some other user already has the number as username, after the
   * code was stored.
   */
  function RequestOtp(st: AuthState, mobile: string, roll: nat): (r: (AuthState, Result<string, DbError>))
    ensures r.0.otps == st.otps[mobile := OtpCode(roll)]
    ensures r.1.Success? ==> r.1.value == OtpCode(roll)
    ensures HasMobile(st.db, mobile) ==> r.0.db == st.db && r.1.Success?
    ensures !HasMobile(st.db, mobile) && !HasUsername(st.db, mobile) ==>
      && r.1.Success?
      && r.0.db == st.db.(users := st.db.users + [User(NextUserId(st.db), None, mobile, mobile, "", false)])
    ensures !HasMobile(st.db, mobile) && HasUsername(st.db, mobile) ==> r.1.Failure? && r.0.db == st.db
  {
    var code := OtpCode(roll);
    var otps := st.otps[mobile := code];
    match UserByMobile(st.db.users, mobile)
    case Some(_) => (st.(otps := otps), Success(code))
    case None =>
      match InsertUser(st.db, mobile, mobile, "", false)
      case Failure(e) => (st.(otps := otps), Failure(e))
      case Success((db', _)) => (AuthState(otps, db'), Success(code))
  }

  /** The stored code for `mobile` is `otp` and some user has that mobile. */
  predicate Accepts(st: AuthState, mobile: string, otp: string) {
    mobile in st.otps && st.otps[mobile] == otp && HasMobile(st.db, mobile)
  }

  /**
   * ValidateOtpAsync: on a matching code for an existing user, removes the
   * code and returns that user; otherwise returns nothing and changes nothing
   * (a matching code without a user stays stored).
   */
  function ValidateOtp(st: AuthState, mobile: string, otp: string): (r: (AuthState, Option<User>))
    ensures r.1.Some? <==> Accepts(st, mobile, otp)
    ensures r.1.None? ==> r.0 == st
    ensures r.1.Some? ==>
      && r.0 == st.(otps := st.otps - {mobile})
      && r.1 == UserByMobile(st.db.users, mobile)
      && r.1.value in st.db.users
      && r.1.value.mobile == mobile
  {
    if mobile !in st.otps || st.otps[mobile] != otp then (st, None)
    else
      match UserByMobile(st.db.users, mobile)
      case None => (st, None)
      case Some(u) => (st.(otps := st.otps - {mobile}), Some(u))
  }

  /** A code is accepted at most once. */
  lemma ValidateConsumes(st: AuthState, mobile: string, otp: string)
    requires Accepts(st, mobile, otp)
    ensures var (st1, _) := ValidateOtp(st, mobile, otp);
      ValidateOtp(st1, mobile, otp) == (st1, None)
  {
  }

  /** A code handed out by RequestOtp is accepted for that mobile, and the map then holds no code for it. */
  lemma RequestThenValidate(st: AuthState, mobile: string, roll: nat)
    requires RequestOtp(st, mobile, roll).1.Success?
    ensures var (st1, _) := RequestOtp(st, mobile, roll);
      var (st2, u) := ValidateOtp(st1, mobile, OtpCode(roll));
      && u.Some? && u.value.mobile == mobile
      && st2.otps == st.otps - {mobile}
  {
    var (st1, _) := RequestOtp(st, mobile, roll);
    assert mobile in st1.otps && st1.otps[mobile] == OtpCode(roll);
    if !HasMobile(st.db, mobile) {
      var u := User(NextUserId(st.db), None, mobile, mobile, "", false);
      assert st1.db.users[|st.db.users|] == u;
    }
    assert HasMobile(st1.db, mobile);
    assert st.otps[mobile := OtpCode(roll)] - {mobile} == st.otps - {mobile};
  }

  /** A second request replaces the first code: when the two draws differ, the first code no longer validates. */
  lemma RequestReplacesCode(st: AuthState, mobile: string, roll1: nat, roll2: nat)
    requires OtpCode(roll1) != OtpCode(roll2)
    ensures var (st1, _) := RequestOtp(st, mobile, roll1);
      var (st2, _) := RequestOtp(st1, mobile, roll2);
      ValidateOtp(st2, mobile, OtpCode(roll1)).1.None?
  {
  }

  /**
   * CreateAdminAsync: nothing when the username is taken; otherwise one admin
   * whose mobile is its username and whose hash is the hashed password. The
   * insert throws when another user already has that text as mobile.
   */
  function CreateAdmin(db: Db, username: string, password: string, hash: string -> string)
    : (r: (Db, Result<Option<User>, DbError>))
    ensures HasUsername(db, username) ==> r == (db, Success(None))
    ensures !HasUsername(db, username) && HasMobile(db, username) ==> r.0 == db && r.1.Failure?
    ensures !HasUsername(db, username) && !HasMobile(db, username) ==>
      var u := User(NextUserId(db), None, username, username, hash(password), true);
      r == (db.(users := db.users + [u]), Success(Some(u)))
  {
    if HasUsername(db, username) then (db, Success(None))
    else
      match InsertUser(db, username, username, hash(password), true)
      case Failure(e) => (db, Failure(e))
      case Success((db', u)) => (db', Success(Some(u)))
  }

  /** Creating the same admin twice: the second call inserts nothing and reports nothing created. */
  lemma CreateAdminTwice(db: Db, username: string, password: string, hash: string -> string)
    requires CreateAdmin(db, username, password, hash).1.Success?
    ensures var (db1, _) := CreateAdmin(db, username, password, hash);
      CreateAdmin(db1, username, password, hash) == (db1, Success(None))
  {
    var (db1, r) := CreateAdmin(db, username, password, hash);
    if r.value.Some? {
      assert db1.users[|db.users|].username == username;
    }
  }

  /** UPDATE Users SET ... WHERE Id = @Id: every row with that id becomes `u`. */
  function ReplaceUser(users: seq<User>, u: User): (r: seq<User>)
    ensures |r| == |users|
    ensures forall i :: 0 <= i < |users| ==> r[i] == (if users[i].id == u.id then u else users[i])
  {
    seq(|users|, i requires 0 <= i < |users| => if users[i].id == u.id then u else users[i])
  }

  /** Whether some user other than `id` already has `username`. */
  predicate NameTakenByOther(db: Db, id: nat, username: string) {
    exists i :: 0 <= i < |db.users| && db.users[i].id != id && db.users[i].username == username
  }

  /** A requested username applies when it is non-blank and differs, before trimming, from the current one. */
  predicate RenameRequested(current: string, requested: Option<string>) {
    requested.Some? && !IsBlank(DotNet, requested.value) && requested.value != current
  }

  predicate PasswordRequested(requested: Option<string>) {
    requested.Some? && !IsBlank(DotNet, requested.value)
  }

  /**
   * The user record UpdateUserAsync writes back: the trimmed requested name
   * when a rename applies and the hashed password when one is given; every
   * other field as before.
   */
  function Updated(before: User, newUsername: Option<string>, newPassword: Option<string>, hash: string -> string)
    : (u: User)
    ensures u.id == before.id && u.mobile == before.mobile
    ensures u.isAdmin == before.isAdmin && u.departmentId == before.departmentId
    ensures RenameRequested(before.username, newUsername) ==> u.username == Trim(DotNet, newUsername.value)
    ensures !RenameRequested(before.username, newUsername) ==> u.username == before.username
    ensures PasswordRequested(newPassword) ==> u.passwordHash == hash(newPassword.value)
    ensures !PasswordRequested(newPassword) ==> u.passwordHash == before.passwordHash
  {
    before.(
      username := if RenameRequested(before.username, newUsername) then Trim(DotNet, newUsername.value) else before.username,
      passwordHash := if PasswordRequested(newPassword) then hash(newPassword.value) else before.passwordHash)
  }

  /**
   * UpdateUserAsync: nothing for an unknown id. Otherwise the row is written
   * back as Updated when the name or the password changed (throwing when
   * another user has the new name), a token is minted for the updated user,
   * and a minor head under major 1 named after the user is inserted on every
   * call that gets that far. The UPDATE runs outside any transaction, so when
   * major 1 does not exist the insert throws with the user row already
   * rewritten. The department argument is ignored.
   */
  function UpdateUser(db: Db, jose: Jose, userId: int, newUsername: Option<string>, newPassword: Option<string>,
                      hash: string -> string)
    : (r: (Db, Result<Option<(User, string)>, DbError>))
    ensures UserById(db.users, userId).None? ==> r == (db, Success(None))
    ensures UserById(db.users, userId).Some? ==>
      var before := UserById(db.users, userId).value;
      var u := Updated(before, newUsername, newPassword, hash);
      var write := RenameRequested(before.username, newUsername) || PasswordRequested(newPassword);
      var clash := write && NameTakenByOther(db, before.id, u.username);
      var users := if write then ReplaceUser(db.users, u) else db.users;
      && (r.1.Failure? <==> clash || !HasMajor(db, 1))
      && (clash ==> r == (db, Failure(UniqueViolation("Username"))))
      && (!clash && !HasMajor(db, 1) ==> r == (db.(users := users), Failure(ForeignKeyViolation("MajorHeadId"))))
      && (r.1.Success? ==>
            && r.1 == Success(Some((u, GenerateToken(u, jose))))
            && r.0.users == users
            && r.0.minors == db.minors + [MinorHead(NextMinorId(db), 1, u.username)]
            && r.0 == db.(users := r.0.users, minors := r.0.minors))
  {
    match UserById(db.users, userId)
    case None => (db, Success(None))
    case Some(before) =>
      var u := Updated(before, newUsername, newPassword, hash);
      var write := RenameRequested(before.username, newUsername) || PasswordRequested(newPassword);
      if write && NameTakenByOther(db, before.id, u.username) then
        (db, Failure(UniqueViolation("Username")))
      else
        var db1 := if write then db.(users := ReplaceUser(db.users, u)) else db;
        var token := GenerateToken(u, jose);
        match InsertMinorHead(db1, 1, u.username)
        case Failure(e) => (db1, Failure(e))
        case Success((db2, _)) => (db2, Success(Some((u, token))))
  }

  /** A rename always lands on a non-blank name with no white space at either end. */
  lemma RenameIsTrimmed(current: string, requested: Option<string>)
    requires RenameRequested(current, requested)
    ensures var n := Trim(DotNet, requested.value);
      && n != []
      && !IsWhiteSpace(DotNet, n[0]) && !IsWhiteSpace(DotNet, n[|n| - 1])
      && Trim(DotNet, n) == n
  {
    TrimIdempotent(DotNet, requested.value);
  }

  /** An update, whether it succeeds or stops after its write, keeps the key constraints of the user table. */
  lemma UpdateUserKeepsUsersUnique(db: Db, jose: Jose, userId: int, newUsername: Option<string>,
                                   newPassword: Option<string>, hash: string -> string)
    requires UsersUnique(db.users)
    ensures UsersUnique(UpdateUser(db, jose, userId, newUsername, newPassword, hash).0.users)
  {
    var r := UpdateUser(db, jose, userId, newUsername, newPassword, hash);
    if UserById(db.users, userId).Some? {
      var before := UserById(db.users, userId).value;
      var u := Updated(before, newUsername, newPassword, hash);
      if r.0.users != db.users {
        assert r.0.users == ReplaceUser(db.users, u);
        assert !NameTakenByOther(db, before.id, u.username);
        var users := r.0.users;
        forall i, j | 0 <= i < j < |users|
          ensures users[i].id != users[j].id && users[i].username != users[j].username && users[i].mobile != users[j].mobile
        {
          var k :| 0 <= k < |db.users| && db.users[k] == before;
          if db.users[i].id == u.id {
            assert i == k;
          } else if db.users[j].id == u.id {
            assert j == k;
          }
        }
      }
    }
  }
}

=== FILE: auth_store.dfy ===
/**
 * The auth slice of the client store: the token and user the pages read,
 * the two reducers that change them, and the copy kept in localStorage
 * under "dms_auth" that seeds the state when the application starts.
 * localStorage is a map from keys to strings; JSON.stringify and JSON.parse
 * are parameters.
 */
module AuthStore {
  import opened Wrappers

  /** The user record the client keeps (models/index.ts). */
  datatype StoredUser = StoredUser(id: int, username: Option<string>, mobile: string, isAdmin: bool)

  /** The payload of setCredentials, and what is written to storage. */
  datatype Payload = Payload(token: string, user: StoredUser)

  datatype AuthState = AuthState(token: Option<string>, user: Option<StoredUser>)

  /** What JSON.parse of the stored entry gives, as far as it is read: either property may be missing or null. */
  datatype Parsed = Parsed(token: Option<string>, user: Option<StoredUser>)

  type Storage = map<string, string>

  const StorageKey: string := "dms_auth"

  const SignedOut: AuthState := AuthState(None, None)

  /**
   * The persisted entry: none when the key is absent or holds "", otherwise
   * whatever parsing gives (a parse error is caught and gives none).
   */
  function Persisted(storage: Storage, parse: string -> Option<Parsed>): (r: Option<Parsed>)
    ensures r.Some? ==> StorageKey in storage && storage[StorageKey] != "" && parse(storage[StorageKey]) == r
    ensures StorageKey in storage && storage[StorageKey] != "" ==> r == parse(storage[StorageKey])
  {
    if StorageKey !in storage || storage[StorageKey] == "" then None else parse(storage[StorageKey])
  }

  /**
   * The initial state: the persisted token when it is a non-empty string and
   * the persisted user when there is one; everything else is null.
   */
  function InitialState(storage: Storage, parse: string -> Option<Parsed>): (r: AuthState)
    ensures r.token.Some? <==>
      Persisted(storage, parse).Some? && Persisted(storage, parse).value.token.Some?
      && Persisted(storage, parse).value.token.value != ""
    ensures r.token.Some? ==> r.token == Persisted(storage, parse).value.token
    ensures r.user.Some? <==> Persisted(storage, parse).Some? && Persisted(storage, parse).value.user.Some?
    ensures r.user.Some? ==> r.user == Persisted(storage, parse).value.user
  {
    match Persisted(storage, parse)
    case None => SignedOut
    case Some(p) =>
      AuthState(if p.token.Some? && p.token.value != "" then p.token else None, p.user)
  }

  /** setCredentials: the state takes the payload, and exactly the payload's JSON is persisted. */
  function SetCredentials(state: AuthState, storage: Storage, payload: Payload, stringify: Payload -> string)
    : (r: (AuthState, Storage))
    ensures r.0.token == Some(payload.token) && r.0.user == Some(payload.user)
    ensures StorageKey in r.1 && r.1[StorageKey] == stringify(payload)
    ensures forall k :: k != StorageKey ==> (k in r.1 <==> k in storage) && (k in r.1 ==> r.1[k] == storage[k])
  {
    (AuthState(Some(payload.token), Some(payload.user)), storage[StorageKey := stringify(payload)])
  }

  /** logout: both fields become null and the persisted entry is removed; other keys stay. */
  function Logout(state: AuthState, storage: Storage): (r: (AuthState, Storage))
    ensures r.0.token.None? && r.0.user.None?
    ensures StorageKey !in r.1
    ensures forall k :: k != StorageKey ==> (k in r.1 <==> k in storage) && (k in r.1 ==> r.1[k] == storage[k])
  {
    (SignedOut, storage - {StorageKey})
  }

  /** Logging out twice is logging out once, and the prior state does not matter. */
  lemma LogoutIdempotent(state: AuthState, other: AuthState, storage: Storage)
    ensures var (s1, st1) := Logout(state, storage);
      Logout(s1, st1) == (s1, st1) && Logout(other, storage) == (s1, st1)
  {
    assert storage - {StorageKey} - {StorageKey} == storage - {StorageKey};
  }

  /** The serializer and parser agree on payloads, and a serialized payload is never "". */
  ghost predicate JsonRoundTrip(stringify: Payload -> string, parse: string -> Option<Parsed>) {
    forall p :: stringify(p) != "" && parse(stringify(p)) == Some(Parsed(Some(p.token), Some(p.user)))
  }

  /**
   * Reloading after setCredentials restores the same state, except that an
   * empty token comes back as null while the user is kept.
   */
  lemma ReloadAfterSetCredentials(state: AuthState, storage: Storage, payload: Payload,
                                  stringify: Payload -> string, parse: string -> Option<Parsed>)
    requires JsonRoundTrip(stringify, parse)
    ensures var (state', storage') := SetCredentials(state, storage, payload, stringify);
      InitialState(storage', parse) == if payload.token != "" then state' else state'.(token := None)
  {
    var storage' := SetCredentials(state, storage, payload, stringify).1;
    assert parse(stringify(payload)) == Some(Parsed(Some(payload.token), Some(payload.user)));
    assert Persisted(storage', parse) == Some(Parsed(Some(payload.token), Some(payload.user)));
  }

  /** Reloading after logout starts signed out, whatever was stored before. */
  lemma ReloadAfterLogout(state: AuthState, storage: Storage, parse: string -> Option<Parsed>)
    ensures InitialState(Logout(state, storage).1, parse) == Logout(state, storage).0 == SignedOut
  {
  }
}

=== FILE: catalog_insert.dfy ===
/**
 * InsertDocumentAsync: one transaction that adds the document row and then,
 * for every non-blank tag name in order, finds the tag of exactly that name
 * or creates it, and links it to the new document. A name given twice makes
 * the second link break the (DocumentId, TagId) primary key; the exception
 * rolls the whole transaction back, which the model expresses by returning
 * Failure and leaving the caller's database untouched.
 */
module DocumentStore {
  import opened Wrappers
  import opened Text
  import opened Seqs
  import opened Tables

  predicate NonBlank(s: string) {
    !IsBlank(DotNet, s)
  }

  /** The tag names the insert acts on: the non-blank ones, untrimmed, in order. */
  function Kept(names: seq<string>): (r: seq<string>)
    ensures forall n :: n in r <==> n in names && NonBlank(n)
  {
    Filter(names, (n: string) => NonBlank(n))
  }

  /** Document `d` is linked to a tag named `n`. */
  predicate Linked(db: Db, d: nat, n: string) {
    exists k, j :: 0 <= k < |db.documentTags| && 0 <= j < |db.tags|
      && db.documentTags[k].documentId == d && db.documentTags[k].tagId == db.tags[j].id && db.tags[j].name == n
  }

  /** The invariants the tag loop relies on and keeps. */
  predicate TagState(db: Db) {
    && TagsUnique(db.tags)
    && NoDuplicates(db.documentTags)
    && forall k :: 0 <= k < |db.documentTags| ==> HasTag(db, db.documentTags[k].tagId)
  }

  /** Rows of `db` stay in place; only tags and links may be added. */
  predicate Grows(db: Db, db': Db) {
    && db.tags <= db'.tags && db.documentTags <= db'.documentTags
    && db'.users == db.users && db'.majors == db.majors && db'.minors == db.minors && db'.documents == db.documents
  }

  /** The tag of exactly that name, created under a fresh id when there is none. */
  function ResolveTag(db: Db, name: string): (r: (Db, nat))
    ensures TagByName(db.tags, name).Some? ==> r == (db, TagByName(db.tags, name).value.id)
    ensures TagByName(db.tags, name).None? ==> r == InsertTag(db, name)
  {
    match TagByName(db.tags, name)
    case Some(t) => (db, t.id)
    case None => InsertTag(db, name)
  }

  /** One iteration of the tag loop. */
  function LinkTag(db: Db, d: nat, name: string): Result<Db, DbError> {
    if !NonBlank(name) then Success(db)
    else
      var (db1, tagId) := ResolveTag(db, name);
      if DocumentTag(d, tagId) in db1.documentTags then Failure(PrimaryKeyViolation)
      else Success(db1.(documentTags := db1.documentTags + [DocumentTag(d, tagId)]))
  }

  function LinkTags(db: Db, d: nat, names: seq<string>): Result<Db, DbError>
    decreases |names|
  {
    if |names| == 0 then Success(db)
    else
      match LinkTag(db, d, names[0])
      case Failure(e) => Failure(e)
      case Success(db1) => LinkTags(db1, d, names[1..])
  }

  /**
   * The Document object InsertDocumentAsync binds to its parameters. Its
   * FileOriginalName may be null although the column is NOT NULL.
   */
  datatype NewDocument = NewDocument(
    fileOriginalName: Option<string>,
    fileName: string,
    contentType: string,
    size: int,
    majorHeadId: int,
    minorHeadId: int,
    remarks: Option<string>,
    documentDate: Option<Instant>,
    uploadedAt: Instant,
    uploadedBy: Option<int>)

  /** The row a bound document becomes under `id`. */
  function RowOf(doc: NewDocument, id: nat): (r: DocumentRow)
    requires doc.fileOriginalName.Some?
    ensures r.id == id && r.fileOriginalName == doc.fileOriginalName.value
  {
    DocumentRow(id, doc.fileOriginalName.value, doc.fileName, doc.contentType, doc.size,
                doc.majorHeadId, doc.minorHeadId, doc.remarks, doc.documentDate, doc.uploadedAt, doc.uploadedBy)
  }

  /** The foreign keys of Documents: both heads exist, and so does the uploader when one is given. */
  predicate RefsExist(db: Db, doc: NewDocument) {
    && HasMajor(db, doc.majorHeadId)
    && HasMinor(db, doc.minorHeadId)
    && (doc.uploadedBy.Some? ==> UserById(db.users, doc.uploadedBy.value).Some?)
  }

  /**
   * InsertDocumentAsync: the row gets a fresh id (the id in `doc` is ignored),
   * then the tags are linked; on success the new id is returned. A null
   * FileOriginalName or a dangling head or uploader id makes the row's INSERT
   * throw before any tag is touched.
   */
  function InsertDocument(db: Db, doc: NewDocument, names: seq<string>): (r: Result<(Db, nat), DbError>)
    ensures doc.fileOriginalName.None? ==> r == Failure(NotNullViolation("FileOriginalName"))
    ensures doc.fileOriginalName.Some? && !RefsExist(db, doc) ==> r.Failure? && r.error.ForeignKeyViolation?
    ensures r.Success? ==>
      var (db', id) := r.value;
      && doc.fileOriginalName.Some? && RefsExist(db, doc)
      && id == NextDocumentId(db)
      && (forall i :: 0 <= i < |db.documents| ==> db.documents[i].id != id)
      && db'.documents == db.documents + [RowOf(doc, id)]
      && db'.users == db.users && db'.majors == db.majors && db'.minors == db.minors
      && (MinorRefsHold(db) ==> MinorRefsHold(db'))
  {
    if doc.fileOriginalName.None? then Failure(NotNullViolation("FileOriginalName"))
    else if !HasMajor(db, doc.majorHeadId) then Failure(ForeignKeyViolation("MajorHeadId"))
    else if !HasMinor(db, doc.minorHeadId) then Failure(ForeignKeyViolation("MinorHeadId"))
    else if doc.uploadedBy.Some? && UserById(db.users, doc.uploadedBy.value).None? then
      Failure(ForeignKeyViolation("UploadedBy"))
    else
      var id := NextDocumentId(db);
      var db1 := db.(documents := db.documents + [RowOf(doc, id)]);
      match LinkTags(db1, id, names)
      case Failure(e) => Failure(e)
      case Success(db2) =>
        LinkTagsGrows(db1, id, names);
        assert MinorRefsHold(db) ==> MinorRefsHold(db2) by {
          if MinorRefsHold(db) {
            forall i | 0 <= i < |db2.documents| ensures HasMinor(db2, db2.documents[i].minorHeadId) {
              if i < |db.documents| {
                assert HasMinor(db, db.documents[i].minorHeadId);
              }
            }
          }
        }
        Success((db2, id))
  }

  lemma {:induction false} LinkTagsGrows(db: Db, d: nat, names: seq<string>)
    requires LinkTags(db, d, names).Success?
    ensures Grows(db, LinkTags(db, d, names).value)
    decreases |names|
  {
    if |names| > 0 {
      var db1 := LinkTag(db, d, names[0]).value;
      LinkTagsGrows(db1, d, names[1..]);
    }
  }

  // ---------- one step ----------

  /** The resolved tag is the one row named `n`, and only the tag table may have grown. */
  lemma ResolveTagFacts(db: Db, n: string)
    requires TagState(db)
    ensures var (db1, t) := ResolveTag(db, n);
      && db1 == db.(tags := db1.tags) && db.tags <= db1.tags
      && TagsUnique(db1.tags)
      && (exists j :: 0 <= j < |db1.tags| && db1.tags[j] == Tag(t, n))
      && (forall j :: 0 <= j < |db1.tags| && db1.tags[j].id == t ==> db1.tags[j].name == n)
      && (forall j :: 0 <= j < |db1.tags| && db1.tags[j].name == n ==> db1.tags[j].id == t)
      && (!HasTag(db, t) ==> db1.tags == db.tags + [Tag(t, n)])
  {
    var (db1, t) := ResolveTag(db, n);
    if TagByName(db.tags, n).None? {
      assert db1.tags[|db.tags|] == Tag(t, n);
    } else {
      assert HasTag(db, t);
    }
  }

  lemma LinkTagFails(db: Db, d: nat, n: string)
    requires TagState(db) && NonBlank(n)
    ensures LinkTag(db, d, n).Failure? <==> Linked(db, d, n)
  {
    var (db1, t) := ResolveTag(db, n);
    ResolveTagFacts(db, n);
    if Linked(db, d, n) {
      var k, j :| 0 <= k < |db.documentTags| && 0 <= j < |db.tags|
        && db.documentTags[k].documentId == d && db.documentTags[k].tagId == db.tags[j].id && db.tags[j].name == n;
      assert db1.tags[j] == db.tags[j];
      assert db.documentTags[k] == DocumentTag(d, t);
    }
    if DocumentTag(d, t) in db1.documentTags {
      var k :| 0 <= k < |db.documentTags| && db.documentTags[k] == DocumentTag(d, t);
      var j :| 0 <= j < |db.tags| && db.tags[j].id == t;
      assert db1.tags[j] == db.tags[j];
    }
  }

  /** Linking keeps every earlier name of the document and adds `n`. */
  lemma LinkTagLinkedGains(db: Db, d: nat, n: string, m: string)
    requires TagState(db) && NonBlank(n) && LinkTag(db, d, n).Success?
    requires Linked(db, d, m) || m == n
    ensures Linked(LinkTag(db, d, n).value, d, m)
  {
    var (db1, t) := ResolveTag(db, n);
    ResolveTagFacts(db, n);
    var db' := LinkTag(db, d, n).value;
    assert db'.documentTags == db.documentTags + [DocumentTag(d, t)] && db'.tags == db1.tags;
    if m == n {
      var j :| 0 <= j < |db1.tags| && db1.tags[j] == Tag(t, n);
      assert db'.documentTags[|db.documentTags|] == DocumentTag(d, t);
    } else {
      var k, j :| 0 <= k < |db.documentTags| && 0 <= j < |db.tags|
        && db.documentTags[k].documentId == d && db.documentTags[k].tagId == db.tags[j].id && db.tags[j].name == m;
      assert db'.documentTags[k] == db.documentTags[k] && db'.tags[j] == db.tags[j];
    }
  }

  /** The link added for `n` is the only new one, so the document gains no other name. */
  lemma LinkTagLinkedOnly(db: Db, d: nat, n: string, m: string)
    requires TagState(db) && NonBlank(n) && LinkTag(db, d, n).Success?
    requires Linked(LinkTag(db, d, n).value, d, m) && m != n
    ensures Linked(db, d, m)
  {
    var (db1, t) := ResolveTag(db, n);
    ResolveTagFacts(db, n);
    var db' := LinkTag(db, d, n).value;
    assert db'.documentTags == db.documentTags + [DocumentTag(d, t)] && db'.tags == db1.tags;
    var k, j :| 0 <= k < |db'.documentTags| && 0 <= j < |db'.tags|
      && db'.documentTags[k].documentId == d && db'.documentTags[k].tagId == db'.tags[j].id && db'.tags[j].name == m;
    if k < |db.documentTags| {
      assert db'.documentTags[k] == db.documentTags[k];
      var j0 :| 0 <= j0 < |db.tags| && db.tags[j0].id == db.documentTags[k].tagId;
      assert db'.tags[j0] == db.tags[j0];
      assert db'.tags[j0].id == db'.tags[j].id;
      assert j == j0;
    }
  }

  lemma LinkTagKeepsState(db: Db, d: nat, n: string)
    requires TagState(db) && NonBlank(n) && LinkTag(db, d, n).Success?
    ensures var db' := LinkTag(db, d, n).value;
      TagState(db') && Grows(db, db') && |db'.documentTags| == |db.documentTags| + 1
  {
    var (db1, t) := ResolveTag(db, n);
    ResolveTagFacts(db, n);
    var db' := LinkTag(db, d, n).value;
    assert db'.documentTags == db.documentTags + [DocumentTag(d, t)] && db'.tags == db1.tags;
    assert DocumentTag(d, t) !in db.documentTags;
    var jn :| 0 <= jn < |db1.tags| && db1.tags[jn] == Tag(t, n);
    forall k | 0 <= k < |db'.documentTags|
      ensures HasTag(db', db'.documentTags[k].tagId)
    {
      if k < |db.documentTags| {
        assert db'.documentTags[k] == db.documentTags[k];
        var j :| 0 <= j < |db.tags| && db.tags[j].id == db.documentTags[k].tagId;
        assert db'.tags[j] == db.tags[j];
      } else {
        assert db'.tags[jn].id == t;
      }
    }
  }

  /**
   * One non-blank name: the link fails exactly when the document is already
   * linked to a tag of that name; otherwise the document gains exactly that
   * name and the invariants hold.
   */
  lemma LinkTagStep(db: Db, d: nat, n: string)
    requires TagState(db) && NonBlank(n)
    ensures LinkTag(db, d, n).Failure? <==> Linked(db, d, n)
    ensures LinkTag(db, d, n).Success? ==>
      var db' := LinkTag(db, d, n).value;
      && TagState(db') && Grows(db, db')
      && |db'.documentTags| == |db.documentTags| + 1
      && forall m :: Linked(db', d, m) <==> Linked(db, d, m) || m == n
  {
    LinkTagFails(db, d, n);
    if LinkTag(db, d, n).Success? {
      LinkTagKeepsState(db, d, n);
      forall m ensures Linked(LinkTag(db, d, n).value, d, m) <==> Linked(db, d, m) || m == n {
        if Linked(db, d, m) || m == n {
          LinkTagLinkedGains(db, d, n, m);
        }
        if Linked(LinkTag(db, d, n).value, d, m) && m != n {
          LinkTagLinkedOnly(db, d, n, m);
        }
      }
    }
  }

  // ---------- the loop ----------

  lemma KeptCons(names: seq<string>)
    requires |names| > 0
    ensures Kept(names) == (if NonBlank(names[0]) then [names[0]] + Kept(names[1..]) else Kept(names[1..]))
  {
  }

  lemma NoDuplicatesCons(x: string, s: seq<string>)
    ensures NoDuplicates([x] + s) <==> x !in s && NoDuplicates(s)
  {
    if x !in s && NoDuplicates(s) {
      forall i, j | 0 <= i < j < |[x] + s|
        ensures ([x] + s)[i] != ([x] + s)[j]
      {
        if i > 0 {
          assert ([x] + s)[i] == s[i - 1] && ([x] + s)[j] == s[j - 1];
        } else {
          assert ([x] + s)[j] == s[j - 1];
        }
      }
    }
    if NoDuplicates([x] + s) {
      forall i | 0 <= i < |s| ensures s[i] != x {
        assert ([x] + s)[0] == x && ([x] + s)[i + 1] == s[i];
      }
      forall i, j | 0 <= i < j < |s| ensures s[i] != s[j] {
        assert ([x] + s)[i + 1] == s[i] && ([x] + s)[j + 1] == s[j];
      }
    }
  }

  /**
   * The whole loop succeeds exactly when the kept names are distinct and none
   * is already linked; then the document gains exactly those names, with one
   * link row per kept name.
   */
  lemma {:induction false} LinkTagsCharacter(db: Db, d: nat, names: seq<string>)
    requires TagState(db)
    ensures LinkTags(db, d, names).Success? <==>
      NoDuplicates(Kept(names)) && forall n :: n in Kept(names) ==> !Linked(db, d, n)
    ensures LinkTags(db, d, names).Success? ==>
      var db' := LinkTags(db, d, names).value;
      && TagState(db')
      && |db'.documentTags| == |db.documentTags| + |Kept(names)|
      && forall m :: Linked(db', d, m) <==> Linked(db, d, m) || m in Kept(names)
    decreases |names|
  {
    if |names| > 0 {
      var n := names[0];
      var rest := names[1..];
      KeptCons(names);
      if !NonBlank(n) {
        assert LinkTag(db, d, n) == Success(db);
        LinkTagsCharacter(db, d, rest);
      } else {
        NoDuplicatesCons(n, Kept(rest));
        LinkTagStep(db, d, n);
        if LinkTag(db, d, n).Success? {
          var db1 := LinkTag(db, d, n).value;
          LinkTagsCharacter(db1, d, rest);
        }
      }
    }
  }

  /**
   * For a well-formed database: the insert fails exactly when the original
   * name is null, a referenced row is missing, or a non-blank tag name is
   * repeated; on success the new document carries exactly the kept
   * names, one link each, and the database stays well-formed.
   */
  lemma InsertDocumentTags(db: Db, doc: NewDocument, names: seq<string>)
    requires Valid(db)
    ensures InsertDocument(db, doc, names).Success? <==>
      doc.fileOriginalName.Some? && RefsExist(db, doc) && NoDuplicates(Kept(names))
    ensures InsertDocument(db, doc, names).Success? ==>
      var (db', id) := InsertDocument(db, doc, names).value;
      && Valid(db')
      && |db'.documentTags| == |db.documentTags| + |Kept(names)|
      && forall m :: Linked(db', id, m) <==> m in Kept(names)
  {
    if doc.fileOriginalName.None? || !RefsExist(db, doc) {
      return;
    }
    var id := NextDocumentId(db);
    var db1 := db.(documents := db.documents + [RowOf(doc, id)]);
    assert TagState(db1);
    assert forall k :: 0 <= k < |db1.documentTags| ==> db1.documentTags[k].documentId != id by {
      forall k | 0 <= k < |db1.documentTags| ensures db1.documentTags[k].documentId != id {
        assert HasDocument(db, db.documentTags[k].documentId);
      }
    }
    LinkTagsCharacter(db1, id, names);
    if LinkTags(db1, id, names).Success? {
      var db' := LinkTags(db1, id, names).value;
      LinkTagsGrows(db1, id, names);
      assert DocumentIdsUnique(db'.documents);
      forall k | 0 <= k < |db'.documentTags|
        ensures HasDocument(db', db'.documentTags[k].documentId)
      {
        if k < |db.documentTags| {
          assert db'.documentTags[k] == db.documentTags[k];
          var i :| 0 <= i < |db.documents| && db.documents[i].id == db.documentTags[k].documentId;
          assert db'.documents[i] == db.documents[i];
        } else {
          LinkTagsLinksDocument(db1, id, names, k);
          assert db'.documents[|db.documents|].id == id;
        }
      }
    }
  }

  /** Every link the loop adds belongs to the document being inserted. */
  lemma {:induction false} LinkTagsLinksDocument(db: Db, d: nat, names: seq<string>, k: nat)
    requires LinkTags(db, d, names).Success?
    requires |db.documentTags| <= k < |LinkTags(db, d, names).value.documentTags|
    ensures LinkTags(db, d, names).value.documentTags[k].documentId == d
    decreases |names|
  {
    if |names| > 0 {
      var db1 := LinkTag(db, d, names[0]).value;
      LinkTagsGrows(db1, d, names[1..]);
      if k < |db1.documentTags| {
        assert db1.documentTags[k] == LinkTags(db, d, names).value.documentTags[k];
      } else {
        LinkTagsLinksDocument(db1, d, names[1..], k);
      }
    }
  }
}

=== FILE: catalog_query.dfy ===
/**
 * The read side of AppDbContext. Every document query runs the same five-table
 * join (documents inner-joined to their major and minor head, left-joined to
 * their links and tags), optionally filters and orders the joined rows, and
 * folds them into Document objects: one per document id, scalar fields from
 * the first row of that id, one tag per distinct tag id.
 */
module DocumentQueries {
  import opened Wrappers
  import opened Seqs
  import opened Tables
  import DocumentStore

  /** One row of the join: a document, its heads, and one linked tag or NULL. */
  datatype JoinedRow = JoinedRow(doc: DocumentRow, major: MajorHead, minor: MinorHead, tag: Option<Tag>)

  /** The Document object the fold builds (Remarks is never null there). */
  datatype Document = Document(
    id: nat,
    fileOriginalName: string,
    fileName: string,
    contentType: string,
    size: int,
    majorHeadId: int,
    minorHeadId: int,
    remarks: string,
    documentDate: Option<Instant>,
    uploadedAt: Instant,
    uploadedBy: Option<int>,
    majorHead: MajorHead,
    minorHead: MinorHead,
    tags: seq<Tag>)

  // ---------- the join ----------

  /** How a link row meets the Tags table under LEFT JOIN: a tag of its id, or NULL when there is none. */
  predicate Fits(db: Db, l: DocumentTag, tag: Option<Tag>) {
    match tag
    case Some(t) => t in db.tags && t.id == l.tagId
    case None => forall t :: t in db.tags ==> t.id != l.tagId
  }

  /** The tag column of a joined row for document `id`: NULL when it has no link, else what a link of it meets. */
  predicate TagFits(db: Db, id: nat, tag: Option<Tag>) {
    || (tag.None? && forall l :: l in db.documentTags ==> l.documentId != id)
    || exists l :: l in db.documentTags && l.documentId == id && Fits(db, l, tag)
  }

  /** The rows the join produces, as a set: what the ON clauses admit. */
  predicate InJoin(db: Db, r: JoinedRow) {
    && r.doc in db.documents
    && r.major in db.majors && r.major.id == r.doc.majorHeadId
    && r.minor in db.minors && r.minor.id == r.doc.minorHeadId
    && TagFits(db, r.doc.id, r.tag)
  }

  function LinkRow(db: Db, d: DocumentRow, m: MajorHead, mi: MinorHead, l: DocumentTag): (res: seq<JoinedRow>)
    ensures forall r :: r in res <==> r.doc == d && r.major == m && r.minor == mi && Fits(db, l, r.tag)
  {
    var ts := Filter(db.tags, (t: Tag) => t.id == l.tagId);
    if |ts| == 0 then [JoinedRow(d, m, mi, None)]
    else
      var res := seq(|ts|, i requires 0 <= i < |ts| => JoinedRow(d, m, mi, Some(ts[i])));
      assert forall r :: r in res ==> r.tag.Some? && r.tag.value in ts;
      assert ts[0] in ts;
      assert forall t :: t in ts ==> JoinedRow(d, m, mi, Some(t)) in res by {
        forall t | t in ts ensures JoinedRow(d, m, mi, Some(t)) in res {
          var i :| 0 <= i < |ts| && ts[i] == t;
          assert res[i] == JoinedRow(d, m, mi, Some(t));
        }
      }
      res
  }

  function LinkRows(db: Db, d: DocumentRow, m: MajorHead, mi: MinorHead, links: seq<DocumentTag>)
    : (res: seq<JoinedRow>)
    ensures forall r :: r in res <==>
      r.doc == d && r.major == m && r.minor == mi && exists l :: l in links && Fits(db, l, r.tag)
  {
    if |links| == 0 then []
    else
      var res := LinkRow(db, d, m, mi, links[0]) + LinkRows(db, d, m, mi, links[1..]);
      assert forall l :: l in links <==> l == links[0] || l in links[1..];
      res
  }

  /** LEFT JOIN DocumentTags, then LEFT JOIN Tags, for one document and its heads. */
  function TagRows(db: Db, d: DocumentRow, m: MajorHead, mi: MinorHead): (res: seq<JoinedRow>)
    ensures |res| > 0
    ensures forall r :: r in res <==> r.doc == d && r.major == m && r.minor == mi && TagFits(db, d.id, r.tag)
  {
    var links := Filter(db.documentTags, (l: DocumentTag) => l.documentId == d.id);
    if |links| == 0 then
      [JoinedRow(d, m, mi, None)]
    else
      assert links[0] in links;
      LinkRows(db, d, m, mi, links)
  }

  function MinorRows(db: Db, d: DocumentRow, m: MajorHead, mis: seq<MinorHead>): (res: seq<JoinedRow>)
    ensures forall r :: r in res <==>
      r.doc == d && r.major == m && r.minor in mis && r.minor.id == d.minorHeadId && TagFits(db, d.id, r.tag)
  {
    if |mis| == 0 then []
    else
      var here := if mis[0].id == d.minorHeadId then TagRows(db, d, m, mis[0]) else [];
      assert forall x :: x in mis <==> x == mis[0] || x in mis[1..];
      here + MinorRows(db, d, m, mis[1..])
  }

  function MajorRows(db: Db, d: DocumentRow, ms: seq<MajorHead>): (res: seq<JoinedRow>)
    ensures forall r :: r in res <==>
      && r.doc == d && r.major in ms && r.major.id == d.majorHeadId
      && r.minor in db.minors && r.minor.id == d.minorHeadId && TagFits(db, d.id, r.tag)
  {
    if |ms| == 0 then []
    else
      var here := if ms[0].id == d.majorHeadId then MinorRows(db, d, ms[0], db.minors) else [];
      assert forall x :: x in ms <==> x == ms[0] || x in ms[1..];
      here + MajorRows(db, d, ms[1..])
  }

  function DocumentRows(db: Db, ds: seq<DocumentRow>): (res: seq<JoinedRow>)
    ensures forall r :: r in res <==> r.doc in ds && InJoin(db.(documents := ds), r)
  {
    if |ds| == 0 then []
    else
      assert forall x :: x in ds <==> x == ds[0] || x in ds[1..];
      MajorRows(db, ds[0], db.majors) + DocumentRows(db, ds[1..])
  }

  /** The FROM clause shared by every document query, rows in table order. */
  function Join(db: Db): (res: seq<JoinedRow>)
    ensures forall r :: r in res <==> InJoin(db, r)
  {
    DocumentRows(db, db.documents)
  }

  // ---------- the fold ----------

  function RowIds(rows: seq<JoinedRow>): (r: seq<nat>)
    ensures |r| == |rows| && forall i :: 0 <= i < |rows| ==> r[i] == rows[i].doc.id
  {
    seq(|rows|, i requires 0 <= i < |rows| => rows[i].doc.id)
  }

  function Ids(docs: seq<Document>): (r: seq<nat>)
    ensures |r| == |docs| && forall i :: 0 <= i < |docs| ==> r[i] == docs[i].id
  {
    seq(|docs|, i requires 0 <= i < |docs| => docs[i].id)
  }

  function TagIds(tags: seq<Tag>): (r: seq<nat>)
    ensures |r| == |tags| && forall i :: 0 <= i < |tags| ==> r[i] == tags[i].id
  {
    seq(|tags|, i requires 0 <= i < |tags| => tags[i].id)
  }

  function TagNames(tags: seq<Tag>): (r: seq<string>)
    ensures |r| == |tags| && forall i :: 0 <= i < |tags| ==> r[i] == tags[i].name
  {
    seq(|tags|, i requires 0 <= i < |tags| => tags[i].name)
  }

  /** The Document built from the first row of an id, before any tag is added. */
  function Header(row: JoinedRow): Document {
    var d := row.doc;
    Document(d.id, d.fileOriginalName, d.fileName, d.contentType, d.size, d.majorHeadId, d.minorHeadId,
             d.remarks.GetOr(""), d.documentDate, d.uploadedAt, d.uploadedBy, row.major, row.minor, [])
  }

  /** A document without its tags: the part the first row of its id decides. */
  function Scalars(d: Document): Document {
    d.(tags := [])
  }

  /** The tag step of the loop body: add the row's tag unless it is NULL or its id is already listed. */
  function AddTag(d: Document, tag: Option<Tag>): Document {
    if tag.Some? && tag.value.id !in TagIds(d.tags) then d.(tags := d.tags + [tag.value]) else d
  }

  /** One iteration of the loop body: find or create the document of the row's id, then add its tag. */
  function Absorb(docs: seq<Document>, row: JoinedRow): seq<Document> {
    var ids := Ids(docs);
    if row.doc.id in ids then
      var i := FirstIndex(ids, row.doc.id);
      docs[i := AddTag(docs[i], row.tag)]
    else docs + [AddTag(Header(row), row.tag)]
  }

  lemma AbsorbIds(docs: seq<Document>, row: JoinedRow)
    ensures Ids(Absorb(docs, row)) == if row.doc.id in Ids(docs) then Ids(docs) else Ids(docs) + [row.doc.id]
  {
  }

  /**
   * The loop over the rows (lookup.Values in insertion order): the document ids
   * are exactly the distinct row ids, in order of first appearance.
   */
  function Aggregate(rows: seq<JoinedRow>): (r: seq<Document>)
    ensures Ids(r) == Distinct(RowIds(rows))
    decreases |rows|
  {
    if |rows| == 0 then []
    else
      var p := rows[..|rows| - 1];
      var d := Aggregate(p);
      var ids := RowIds(rows);
      assert ids[..|ids| - 1] == RowIds(p) && ids[|ids| - 1] == rows[|rows| - 1].doc.id;
      DistinctLast(ids);
      AbsorbIds(d, rows[|rows| - 1]);
      Absorb(d, rows[|rows| - 1])
  }

  /** Each document id occurs once, and only ids of rows occur. */
  lemma AggregateIds(rows: seq<JoinedRow>)
    ensures var r := Aggregate(rows);
      && NoDuplicates(Ids(r))
      && (forall i :: 0 <= i < |r| ==> r[i].id in RowIds(rows))
      && (forall k :: 0 <= k < |rows| ==> rows[k].doc.id in Ids(Aggregate(rows)))
      && (forall row :: row in rows ==> row.doc.id in Ids(Aggregate(rows)))
  {
    var r := Aggregate(rows);
    forall i | 0 <= i < |r| ensures r[i].id in RowIds(rows) {
      assert Ids(r)[i] == r[i].id;
    }
    forall k | 0 <= k < |rows| ensures rows[k].doc.id in Ids(r) {
      assert RowIds(rows)[k] == rows[k].doc.id;
    }
    forall row | row in rows ensures row.doc.id in Ids(r) {
      var k :| 0 <= k < |rows| && rows[k] == row;
    }
  }

  /** One step of the fold: the document of the row's id gains the row's tag, every other document stays. */
  lemma AbsorbShape(docs: seq<Document>, row: JoinedRow)
    requires NoDuplicates(Ids(docs))
    ensures var r := Absorb(docs, row);
      && |r| == (if row.doc.id in Ids(docs) then |docs| else |docs| + 1)
      && (forall i :: 0 <= i < |docs| ==>
            r[i] == if docs[i].id == row.doc.id then AddTag(docs[i], row.tag) else docs[i])
      && (row.doc.id !in Ids(docs) ==> r[|docs|] == AddTag(Header(row), row.tag))
  {
    if row.doc.id in Ids(docs) {
      var j := FirstIndex(Ids(docs), row.doc.id);
      forall i | 0 <= i < |docs| && docs[i].id == row.doc.id ensures i == j {
        assert Ids(docs)[i] == Ids(docs)[j];
      }
    } else {
      forall i | 0 <= i < |docs| ensures docs[i].id != row.doc.id {
        assert Ids(docs)[i] == docs[i].id;
      }
    }
  }

  /** The header invariant of the fold, for the documents `docs` built from `rows`. */
  predicate HeadersFromFirstRows(rows: seq<JoinedRow>, docs: seq<Document>) {
    forall i :: 0 <= i < |docs| ==>
      docs[i].id in RowIds(rows) && Scalars(docs[i]) == Header(rows[FirstIndex(RowIds(rows), docs[i].id)])
  }

  lemma HeadersStep(rows: seq<JoinedRow>, d: seq<Document>)
    requires |rows| > 0
    requires NoDuplicates(Ids(d)) && (forall y :: y in Ids(d) <==> y in RowIds(rows[..|rows| - 1]))
    requires HeadersFromFirstRows(rows[..|rows| - 1], d)
    ensures HeadersFromFirstRows(rows, Absorb(d, rows[|rows| - 1]))
  {
    var p, row := rows[..|rows| - 1], rows[|rows| - 1];
    var r := Absorb(d, row);
    AbsorbShape(d, row);
    assert RowIds(rows)[..|p|] == RowIds(p);
    forall i | 0 <= i < |r|
      ensures r[i].id in RowIds(rows) && Scalars(r[i]) == Header(rows[FirstIndex(RowIds(rows), r[i].id)])
    {
      if i < |d| {
        assert r[i].id == d[i].id && Scalars(r[i]) == Scalars(d[i]);
        FirstIndexPrefix(RowIds(rows), |p|, d[i].id);
        assert rows[FirstIndex(RowIds(p), d[i].id)] == p[FirstIndex(RowIds(p), d[i].id)];
      } else {
        assert row.doc.id !in RowIds(p);
        assert RowIds(rows)[|p|] == row.doc.id;
        FirstIndexUnique(RowIds(rows), |p|, row.doc.id);
      }
    }
  }

  /** Scalar fields come from the first row of each id. */
  lemma {:induction false} AggregateHeaders(rows: seq<JoinedRow>)
    ensures HeadersFromFirstRows(rows, Aggregate(rows))
    decreases |rows|
  {
    if |rows| > 0 {
      var p := rows[..|rows| - 1];
      AggregateHeaders(p);
      HeadersStep(rows, Aggregate(p));
    }
  }

  /** Row `k` carries tag `t` for document `id`. */
  predicate Carries(rows: seq<JoinedRow>, id: nat, t: Tag) {
    exists k :: 0 <= k < |rows| && rows[k].doc.id == id && rows[k].tag == Some(t)
  }

  lemma TagIdsAppend(tags: seq<Tag>, t: Tag)
    ensures TagIds(tags + [t]) == TagIds(tags) + [t.id]
  {
  }

  predicate TagsDistinct(docs: seq<Document>) {
    forall i :: 0 <= i < |docs| ==> NoDuplicates(TagIds(docs[i].tags))
  }

  lemma TagsDistinctStep(d: seq<Document>, row: JoinedRow)
    requires NoDuplicates(Ids(d)) && TagsDistinct(d)
    ensures TagsDistinct(Absorb(d, row))
  {
    var r := Absorb(d, row);
    AbsorbShape(d, row);
    forall i | 0 <= i < |r| ensures NoDuplicates(TagIds(r[i].tags)) {
      var before := if i < |d| then d[i] else Header(row);
      assert r[i] == before || r[i] == AddTag(before, row.tag);
      if row.tag.Some? {
        TagIdsAppend(before.tags, row.tag.value);
      }
    }
  }

  /** The tag ids of each document are distinct. */
  lemma {:induction false} AggregateTagsDistinct(rows: seq<JoinedRow>)
    ensures TagsDistinct(Aggregate(rows))
    decreases |rows|
  {
    if |rows| > 0 {
      var p := rows[..|rows| - 1];
      AggregateTagsDistinct(p);
      AggregateIds(p);
      TagsDistinctStep(Aggregate(p), rows[|rows| - 1]);
    }
  }

  /** The soundness invariant of the fold: each listed tag came from a row of that document. */
  predicate TagsCarried(rows: seq<JoinedRow>, docs: seq<Document>) {
    forall i, t :: 0 <= i < |docs| && t in docs[i].tags ==> Carries(rows, docs[i].id, t)
  }

  lemma TagsCarriedStep(rows: seq<JoinedRow>, d: seq<Document>)
    requires |rows| > 0
    requires NoDuplicates(Ids(d)) && TagsCarried(rows[..|rows| - 1], d)
    ensures TagsCarried(rows, Absorb(d, rows[|rows| - 1]))
  {
    var p, row := rows[..|rows| - 1], rows[|rows| - 1];
    var r := Absorb(d, row);
    AbsorbShape(d, row);
    forall i, t | 0 <= i < |r| && t in r[i].tags ensures Carries(rows, r[i].id, t) {
      if i < |d| && t in d[i].tags {
        var k :| 0 <= k < |p| && p[k].doc.id == d[i].id && p[k].tag == Some(t);
        assert rows[k] == p[k];
      } else {
        assert rows[|p|] == row;
      }
    }
  }

  /** Every tag a document lists came from a row of that document (a NULL tag adds nothing). */
  lemma {:induction false} AggregateTagsCarried(rows: seq<JoinedRow>)
    ensures TagsCarried(rows, Aggregate(rows))
    decreases |rows|
  {
    if |rows| > 0 {
      var p := rows[..|rows| - 1];
      AggregateTagsCarried(p);
      AggregateIds(p);
      TagsCarriedStep(rows, Aggregate(p));
    }
  }

  /** The completeness invariant of the fold: each non-NULL tag of a row is listed on its document. */
  predicate TagsComplete(rows: seq<JoinedRow>, docs: seq<Document>) {
    forall i, k :: 0 <= i < |docs| && 0 <= k < |rows| && rows[k].doc.id == docs[i].id && rows[k].tag.Some? ==>
      rows[k].tag.value.id in TagIds(docs[i].tags)
  }

  lemma TagsCompleteStep(rows: seq<JoinedRow>, d: seq<Document>)
    requires |rows| > 0
    requires Ids(d) == Distinct(RowIds(rows[..|rows| - 1])) && TagsComplete(rows[..|rows| - 1], d)
    ensures TagsComplete(rows, Absorb(d, rows[|rows| - 1]))
  {
    var p, row := rows[..|rows| - 1], rows[|rows| - 1];
    var r := Absorb(d, row);
    AbsorbShape(d, row);
    forall i, k | 0 <= i < |r| && 0 <= k < |rows| && rows[k].doc.id == r[i].id && rows[k].tag.Some?
      ensures rows[k].tag.value.id in TagIds(r[i].tags)
    {
      var before := if i < |d| then d[i] else Header(row);
      assert r[i] == before || r[i] == AddTag(before, row.tag);
      if row.tag.Some? {
        TagIdsAppend(before.tags, row.tag.value);
      }
      if k < |p| {
        assert rows[k] == p[k];
      }
    }
  }

  /** Every non-NULL tag of a row is listed, by id, on the document of that row. */
  lemma {:induction false} AggregateTagsComplete(rows: seq<JoinedRow>)
    ensures TagsComplete(rows, Aggregate(rows))
    decreases |rows|
  {
    if |rows| > 0 {
      var p := rows[..|rows| - 1];
      AggregateTagsComplete(p);
      TagsCompleteStep(rows, Aggregate(p));
    }
  }

  // ---------- ORDER BY d.UploadedAt DESC, d.Id DESC ----------

  /** Row `a` may come before row `b` under ORDER BY UploadedAt DESC, Id DESC. */
  predicate NotOlder(a: DocumentRow, b: DocumentRow) {
    a.uploadedAt > b.uploadedAt || (a.uploadedAt == b.uploadedAt && a.id >= b.id)
  }

  predicate NewestFirst(rows: seq<JoinedRow>) {
    forall i, j :: 0 <= i < j < |rows| ==> NotOlder(rows[i].doc, rows[j].doc)
  }

  function InsertRow(x: JoinedRow, rows: seq<JoinedRow>): (r: seq<JoinedRow>)
    requires NewestFirst(rows)
    ensures NewestFirst(r)
    ensures multiset(r) == multiset(rows) + multiset{x}
  {
    if |rows| == 0 || NotOlder(x.doc, rows[0].doc) then
      ConsSorted(x, rows);
      [x] + rows
    else
      assert rows == [rows[0]] + rows[1..];
      var t := InsertRow(x, rows[1..]);
      InsertBehindHead(x, rows, t);
      [rows[0]] + t
  }

  /** A row not older than every row of a sorted list can go in front of it. */
  lemma ConsSorted(x: JoinedRow, rows: seq<JoinedRow>)
    requires NewestFirst(rows)
    requires |rows| == 0 || NotOlder(x.doc, rows[0].doc)
    ensures NewestFirst([x] + rows)
  {
    var r := [x] + rows;
    forall i, j | 0 <= i < j < |r| ensures NotOlder(r[i].doc, r[j].doc) {
      if i == 0 {
        assert r[j] == rows[j - 1];
      } else {
        assert r[i] == rows[i - 1] && r[j] == rows[j - 1];
      }
    }
  }

  /** The head of a sorted list stays in front when a row older than it is inserted behind it. */
  lemma InsertBehindHead(x: JoinedRow, rows: seq<JoinedRow>, t: seq<JoinedRow>)
    requires NewestFirst(rows) && |rows| > 0 && !NotOlder(x.doc, rows[0].doc)
    requires NewestFirst(t) && multiset(t) == multiset(rows[1..]) + multiset{x}
    ensures NewestFirst([rows[0]] + t)
  {
    forall j | 0 <= j < |t| ensures NotOlder(rows[0].doc, t[j].doc) {
      assert t[j] in multiset(t);
      if t[j] != x {
        assert t[j] in rows[1..];
        var k :| 0 <= k < |rows[1..]| && rows[1..][k] == t[j];
        assert rows[k + 1] == t[j];
      }
    }
    ConsSorted(rows[0], t);
  }

  /** The rows in ORDER BY order; rows of equal key keep their join order. */
  function SortRows(rows: seq<JoinedRow>): (r: seq<JoinedRow>)
    ensures NewestFirst(r)
    ensures multiset(r) == multiset(rows)
  {
    if |rows| == 0 then []
    else
      assert rows == [rows[0]] + rows[1..];
      InsertRow(rows[0], SortRows(rows[1..]))
  }

  /** Document `a` strictly precedes document `b`: newer, or equally new with a larger id. */
  predicate Newer(a: Document, b: Document) {
    a.uploadedAt > b.uploadedAt || (a.uploadedAt == b.uploadedAt && a.id > b.id)
  }

  /** Folding rows in ORDER BY order lists the documents newest first, with no ties. */
  lemma AggregateNewestFirst(rows: seq<JoinedRow>)
    requires NewestFirst(rows)
    ensures var r := Aggregate(rows);
      forall i, j :: 0 <= i < j < |r| ==> Newer(r[i], r[j])
  {
    var r := Aggregate(rows);
    AggregateIds(rows);
    AggregateHeaders(rows);
    DistinctOrder(RowIds(rows));
    forall i, j | 0 <= i < j < |r| ensures Newer(r[i], r[j]) {
      assert Ids(r)[i] == r[i].id && Ids(r)[j] == r[j].id;
      var fi := FirstIndex(RowIds(rows), r[i].id);
      var fj := FirstIndex(RowIds(rows), r[j].id);
      assert fi < fj;
      assert Scalars(r[i]) == Header(rows[fi]) && Scalars(r[j]) == Header(rows[fj]);
      assert NotOlder(rows[fi].doc, rows[fj].doc);
    }
  }

  // ---------- the queries ----------

  /** The scalar fields of `d` are those of `row` (Remarks NULL read as ""). */
  predicate Describes(d: Document, row: DocumentRow) {
    && d.id == row.id && d.fileOriginalName == row.fileOriginalName && d.fileName == row.fileName
    && d.contentType == row.contentType && d.size == row.size
    && d.majorHeadId == row.majorHeadId && d.minorHeadId == row.minorHeadId
    && d.remarks == row.remarks.GetOr("") && d.documentDate == row.documentDate
    && d.uploadedAt == row.uploadedAt && d.uploadedBy == row.uploadedBy
  }

  /**
   * What the fold gives for any selection of joined rows: each document
   * describes a selected row of its id and lists only tags those rows carry.
   */
  lemma {:induction false} AggregateSound(rows: seq<JoinedRow>, i: nat)
    requires i < |Aggregate(rows)|
    ensures var d := Aggregate(rows)[i];
      && (exists k :: 0 <= k < |rows| && rows[k].doc.id == d.id && Describes(d, rows[k].doc)
                      && d.majorHead == rows[k].major && d.minorHead == rows[k].minor)
      && (forall t :: t in d.tags ==> Carries(rows, d.id, t))
  {
    AggregateHeaders(rows);
    AggregateTagsCarried(rows);
    var d := Aggregate(rows)[i];
    var k := FirstIndex(RowIds(rows), d.id);
    assert Scalars(d) == Header(rows[k]);
  }

  /** GetAllDocumentsAsync. */
  function GetAllDocuments(db: Db): (r: seq<Document>)
    ensures NoDuplicates(Ids(r))
    ensures forall row :: InJoin(db, row) ==> row.doc.id in Ids(r)
    ensures forall i, j :: 0 <= i < j < |r| ==> Newer(r[i], r[j])
  {
    var rows := SortRows(Join(db));
    AggregateIds(rows);
    AggregateNewestFirst(rows);
    forall row | InJoin(db, row) ensures row.doc.id in Ids(Aggregate(rows)) {
      assert row in multiset(rows);
      var k :| 0 <= k < |rows| && rows[k] == row;
    }
    Aggregate(rows)
  }

  /** The joined rows of document `id`, in join order. */
  function RowsOf(db: Db, id: int): seq<JoinedRow> {
    Filter(Join(db), (row: JoinedRow) => row.doc.id == id)
  }

  /** GetDocumentByIdAsync: the first document the fold yields for the rows of that id. */
  function GetDocumentById(db: Db, id: int): (r: Option<Document>)
    ensures r.Some? <==> exists row :: InJoin(db, row) && row.doc.id == id
    ensures r.Some? ==> r.value.id == id
  {
    var docs := Aggregate(RowsOf(db, id));
    RowsOfSpec(db, id);
    FirstDocumentOfRows(RowsOf(db, id));
    if |docs| == 0 then None else Some(docs[0])
  }

  /** The rows of document `id` are the joined rows that carry that id. */
  lemma RowsOfSpec(db: Db, id: int)
    ensures |RowsOf(db, id)| > 0 <==> exists row :: InJoin(db, row) && row.doc.id == id
    ensures forall k :: 0 <= k < |RowsOf(db, id)| ==> RowsOf(db, id)[k].doc.id == id
  {
    var rows := RowsOf(db, id);
    forall k | 0 <= k < |rows| ensures rows[k].doc.id == id {
      assert rows[k] in rows;
    }
    if |rows| > 0 {
      assert rows[0] in rows;
    }
  }

  /** The fold yields a first document exactly when there are rows, and it carries the id of one of them. */
  lemma FirstDocumentOfRows(rows: seq<JoinedRow>)
    ensures |Aggregate(rows)| > 0 <==> |rows| > 0
    ensures |rows| > 0 ==> exists k :: 0 <= k < |rows| && rows[k].doc.id == Aggregate(rows)[0].id
  {
    var docs := Aggregate(rows);
    AggregateIds(rows);
    if |rows| > 0 {
      assert rows[0].doc.id in RowIds(rows);
      assert |docs| > 0;
      assert docs[0].id in RowIds(rows);
    }
  }

  /** GetDocumentByFileNameAsync: the first document the fold yields for the rows of that stored name. */
  function GetDocumentByFileName(db: Db, fileName: string): (r: Option<Document>)
    ensures r.Some? <==> exists row :: InJoin(db, row) && row.doc.fileName == fileName
    ensures r.Some? ==> r.value.fileName == fileName
  {
    var rows := Filter(Join(db), (row: JoinedRow) => row.doc.fileName == fileName);
    var docs := Aggregate(rows);
    AggregateIds(rows);
    if |docs| == 0 then
      None
    else
      AggregateSound(rows, 0);
      Some(docs[0])
  }

  lemma AggregateNamesListed(rows: seq<JoinedRow>, names: seq<string>)
    requires forall row :: row in rows ==> row.doc.fileName in names
    ensures forall i :: 0 <= i < |Aggregate(rows)| ==> Aggregate(rows)[i].fileName in names
  {
    forall i | 0 <= i < |Aggregate(rows)| ensures Aggregate(rows)[i].fileName in names {
      AggregateSound(rows, i);
      var k :| 0 <= k < |rows| && rows[k].doc.id == Aggregate(rows)[i].id && Describes(Aggregate(rows)[i], rows[k].doc);
      assert rows[k] in rows;
    }
  }

  /**
   * GetDocumentsByFileNamesAsync: no query at all for a null or empty list;
   * otherwise one document per id among the rows whose stored name is listed.
   */
  function GetDocumentsByFileNames(db: Db, fileNames: Option<seq<string>>): (r: seq<Document>)
    ensures fileNames.None? || |fileNames.value| == 0 ==> r == []
    ensures forall i :: 0 <= i < |r| ==> fileNames.Some? && r[i].fileName in fileNames.value
    ensures fileNames.Some? ==>
      forall row :: InJoin(db, row) && row.doc.fileName in fileNames.value ==> row.doc.id in Ids(r)
    ensures NoDuplicates(Ids(r))
  {
    if fileNames.None? || |fileNames.value| == 0 then []
    else
      var names := fileNames.value;
      var rows := Filter(Join(db), (row: JoinedRow) => row.doc.fileName in names);
      var docs := Aggregate(rows);
      AggregateIds(rows);
      AggregateNamesListed(rows, names);
      docs
  }

  // ---------- search ----------

  /** The optional filters of SearchDocumentsWithDetailsAsync; None is a NULL parameter. */
  datatype SearchFilter = SearchFilter(
    majorHeadId: Option<int>,
    minorHeadId: Option<int>,
    from: Option<Instant>,
    to: Option<Instant>,
    tags: Option<seq<string>>)

  /** The tag condition is appended only for a non-null, non-empty list. */
  predicate TagFilterOn(f: SearchFilter) {
    f.tags.Some? && |f.tags.value| > 0
  }

  /** The WHERE clause, row by row; `t.Name IN @Tags` is false on a NULL tag. */
  predicate RowMatches(f: SearchFilter, row: JoinedRow) {
    && (f.majorHeadId.None? || row.doc.majorHeadId == f.majorHeadId.value)
    && (f.minorHeadId.None? || row.doc.minorHeadId == f.minorHeadId.value)
    && (f.from.None? || row.doc.uploadedAt >= f.from.value)
    && (f.to.None? || row.doc.uploadedAt <= f.to.value)
    && (!TagFilterOn(f) || (row.tag.Some? && row.tag.value.name in f.tags.value))
  }

  /** The joined rows the WHERE clause admits, in ORDER BY order. */
  function MatchingRows(db: Db, f: SearchFilter): seq<JoinedRow> {
    SortRows(Filter(Join(db), (row: JoinedRow) => RowMatches(f, row)))
  }

  function SearchDocuments(db: Db, f: SearchFilter): seq<Document> {
    Aggregate(MatchingRows(db, f))
  }

  /** Sorting keeps exactly the admitted rows. */
  lemma MatchingRowsMatch(db: Db, f: SearchFilter)
    ensures forall k :: 0 <= k < |MatchingRows(db, f)| ==> RowMatches(f, MatchingRows(db, f)[k])
    ensures forall row :: InJoin(db, row) && RowMatches(f, row) ==> row in MatchingRows(db, f)
  {
    var rows := MatchingRows(db, f);
    var filtered := Filter(Join(db), (row: JoinedRow) => RowMatches(f, row));
    forall k | 0 <= k < |rows| ensures RowMatches(f, rows[k]) {
      assert rows[k] in multiset(rows);
      assert rows[k] in multiset(filtered);
    }
    forall row | InJoin(db, row) && RowMatches(f, row) ensures row in rows {
      assert row in multiset(filtered);
      assert row in multiset(rows);
    }
  }

  /** The document-level filters a result satisfies. */
  predicate HeadAndDateMatch(f: SearchFilter, d: Document) {
    && (f.majorHeadId.None? || d.majorHeadId == f.majorHeadId.value)
    && (f.minorHeadId.None? || d.minorHeadId == f.minorHeadId.value)
    && (f.from.None? || d.uploadedAt >= f.from.value)
    && (f.to.None? || d.uploadedAt <= f.to.value)
  }

  /** Without filters (or with an empty tag list) search returns what GetAllDocumentsAsync returns. */
  lemma SearchWithoutFilters(db: Db, tags: Option<seq<string>>)
    requires tags.None? || |tags.value| == 0
    ensures SearchDocuments(db, SearchFilter(None, None, None, None, tags)) == GetAllDocuments(db)
  {
    var f := SearchFilter(None, None, None, None, tags);
    FilterAll(Join(db), (row: JoinedRow) => RowMatches(f, row));
  }

  /**
   * Each result satisfies every present filter, head ids and UploadedAt
   * inclusively; with a tag list it lists at least one tag and only listed tag
   * names, so untagged documents never appear.
   */
  lemma SearchSound(db: Db, f: SearchFilter, i: nat)
    requires i < |SearchDocuments(db, f)|
    ensures var d := SearchDocuments(db, f)[i];
      && HeadAndDateMatch(f, d)
      && (TagFilterOn(f) ==> |d.tags| > 0 && forall t :: t in d.tags ==> t.name in f.tags.value)
  {
    var rows := MatchingRows(db, f);
    var d := Aggregate(rows)[i];
    MatchingRowsMatch(db, f);
    AggregateSound(rows, i);
    var k :| 0 <= k < |rows| && rows[k].doc.id == d.id && Describes(d, rows[k].doc)
             && d.majorHead == rows[k].major && d.minorHead == rows[k].minor;
    assert RowMatches(f, rows[k]);
    if TagFilterOn(f) {
      SearchTagsListed(rows, f, i, k);
    }
  }

  /** Under a tag filter, the document of an admitted row lists that row's tag and only listed names. */
  lemma SearchTagsListed(rows: seq<JoinedRow>, f: SearchFilter, i: nat, k: nat)
    requires TagFilterOn(f) && forall j :: 0 <= j < |rows| ==> RowMatches(f, rows[j])
    requires i < |Aggregate(rows)| && k < |rows| && rows[k].doc.id == Aggregate(rows)[i].id
    ensures |Aggregate(rows)[i].tags| > 0
    ensures forall t :: t in Aggregate(rows)[i].tags ==> t.name in f.tags.value
  {
    var d := Aggregate(rows)[i];
    AggregateTagsComplete(rows);
    AggregateTagsCarried(rows);
    assert RowMatches(f, rows[k]);
    assert rows[k].tag.value.id in TagIds(d.tags);
    forall t | t in d.tags ensures t.name in f.tags.value {
      assert Carries(rows, d.id, t);
      var k' :| 0 <= k' < |rows| && rows[k'].doc.id == d.id && rows[k'].tag == Some(t);
      assert RowMatches(f, rows[k']);
    }
  }

  /** Every joined row the WHERE clause admits contributes its document to the result. */
  lemma SearchComplete(db: Db, f: SearchFilter, row: JoinedRow)
    requires InJoin(db, row) && RowMatches(f, row)
    ensures row.doc.id in Ids(SearchDocuments(db, f))
  {
    MatchingRowsMatch(db, f);
    AggregateIds(MatchingRows(db, f));
  }

  /** Results come newest first, ties on UploadedAt broken by the larger id, each id once. */
  lemma SearchNewestFirst(db: Db, f: SearchFilter)
    ensures var r := SearchDocuments(db, f);
      NoDuplicates(Ids(r)) && forall i, j :: 0 <= i < j < |r| ==> Newer(r[i], r[j])
  {
    var rows := MatchingRows(db, f);
    AggregateIds(rows);
    AggregateNewestFirst(rows);
  }

  // ---------- reading back what was inserted ----------

  /** A tag carried by a joined row of document `id` is a Tags row linked to it. */
  lemma CarriedTagIsLinked(db: Db, id: nat, rows: seq<JoinedRow>, t: Tag)
    requires forall r :: r in rows ==> InJoin(db, r) && r.doc.id == id
    requires Carries(rows, id, t)
    ensures t in db.tags && DocumentStore.Linked(db, id, t.name)
  {
    var k :| 0 <= k < |rows| && rows[k].doc.id == id && rows[k].tag == Some(t);
    assert rows[k] in rows;
    var l :| l in db.documentTags && l.documentId == id && Fits(db, l, Some(t));
    var kl :| 0 <= kl < |db.documentTags| && db.documentTags[kl] == l;
    var j :| 0 <= j < |db.tags| && db.tags[j] == t;
  }

  /** A tag linked to document `id` is listed, by name, on the document folded from its rows. */
  lemma LinkedTagIsListed(db: Db, id: nat, rows: seq<JoinedRow>, base: JoinedRow, d: Document, n: string)
    requires Valid(db) && InJoin(db, base) && base.doc.id == id
    requires forall r :: InJoin(db, r) && r.doc.id == id ==> r in rows
    requires forall k :: 0 <= k < |rows| && rows[k].doc.id == id && rows[k].tag.Some? ==>
      rows[k].tag.value.id in TagIds(d.tags)
    requires forall t :: t in d.tags ==> t in db.tags
    requires DocumentStore.Linked(db, id, n)
    ensures n in TagNames(d.tags)
  {
    var kl, j :| 0 <= kl < |db.documentTags| && 0 <= j < |db.tags|
      && db.documentTags[kl].documentId == id && db.documentTags[kl].tagId == db.tags[j].id && db.tags[j].name == n;
    var row := JoinedRow(base.doc, base.major, base.minor, Some(db.tags[j]));
    assert db.documentTags[kl] in db.documentTags;
    assert Fits(db, db.documentTags[kl], Some(db.tags[j]));
    assert InJoin(db, row);
    var k :| 0 <= k < |rows| && rows[k] == row;
    var i :| 0 <= i < |d.tags| && TagIds(d.tags)[i] == db.tags[j].id;
    assert d.tags[i] in d.tags;
    var j' :| 0 <= j' < |db.tags| && db.tags[j'] == d.tags[i];
    assert j' == j;
    assert TagNames(d.tags)[i] == n;
  }

  /**
   * In a well-formed catalog, the document GetDocumentByIdAsync returns lists
   * exactly the names of the tags linked to it, each a row of the Tags table.
   */
  lemma GetDocumentByIdTags(db: Db, id: nat)
    requires Valid(db) && GetDocumentById(db, id).Some?
    ensures var d := GetDocumentById(db, id).value;
      && (forall t :: t in d.tags ==> t in db.tags)
      && forall n :: n in TagNames(d.tags) <==> DocumentStore.Linked(db, id, n)
  {
    var d := GetDocumentById(db, id).value;
    ByIdTagsLinked(db, id);
    forall n | DocumentStore.Linked(db, id, n) ensures n in TagNames(d.tags) {
      ByIdLinkedListed(db, id, n);
    }
  }

  /** Each tag the document lists is a Tags row linked to it. */
  lemma ByIdTagsLinked(db: Db, id: nat)
    requires Valid(db) && GetDocumentById(db, id).Some?
    ensures var d := GetDocumentById(db, id).value;
      && (forall t :: t in d.tags ==> t in db.tags && DocumentStore.Linked(db, id, t.name))
      && forall n :: n in TagNames(d.tags) ==> DocumentStore.Linked(db, id, n)
  {
    var rows := RowsOf(db, id);
    var d := GetDocumentById(db, id).value;
    assert d == Aggregate(rows)[0];
    AggregateTagsCarried(rows);
    forall t | t in d.tags ensures t in db.tags && DocumentStore.Linked(db, id, t.name) {
      CarriedTagIsLinked(db, id, rows, t);
    }
    forall n | n in TagNames(d.tags) ensures DocumentStore.Linked(db, id, n) {
      var i :| 0 <= i < |d.tags| && TagNames(d.tags)[i] == n;
      assert d.tags[i] in d.tags;
    }
  }

  /** Each tag name linked to the document is listed on it. */
  lemma ByIdLinkedListed(db: Db, id: nat, n: string)
    requires Valid(db) && GetDocumentById(db, id).Some? && DocumentStore.Linked(db, id, n)
    ensures n in TagNames(GetDocumentById(db, id).value.tags)
  {
    var rows := RowsOf(db, id);
    var d := GetDocumentById(db, id).value;
    assert d == Aggregate(rows)[0];
    ByIdTagsLinked(db, id);
    AggregateTagsComplete(rows);
    AggregateSound(rows, 0);
    var k0 :| 0 <= k0 < |rows| && rows[k0].doc.id == d.id && Describes(d, rows[k0].doc);
    assert rows[k0] in rows;
    LinkedTagIsListed(db, id, rows, rows[k0], d, n);
  }

  /** A document whose heads exist has at least one joined row. */
  lemma JoinHasRow(db: Db, d: DocumentRow, m: MajorHead, mi: MinorHead)
    requires LinksValid(db)
    requires d in db.documents && m in db.majors && m.id == d.majorHeadId && mi in db.minors && mi.id == d.minorHeadId
    ensures exists tag :: InJoin(db, JoinedRow(d, m, mi, tag))
  {
    if l :| l in db.documentTags && l.documentId == d.id {
      var kl :| 0 <= kl < |db.documentTags| && db.documentTags[kl] == l;
      var j :| 0 <= j < |db.tags| && db.tags[j].id == l.tagId;
      assert db.tags[j] in db.tags;
      assert InJoin(db, JoinedRow(d, m, mi, Some(db.tags[j])));
    } else {
      assert InJoin(db, JoinedRow(d, m, mi, None));
    }
  }

  /**
   * Round trip of InsertDocumentAsync and GetDocumentByIdAsync: reading the
   * new id back gives the inserted row (the insert only succeeds when the
   * document's heads exist, so the inner joins find it), carrying exactly
   * the kept tag names.
   */
  lemma InsertThenGetById(db: Db, doc: DocumentStore.NewDocument, names: seq<string>)
    requires Valid(db)
    requires DocumentStore.InsertDocument(db, doc, names).Success?
    ensures var (db', id) := DocumentStore.InsertDocument(db, doc, names).value;
      var got := GetDocumentById(db', id);
      && got.Some? && Describes(got.value, DocumentStore.RowOf(doc, id))
      && forall n :: n in TagNames(got.value.tags) <==> n in DocumentStore.Kept(names)
  {
    var (db', id) := DocumentStore.InsertDocument(db, doc, names).value;
    DocumentStore.InsertDocumentTags(db, doc, names);
    var row := DocumentStore.RowOf(doc, id);
    assert db'.documents[|db.documents|] == row;
    var im :| 0 <= im < |db.majors| && db.majors[im].id == doc.majorHeadId;
    var imi :| 0 <= imi < |db.minors| && db.minors[imi].id == doc.minorHeadId;
    var m, mi := db.majors[im], db.minors[imi];
    assert m in db'.majors && mi in db'.minors;
    JoinHasRow(db', row, m, mi);
    var got := GetDocumentById(db', id).value;
    var rows := Filter(Join(db'), (r: JoinedRow) => r.doc.id == id);
    assert got == Aggregate(rows)[0];
    AggregateSound(rows, 0);
    var k :| 0 <= k < |rows| && rows[k].doc.id == id && Describes(got, rows[k].doc);
    assert rows[k] in rows;
    var i :| 0 <= i < |db'.documents| && db'.documents[i] == rows[k].doc;
    assert i == |db.documents|;
    GetDocumentByIdTags(db', id);
  }
}

=== FILE: catalog_seed.dfy ===
/**
 * SeedFromConfiguration: the DBinit section's majors (each with its minors)
 * and admins, applied in one transaction that only ever adds rows. A major
 * is looked up by its exact name, a minor by its major and trimmed name, and
 * an admin by mobile or username; what is found is left alone. Running the
 * seed a second time therefore changes nothing.
 */
module Seeding {
  import opened Wrappers
  import opened Text
  import opened Seqs
  import opened Tables

  /** One entry of DBinit:Majors; missing values bind as "" and an empty list. */
  datatype MajorSeed = MajorSeed(name: string, minors: seq<string>)

  /** One entry of DBinit:Admins. */
  datatype AdminSeed = AdminSeed(mobile: string, username: string, password: string)

  /** The DBinit section: absent, or its (possibly empty) lists. */
  datatype DbInit = DbInit(majors: seq<MajorSeed>, admins: seq<AdminSeed>)

  // ---------- lookups ----------

  /** SELECT Id FROM MajorHeads WHERE Name=@Name LIMIT 1: the first major with that exact name. */
  function MajorIdByName(majors: seq<MajorHead>, name: string): (r: Option<nat>)
    ensures r.None? <==> forall i :: 0 <= i < |majors| ==> majors[i].name != name
    ensures r.Some? ==> exists i :: 0 <= i < |majors| && majors[i].name == name && majors[i].id == r.value
  {
    if |majors| == 0 then None
    else if majors[0].name == name then Some(majors[0].id)
    else
      var r := MajorIdByName(majors[1..], name);
      assert forall i :: 1 <= i < |majors| ==> majors[1..][i - 1] == majors[i];
      r
  }

  /** SELECT COUNT(*) FROM MinorHeads WHERE MajorHeadId=@Mid AND Name=@Name is non-zero. */
  predicate MinorExists(db: Db, majorId: nat, name: string) {
    exists i :: 0 <= i < |db.minors| && db.minors[i].majorHeadId == majorId && db.minors[i].name == name
  }

  function NextMajorId(db: Db): nat {
    NextId(db.majors, (m: MajorHead) => m.id)
  }

  // ---------- the steps ----------

  /** One minor of a major: skipped when blank, otherwise inserted trimmed unless the major already has it. */
  function SeedMinor(db: Db, majorId: nat, minor: string): (r: Db)
    requires HasMajor(db, majorId)
    ensures r.majors == db.majors
    ensures !IsBlank(DotNet, minor) ==> MinorExists(r, majorId, Trim(DotNet, minor))
    ensures !IsBlank(DotNet, minor) && !MinorExists(db, majorId, Trim(DotNet, minor)) ==>
      exists id: nat :: r == db.(minors := db.minors + [MinorHead(id, majorId, Trim(DotNet, minor))])
    ensures IsBlank(DotNet, minor) || MinorExists(db, majorId, Trim(DotNet, minor)) ==> r == db
  {
    if IsBlank(DotNet, minor) then db
    else
      var name := Trim(DotNet, minor);
      if MinorExists(db, majorId, name) then db
      else
        var (db1, id) := InsertMinorHead(db, majorId, name).value;
        assert db1.minors[|db.minors|] == MinorHead(id, majorId, name);
        db1
  }

  function SeedMinors(db: Db, majorId: nat, minors: seq<string>): (r: Db)
    requires HasMajor(db, majorId)
    ensures r.majors == db.majors
    decreases |minors|
  {
    if |minors| == 0 then db else SeedMinors(SeedMinor(db, majorId, minors[0]), majorId, minors[1..])
  }

  /**
   * One major: skipped when its name is blank; otherwise found by its exact,
   * untrimmed name or inserted, and then its minors are seeded under it.
   */
  function SeedMajor(db: Db, m: MajorSeed): Db {
    if IsBlank(DotNet, m.name) then db
    else
      match MajorIdByName(db.majors, m.name)
      case Some(id) => SeedMinors(db, id, m.minors)
      case None =>
        var id := NextMajorId(db);
        var db1 := db.(majors := db.majors + [MajorHead(id, m.name)]);
        assert db1.majors[|db.majors|].id == id;
        SeedMinors(db1, id, m.minors)
  }

  function SeedMajors(db: Db, ms: seq<MajorSeed>): Db
    decreases |ms|
  {
    if |ms| == 0 then db else SeedMajors(SeedMajor(db, ms[0]), ms[1..])
  }

  /**
   * One admin: inserted with IsAdmin true and the hashed password exactly when
   * all three fields are non-blank and no user has that mobile or username;
   * otherwise skipped.
   */
  function SeedAdmin(db: Db, a: AdminSeed, hash: string -> string): (r: Db)
    ensures AdminSatisfied(r, a)
    ensures UsersUnique(db.users) ==> UsersUnique(r.users)
    ensures r != db <==>
      && !IsBlank(DotNet, a.mobile) && !IsBlank(DotNet, a.username) && !IsBlank(DotNet, a.password)
      && !HasMobile(db, a.mobile) && !HasUsername(db, a.username)
    ensures r != db ==>
      r == db.(users := db.users + [User(NextUserId(db), None, a.username, a.mobile, hash(a.password), true)])
  {
    if IsBlank(DotNet, a.mobile) || IsBlank(DotNet, a.username) || IsBlank(DotNet, a.password) then db
    else if HasMobile(db, a.mobile) || HasUsername(db, a.username) then db
    else
      match InsertUser(db, a.username, a.mobile, hash(a.password), true)
      case Success((db1, u)) =>
        assert db1.users[|db.users|] == u;
        assert |db1.users| != |db.users|;
        db1
      case Failure(_) => db
  }

  function SeedAdmins(db: Db, admins: seq<AdminSeed>, hash: string -> string): Db
    decreases |admins|
  {
    if |admins| == 0 then db else SeedAdmins(SeedAdmin(db, admins[0], hash), admins[1..], hash)
  }

  /** SeedFromConfiguration: nothing without a DBinit section; otherwise majors first, then admins. */
  function Seed(db: Db, init: Option<DbInit>, hash: string -> string): Db {
    match init
    case None => db
    case Some(cfg) => SeedAdmins(SeedMajors(db, cfg.majors), cfg.admins, hash)
  }

  // ---------- what a seed asks for ----------

  predicate MinorsSatisfied(db: Db, majorId: nat, minors: seq<string>) {
    forall k :: 0 <= k < |minors| && !IsBlank(DotNet, minors[k]) ==> MinorExists(db, majorId, Trim(DotNet, minors[k]))
  }

  /** A non-blank major seed is satisfied when a major has its name and the first such major has all its minors. */
  predicate MajorSatisfied(db: Db, m: MajorSeed) {
    !IsBlank(DotNet, m.name) ==>
      MajorIdByName(db.majors, m.name).Some? && MinorsSatisfied(db, MajorIdByName(db.majors, m.name).value, m.minors)
  }

  /** A complete admin seed is satisfied when some user has its mobile or its username. */
  predicate AdminSatisfied(db: Db, a: AdminSeed) {
    !IsBlank(DotNet, a.mobile) && !IsBlank(DotNet, a.username) && !IsBlank(DotNet, a.password) ==>
      HasMobile(db, a.mobile) || HasUsername(db, a.username)
  }

  predicate Satisfied(db: Db, cfg: DbInit) {
    && (forall k :: 0 <= k < |cfg.majors| ==> MajorSatisfied(db, cfg.majors[k]))
    && (forall k :: 0 <= k < |cfg.admins| ==> AdminSatisfied(db, cfg.admins[k]))
  }

  /** `db'` keeps every row of `db` in place and may add rows to the seeded tables. */
  predicate Extends(db: Db, db': Db) {
    && db.majors <= db'.majors && db.minors <= db'.minors && db.users <= db'.users
    && db'.tags == db.tags && db'.documents == db.documents && db'.documentTags == db.documentTags
  }

  // ---------- stability under adding rows ----------

  lemma {:induction false} MajorIdByNamePrefix(majors: seq<MajorHead>, more: seq<MajorHead>, name: string)
    requires majors <= more && MajorIdByName(majors, name).Some?
    ensures MajorIdByName(more, name) == MajorIdByName(majors, name)
  {
    assert more[0] == majors[0];
    if majors[0].name != name {
      assert majors[1..] <= more[1..];
      MajorIdByNamePrefix(majors[1..], more[1..], name);
    }
  }

  lemma MinorExistsExtends(db: Db, db': Db, majorId: nat, name: string)
    requires Extends(db, db') && MinorExists(db, majorId, name)
    ensures MinorExists(db', majorId, name)
  {
    var i :| 0 <= i < |db.minors| && db.minors[i].majorHeadId == majorId && db.minors[i].name == name;
    assert db'.minors[i] == db.minors[i];
  }

  lemma MajorSatisfiedExtends(db: Db, db': Db, m: MajorSeed)
    requires Extends(db, db') && MajorSatisfied(db, m)
    ensures MajorSatisfied(db', m)
  {
    if !IsBlank(DotNet, m.name) {
      var id := MajorIdByName(db.majors, m.name).value;
      MajorIdByNamePrefix(db.majors, db'.majors, m.name);
      forall k | 0 <= k < |m.minors| && !IsBlank(DotNet, m.minors[k])
        ensures MinorExists(db', id, Trim(DotNet, m.minors[k]))
      {
        MinorExistsExtends(db, db', id, Trim(DotNet, m.minors[k]));
      }
    }
  }

  lemma AdminSatisfiedExtends(db: Db, db': Db, a: AdminSeed)
    requires Extends(db, db') && AdminSatisfied(db, a)
    ensures AdminSatisfied(db', a)
  {
    if HasMobile(db, a.mobile) {
      var i :| 0 <= i < |db.users| && db.users[i].mobile == a.mobile;
      assert db'.users[i] == db.users[i];
    } else if HasUsername(db, a.username) {
      var i :| 0 <= i < |db.users| && db.users[i].username == a.username;
      assert db'.users[i] == db.users[i];
    }
  }

  lemma ExtendsTrans(a: Db, b: Db, c: Db)
    requires Extends(a, b) && Extends(b, c)
    ensures Extends(a, c)
  {
  }

  // ---------- each fold only adds rows and meets its seeds ----------

  lemma {:induction false} SeedMinorsEffect(db: Db, majorId: nat, minors: seq<string>)
    requires HasMajor(db, majorId)
    ensures var r := SeedMinors(db, majorId, minors);
      && Extends(db, r) && r.majors == db.majors && r.users == db.users
      && MinorsSatisfied(r, majorId, minors)
    decreases |minors|
  {
    if |minors| > 0 {
      var db1 := SeedMinor(db, majorId, minors[0]);
      assert Extends(db, db1) && db1.majors == db.majors;
      SeedMinorsEffect(db1, majorId, minors[1..]);
      var r := SeedMinors(db1, majorId, minors[1..]);
      ExtendsTrans(db, db1, r);
      forall k | 0 <= k < |minors| && !IsBlank(DotNet, minors[k])
        ensures MinorExists(r, majorId, Trim(DotNet, minors[k]))
      {
        if k == 0 {
          MinorExistsExtends(db1, r, majorId, Trim(DotNet, minors[0]));
        } else {
          assert minors[1..][k - 1] == minors[k];
        }
      }
    }
  }

  lemma SeedMajorEffect(db: Db, m: MajorSeed)
    ensures var r := SeedMajor(db, m);
      Extends(db, r) && r.users == db.users && MajorSatisfied(r, m)
  {
    if !IsBlank(DotNet, m.name) {
      match MajorIdByName(db.majors, m.name)
      case Some(id) =>
        SeedMinorsEffect(db, id, m.minors);
      case None =>
        var id := NextMajorId(db);
        var db1 := db.(majors := db.majors + [MajorHead(id, m.name)]);
        assert MajorIdByName(db1.majors, m.name) == Some(id) by {
          MajorIdByNameAppend(db.majors, MajorHead(id, m.name));
        }
        SeedMinorsEffect(db1, id, m.minors);
    }
  }

  lemma {:induction false} MajorIdByNameAppend(majors: seq<MajorHead>, m: MajorHead)
    requires forall i :: 0 <= i < |majors| ==> majors[i].name != m.name
    ensures MajorIdByName(majors + [m], m.name) == Some(m.id)
  {
    if |majors| > 0 {
      assert (majors + [m])[1..] == majors[1..] + [m];
      MajorIdByNameAppend(majors[1..], m);
    }
  }

  lemma {:induction false} SeedMajorsEffect(db: Db, ms: seq<MajorSeed>)
    ensures var r := SeedMajors(db, ms);
      && Extends(db, r) && r.users == db.users
      && forall k :: 0 <= k < |ms| ==> MajorSatisfied(r, ms[k])
    decreases |ms|
  {
    if |ms| > 0 {
      var db1 := SeedMajor(db, ms[0]);
      SeedMajorEffect(db, ms[0]);
      SeedMajorsEffect(db1, ms[1..]);
      var r := SeedMajors(db1, ms[1..]);
      ExtendsTrans(db, db1, r);
      MajorSatisfiedExtends(db1, r, ms[0]);
      forall k | 1 <= k < |ms|
        ensures MajorSatisfied(r, ms[k])
      {
        assert ms[1..][k - 1] == ms[k];
      }
    }
  }

  lemma {:induction false} SeedAdminsEffect(db: Db, admins: seq<AdminSeed>, hash: string -> string)
    ensures var r := SeedAdmins(db, admins, hash);
      && Extends(db, r) && r.majors == db.majors && r.minors == db.minors
      && (forall k :: 0 <= k < |admins| ==> AdminSatisfied(r, admins[k]))
      && (UsersUnique(db.users) ==> UsersUnique(r.users))
    decreases |admins|
  {
    if |admins| > 0 {
      var db1 := SeedAdmin(db, admins[0], hash);
      assert Extends(db, db1);
      SeedAdminsEffect(db1, admins[1..], hash);
      var r := SeedAdmins(db1, admins[1..], hash);
      ExtendsTrans(db, db1, r);
      AdminSatisfiedExtends(db1, r, admins[0]);
      forall k | 1 <= k < |admins|
        ensures AdminSatisfied(r, admins[k])
      {
        assert admins[1..][k - 1] == admins[k];
      }
    }
  }

  /**
   * After seeding, every seed is met, no existing row has moved or changed,
   * and the user table still has unique ids, usernames and mobiles.
   */
  lemma SeedMeetsConfiguration(db: Db, cfg: DbInit, hash: string -> string)
    ensures var r := Seed(db, Some(cfg), hash);
      && Satisfied(r, cfg) && Extends(db, r)
      && (UsersUnique(db.users) ==> UsersUnique(r.users))
  {
    var db1 := SeedMajors(db, cfg.majors);
    SeedMajorsEffect(db, cfg.majors);
    SeedAdminsEffect(db1, cfg.admins, hash);
    var r := SeedAdmins(db1, cfg.admins, hash);
    ExtendsTrans(db, db1, r);
    forall k | 0 <= k < |cfg.majors|
      ensures MajorSatisfied(r, cfg.majors[k])
    {
      MajorSatisfiedExtends(db1, r, cfg.majors[k]);
    }
  }

  // ---------- a met seed changes nothing ----------

  lemma {:induction false} SeedMinorsSatisfied(db: Db, majorId: nat, minors: seq<string>)
    requires HasMajor(db, majorId)
    requires MinorsSatisfied(db, majorId, minors)
    ensures SeedMinors(db, majorId, minors) == db
    decreases |minors|
  {
    if |minors| > 0 {
      assert SeedMinor(db, majorId, minors[0]) == db;
      assert MinorsSatisfied(db, majorId, minors[1..]) by {
        forall k | 0 <= k < |minors[1..]| && !IsBlank(DotNet, minors[1..][k])
          ensures MinorExists(db, majorId, Trim(DotNet, minors[1..][k]))
        {
          assert minors[1..][k] == minors[k + 1];
        }
      }
      SeedMinorsSatisfied(db, majorId, minors[1..]);
    }
  }

  lemma {:induction false} SeedMajorsSatisfied(db: Db, ms: seq<MajorSeed>)
    requires forall k :: 0 <= k < |ms| ==> MajorSatisfied(db, ms[k])
    ensures SeedMajors(db, ms) == db
    decreases |ms|
  {
    if |ms| > 0 {
      assert MajorSatisfied(db, ms[0]);
      if !IsBlank(DotNet, ms[0].name) {
        SeedMinorsSatisfied(db, MajorIdByName(db.majors, ms[0].name).value, ms[0].minors);
      }
      assert SeedMajor(db, ms[0]) == db;
      assert forall k :: 0 <= k < |ms[1..]| ==> ms[1..][k] == ms[k + 1];
      SeedMajorsSatisfied(db, ms[1..]);
    }
  }

  lemma {:induction false} SeedAdminsSatisfied(db: Db, admins: seq<AdminSeed>, hash: string -> string)
    requires forall k :: 0 <= k < |admins| ==> AdminSatisfied(db, admins[k])
    ensures SeedAdmins(db, admins, hash) == db
    decreases |admins|
  {
    if |admins| > 0 {
      assert AdminSatisfied(db, admins[0]);
      assert SeedAdmin(db, admins[0], hash) == db;
      assert forall k :: 0 <= k < |admins[1..]| ==> admins[1..][k] == admins[k + 1];
      SeedAdminsSatisfied(db, admins[1..], hash);
    }
  }

  /** A database that already meets the configuration is left exactly as it is. */
  lemma SeedSatisfiedIsIdentity(db: Db, cfg: DbInit, hash: string -> string)
    requires Satisfied(db, cfg)
    ensures Seed(db, Some(cfg), hash) == db
  {
    SeedMajorsSatisfied(db, cfg.majors);
    SeedAdminsSatisfied(db, cfg.admins, hash);
  }

  /** Seeding is idempotent: a second start-up with the same configuration adds nothing. */
  lemma SeedIdempotent(db: Db, init: Option<DbInit>, hash: string -> string)
    ensures Seed(Seed(db, init, hash), init, hash) == Seed(db, init, hash)
  {
    if init.Some? {
      SeedMeetsConfiguration(db, init.value, hash);
      SeedSatisfiedIsIdentity(Seed(db, init, hash), init.value, hash);
    }
  }
}

=== FILE: create_admin_page.dfy ===
/**
 * The create-admin page: its live validity flags, and a submit that only
 * calls the create-user endpoint for a valid form.
 */
module CreateAdminPage {
  import opened Wrappers
  import opened Text
  import opened Tables
  import opened JwtTokenHelper
  import AdminController

  const MinPasswordLength: nat := 6
  const FixErrors: string := "Please fix validation errors"
  const CreationFailed: string := "Creation failed"

  datatype Page = Page(username: string, password: string, showPass: bool, loading: bool, error: string, result: string)

  /** The body posted to admin/create-user. */
  datatype CreateRequest = CreateRequest(username: string, password: string)

  predicate UsernameValid(p: Page) {
    Utf16Length(Trim(JavaScript, p.username)) >= 3
  }

  /** The password is measured as typed, surrounding white space included; lengths are JavaScript's UTF-16 lengths. */
  predicate PasswordValid(p: Page) {
    Utf16Length(p.password) >= MinPasswordLength
  }

  predicate FormValid(p: Page) {
    UsernameValid(p) && PasswordValid(p) && !p.loading
  }

  /**
   * submit: clears the error and result; an invalid form only sets the
   * error; a valid one starts loading and posts the trimmed username with
   * the password as typed.
   */
  function Submit(p: Page): (r: (Page, Option<CreateRequest>))
    ensures r.1.Some? <==> Utf16Length(Trim(JavaScript, p.username)) >= 3 && Utf16Length(p.password) >= 6 && !p.loading
    ensures r.1.None? ==> r.0 == p.(error := FixErrors, result := "")
    ensures r.1.Some? ==>
      && r.0 == p.(error := "", result := "", loading := true)
      && r.1.value == CreateRequest(Trim(JavaScript, p.username), p.password)
  {
    var cleared := p.(error := "", result := "");
    if !FormValid(p) then (cleared.(error := FixErrors), None)
    else (cleared.(loading := true), Some(CreateRequest(Trim(JavaScript, p.username), p.password)))
  }

  /**
   * The reply: success reports the new id and clears both fields and the
   * password toggle; a failure shows its message, or "Creation failed" for
   * an empty one. Loading ends either way.
   */
  function Completed(p: Page, outcome: Result<int, string>): (r: Page)
    ensures !r.loading
    ensures outcome.Success? ==>
      r == p.(result := "Created admin user (id=" + IntToString(outcome.value) + ")", username := "", password := "",
              showPass := false, loading := false)
    ensures outcome.Failure? ==> r.username == p.username && r.password == p.password && r.result == p.result
    ensures outcome.Failure? ==> r.error != "" && (outcome.error != "" ==> r.error == outcome.error)
  {
    match outcome
    case Success(id) =>
      p.(result := "Created admin user (id=" + IntToString(id) + ")", username := "", password := "",
         showPass := false, loading := false)
    case Failure(e) => p.(error := if e != "" then e else CreationFailed, loading := false)
  }

  /** A page reset by a successful creation is invalid until the fields are typed again. */
  lemma CreatedFormInvalid(p: Page, id: int)
    ensures !FormValid(Completed(p, Success(id)))
    ensures Submit(Completed(p, Success(id))).1.None?
  {
  }

  /** Six spaces satisfy the page's password rule, yet the server refuses the request as missing a password. */
  lemma BlankPasswordPassesPageNotServer(p: Page, db: Db, caller: seq<Claim>, hash: string -> string)
    requires Utf16Length(Trim(JavaScript, p.username)) >= 3 && !p.loading && p.password == "      "
    requires AdminOnly(caller)
    ensures Submit(p).1.Some?
    ensures var req := Submit(p).1.value;
      AdminController.CreateAdminUser(db, Some(caller), Some(req.username), Some(req.password), hash).1.BadRequest?
  {
    var req := Submit(p).1.value;
    assert AdminController.Missing(Some(req.password));
  }
}

=== FILE: documents_api.dfy ===
/**
 * documentsApi: the search query the client composes, the multipart form of
 * an upload, and the absolute download URLs built from the API base.
 */
module DocumentsApi {
  import opened Wrappers
  import opened Text
  import opened Http

  // ---------- search ----------

  /** The criteria object of searchDocuments; an absent property is None. */
  datatype Criteria = Criteria(
    majorHeadId: Option<int>,
    minorHeadId: Option<int>,
    from: Option<string>,
    to: Option<string>,
    tags: Option<seq<string>>)

  function NumberOrUndefined(v: Option<int>): QueryValue {
    if v.Some? then Num(v.value) else Undefined
  }

  function TextOrUndefined(v: Option<string>): QueryValue {
    if v.Some? then Str(v.value) else Undefined
  }

  /** The tag list travels as one comma-joined value, and only when it is non-empty. */
  function TagsValue(tags: Option<seq<string>>): QueryValue {
    if tags.Some? && |tags.value| > 0 then Str(Join(tags.value, ',')) else Undefined
  }

  /** The record handed to buildQuery, keys in this order. */
  function SearchParams(c: Criteria): seq<(string, QueryValue)> {
    [ ("majorHeadId", NumberOrUndefined(c.majorHeadId)),
      ("minorHeadId", NumberOrUndefined(c.minorHeadId)),
      ("from", TextOrUndefined(c.from)),
      ("to", TextOrUndefined(c.to)),
      ("tags", TagsValue(c.tags)) ]
  }

  /** The relative URL searchDocuments requests. */
  function SearchPath(c: Criteria, encode: string -> string): (r: string)
    ensures |r| >= |"documents/search"| && r[..|"documents/search"|] == "documents/search"
  {
    "documents/search" + BuildQuery(SearchParams(c), encode)
  }

  /**
   * A tags pair is sent exactly when the list is present, non-empty and does
   * not join to "" (a list of one empty tag is dropped like an absent one);
   * its value is the comma-joined list.
   */
  lemma SearchSendsTags(c: Criteria)
    ensures (exists v :: ("tags", v) in KeptPairs(SearchParams(c)))
        <==> c.tags.Some? && |c.tags.value| > 0 && Join(c.tags.value, ',') != ""
    ensures forall v :: ("tags", v) in KeptPairs(SearchParams(c)) ==> v == Join(c.tags.value, ',')
  {
    var ps := SearchParams(c);
    var kp := KeptPairs(ps);
    forall v | ("tags", v) in kp
      ensures c.tags.Some? && |c.tags.value| > 0 && Join(c.tags.value, ',') != "" && v == Join(c.tags.value, ',')
    {
      var i :| 0 <= i < |kp| && kp[i] == ("tags", v);
      var j :| 0 <= j < |ps| && ps[j].0 == kp[i].0 && Sent(ps[j].1) && Stringify(ps[j].1) == kp[i].1;
      TagsKeyAt(c, j);
    }
    if c.tags.Some? && |c.tags.value| > 0 && Join(c.tags.value, ',') != "" {
      assert Sent(ps[4].1) && ps[4].0 == "tags";
      assert ("tags", Join(c.tags.value, ',')) in kp;
    }
  }

  lemma TagsKeyAt(c: Criteria, j: nat)
    requires j < 5 && SearchParams(c)[j].0 == "tags"
    ensures j == 4
  {
    assert "majorHeadId"[0] != 't' && "minorHeadId"[0] != 't' && "from"[0] != 't' && "to"[1] != 'a';
  }

  /** An absent filter never reaches the query string. */
  lemma AbsentFiltersOmitted(c: Criteria)
    ensures forall i :: 0 <= i < |KeptPairs(SearchParams(c))| ==>
      var key := KeptPairs(SearchParams(c))[i].0;
      && (key == "majorHeadId" ==> c.majorHeadId.Some?)
      && (key == "minorHeadId" ==> c.minorHeadId.Some?)
      && (key == "from" ==> c.from.Some? && c.from.value != "")
      && (key == "to" ==> c.to.Some? && c.to.value != "")
      && (key == "tags" ==> c.tags.Some? && |c.tags.value| > 0)
  {
    var ps := SearchParams(c);
    var kp := KeptPairs(ps);
    forall i | 0 <= i < |kp|
      ensures var key := kp[i].0;
        && (key == "majorHeadId" ==> c.majorHeadId.Some?)
        && (key == "minorHeadId" ==> c.minorHeadId.Some?)
        && (key == "from" ==> c.from.Some? && c.from.value != "")
        && (key == "to" ==> c.to.Some? && c.to.value != "")
        && (key == "tags" ==> c.tags.Some? && |c.tags.value| > 0)
    {
      var j :| 0 <= j < |ps| && ps[j].0 == kp[i].0 && Sent(ps[j].1) && Stringify(ps[j].1) == kp[i].1;
      SentParam(c, j);
    }
  }

  /** A sent parameter comes from a present filter; the five keys are distinct. */
  lemma SentParam(c: Criteria, j: nat)
    requires j < 5 && Sent(SearchParams(c)[j].1)
    ensures var key := SearchParams(c)[j].0;
      && (key == "majorHeadId" ==> c.majorHeadId.Some?)
      && (key == "minorHeadId" ==> c.minorHeadId.Some?)
      && (key == "from" ==> c.from.Some? && c.from.value != "")
      && (key == "to" ==> c.to.Some? && c.to.value != "")
      && (key == "tags" ==> c.tags.Some? && |c.tags.value| > 0)
  {
    assert "majorHeadId"[1] != "minorHeadId"[1] && "from"[0] != "tags"[0];
  }

  /** Tags without commas are recovered by splitting the sent value on ','. */
  lemma TagsValueSplits(tags: seq<string>)
    requires |tags| > 0 && forall i :: 0 <= i < |tags| ==> ',' !in tags[i]
    ensures TagsValue(Some(tags)).Str? && Split(TagsValue(Some(tags)).s, ',') == tags
  {
    SplitJoin(tags, ',');
  }

  // ---------- upload form ----------

  /** The fields of uploadDocument besides the file itself. */
  datatype UploadFields = UploadFields(
    majorHeadId: int,
    minorHeadId: int,
    remarks: Option<string>,
    documentDate: Option<string>,
    tags: seq<string>)

  datatype FormValue = FileValue | TextValue(s: string)

  /** An optional text field is appended only when it is truthy (present and non-empty). */
  function Optional(name: string, v: Option<string>): seq<(string, FormValue)> {
    if v.Some? && v.value != "" then [(name, TextValue(v.value))] else []
  }

  function TagEntries(tags: seq<string>): (r: seq<(string, FormValue)>)
    ensures |r| == |tags| && forall i :: 0 <= i < |tags| ==> r[i] == ("Tags", TextValue(tags[i]))
  {
    seq(|tags|, i requires 0 <= i < |tags| => ("Tags", TextValue(tags[i])))
  }

  /** The file and the two head ids, always appended first. */
  function HeadEntries(d: UploadFields): seq<(string, FormValue)> {
    [ ("File", FileValue),
      ("MajorHeadId", TextValue(IntToString(d.majorHeadId))),
      ("MinorHeadId", TextValue(IntToString(d.minorHeadId))) ]
  }

  /** The FormData entries in append order. */
  function UploadForm(d: UploadFields): seq<(string, FormValue)> {
    HeadEntries(d)
    + Optional("Remarks", d.remarks)
    + Optional("DocumentDate", d.documentDate)
    + TagEntries(d.tags)
  }

  /** The text values a form carries under `name`, in order. */
  function Values(form: seq<(string, FormValue)>, name: string): (r: seq<string>)
    decreases |form|
  {
    if |form| == 0 then []
    else
      var rest := Values(form[1..], name);
      if form[0].0 == name && form[0].1.TextValue? then [form[0].1.s] + rest else rest
  }

  lemma {:induction false} ValuesAppend(a: seq<(string, FormValue)>, b: seq<(string, FormValue)>, name: string)
    ensures Values(a + b, name) == Values(a, name) + Values(b, name)
    decreases |a|
  {
    if |a| > 0 {
      assert (a + b)[1..] == a[1..] + b;
      ValuesAppend(a[1..], b, name);
    } else {
      assert a + b == b;
    }
  }

  lemma {:induction false} TagEntriesValues(tags: seq<string>, name: string)
    ensures Values(TagEntries(tags), name) == if name == "Tags" then tags else []
    decreases |tags|
  {
    if |tags| > 0 {
      assert TagEntries(tags)[1..] == TagEntries(tags[1..]);
      TagEntriesValues(tags[1..], name);
      if name == "Tags" {
        assert tags == [tags[0]] + tags[1..];
      }
    }
  }

  lemma OptionalValues(n: string, v: Option<string>, name: string)
    ensures Values(Optional(n, v), name) == if name == n && v.Some? && v.value != "" then [v.value] else []
  {
    if v.Some? && v.value != "" {
      assert Optional(n, v)[1..] == [];
    }
  }

  lemma HeadValues(d: UploadFields, name: string)
    ensures Values(HeadEntries(d), name) ==
        if name == "MajorHeadId" then [IntToString(d.majorHeadId)]
        else if name == "MinorHeadId" then [IntToString(d.minorHeadId)]
        else []
  {
    var head := HeadEntries(d);
    var minor := [("MinorHeadId", TextValue(IntToString(d.minorHeadId)))];
    assert head[1..] == [head[1]] + minor && minor[1..] == [];
    assert Values(minor, name) == if name == "MinorHeadId" then [IntToString(d.minorHeadId)] else [];
    assert Values(head[1..], name) == Values([head[1]], name) + Values(minor, name) by {
      ValuesAppend([head[1]], minor, name);
    }
    assert "MajorHeadId" != "MinorHeadId" by { assert "MajorHeadId"[1] != "MinorHeadId"[1]; }
  }

  /** The fields carried under one name, piece by piece. */
  lemma FormValuesSplit(d: UploadFields, name: string)
    ensures Values(UploadForm(d), name)
      == Values(HeadEntries(d), name) + Values(Optional("Remarks", d.remarks), name)
       + Values(Optional("DocumentDate", d.documentDate), name) + Values(TagEntries(d.tags), name)
  {
    var head, r, dd, t := HeadEntries(d), Optional("Remarks", d.remarks), Optional("DocumentDate", d.documentDate), TagEntries(d.tags);
    ValuesAppend(head + r + dd, t, name);
    ValuesAppend(head + r, dd, name);
    ValuesAppend(head, r, name);
  }

  /**
   * Read back by field name, the form holds the file first, the two head
   * ids, Remarks and DocumentDate only when truthy, and the tags one entry
   * each in order.
   */
  lemma UploadFormFields(d: UploadFields)
    ensures UploadForm(d)[0] == ("File", FileValue)
    ensures Values(UploadForm(d), "MajorHeadId") == [IntToString(d.majorHeadId)]
    ensures Values(UploadForm(d), "MinorHeadId") == [IntToString(d.minorHeadId)]
    ensures Values(UploadForm(d), "Remarks") == if d.remarks.Some? && d.remarks.value != "" then [d.remarks.value] else []
    ensures Values(UploadForm(d), "DocumentDate") ==
      if d.documentDate.Some? && d.documentDate.value != "" then [d.documentDate.value] else []
    ensures Values(UploadForm(d), "Tags") == d.tags
  {
    FieldValues(d, "MajorHeadId");
    FieldValues(d, "MinorHeadId");
    FieldValues(d, "Remarks");
    FieldValues(d, "DocumentDate");
    FieldValues(d, "Tags");
    assert "MajorHeadId"[0] != "Remarks"[0] && "MajorHeadId"[0] != "DocumentDate"[0] && "MajorHeadId"[0] != "Tags"[0];
    assert "MinorHeadId"[0] != "Remarks"[0] && "MinorHeadId"[0] != "DocumentDate"[0] && "MinorHeadId"[0] != "Tags"[0];
    assert "Remarks"[0] != "DocumentDate"[0] && "Remarks"[0] != "Tags"[0] && "DocumentDate"[0] != "Tags"[0];
    assert "MajorHeadId"[1] != "MinorHeadId"[1];
  }

  lemma FieldValues(d: UploadFields, name: string)
    ensures Values(UploadForm(d), name) ==
      (if name == "MajorHeadId" then [IntToString(d.majorHeadId)]
       else if name == "MinorHeadId" then [IntToString(d.minorHeadId)] else [])
      + (if name == "Remarks" && d.remarks.Some? && d.remarks.value != "" then [d.remarks.value] else [])
      + (if name == "DocumentDate" && d.documentDate.Some? && d.documentDate.value != "" then [d.documentDate.value] else [])
      + (if name == "Tags" then d.tags else [])
  {
    FormValuesSplit(d, name);
    HeadValues(d, name);
    OptionalValues("Remarks", d.remarks, name);
    OptionalValues("DocumentDate", d.documentDate, name);
    TagEntriesValues(d.tags, name);
  }

  // ---------- download URLs ----------

  /** `base.replace(/\/$/, '')`: one trailing '/' removed, if there is one. */
  function StripTrailingSlash(base: string): (r: string)
    ensures r == base || (r + "/" == base)
  {
    if |base| > 0 && base[|base| - 1] == '/' then
      assert base == base[..|base| - 1] + "/";
      base[..|base| - 1]
    else base
  }

  const DownloadPath: string := "/documents/download/"

  function DownloadUrl(base: string, fileName: string): (r: string)
    ensures |r| >= |fileName| && r[|r| - |fileName|..] == fileName
  {
    var r := StripTrailingSlash(base) + DownloadPath + fileName;
    assert r[|r| - |fileName|..] == fileName;
    r
  }

  function ZipUrl(base: string): string {
    StripTrailingSlash(base) + DownloadPath + "zip"
  }

  /** A base with or without its trailing '/' gives the same URLs. */
  lemma TrailingSlashIgnored(base: string, fileName: string)
    requires |base| == 0 || base[|base| - 1] != '/'
    ensures DownloadUrl(base + "/", fileName) == DownloadUrl(base, fileName)
    ensures ZipUrl(base + "/") == ZipUrl(base)
  {
    assert (base + "/")[..|base|] == base;
  }

  /** Only one '/' is removed: a base ending in "//" keeps one of them. */
  lemma OnlyOneSlashRemoved(base: string)
    ensures StripTrailingSlash(base + "//") == base + "/"
  {
    assert (base + "//")[..|base| + 1] == base + "/";
  }
}

=== FILE: documents_controller.dfy ===
/**
 * DocumentsController: the upload endpoint's precondition order and
 * defaults, single and bulk download over the upload directory, and delete.
 * The directory is a set of stored names (a stored name maps to the file
 * GetPhysicalFilePath would open), the wall clock and the GUID are
 * parameters, and an exception thrown by a service becomes a 500 reply.
 */
module DocumentsController {
  import opened Wrappers
  import opened Text
  import opened Seqs
  import opened Tables
  import opened JwtTokenHelper
  import opened DocumentStore
  import opened FileService
  import opened FileHelpers

  datatype Reply =
    | Uploaded(id: nat, fileName: string, url: string)
    | FileContent(storedName: string, contentType: string, downloadName: string)
    | Zip(entries: seq<string>, contentType: string, downloadName: string)
    | BadRequest(message: string)
    | NotFound
    | NoContent
    | Challenged
    | Unauthorized(message: string)
    | ServerError

  function StatusCode(r: Reply): nat {
    match r
    case Uploaded(_, _, _) => 200
    case FileContent(_, _, _) => 200
    case Zip(_, _, _) => 200
    case BadRequest(_) => 400
    case NotFound => 404
    case NoContent => 204
    case Challenged => 401
    case Unauthorized(_) => 401
    case ServerError => 500
  }

  // ---------- zip name ----------

  /** DateTime.UtcNow at second resolution, as the fields `yyyyMMddHHmmss` prints. */
  datatype Timestamp = Timestamp(year: nat, month: nat, day: nat, hour: nat, minute: nat, second: nat)

  predicate ValidTimestamp(t: Timestamp) {
    && 1 <= t.year <= 9999 && 1 <= t.month <= 12 && 1 <= t.day <= 31
    && t.hour < 24 && t.minute < 60 && t.second < 60
  }

  /**
   * The custom format `yyyyMMddHHmmss`: fourteen digits, every field
   * zero-padded to its width, so each field reads back from its own columns.
   */
  function Stamp(t: Timestamp): (r: string)
    requires ValidTimestamp(t)
    ensures |r| == 14 && AllDigits(r)
    ensures && DigitsValue(r[..4]) == t.year && DigitsValue(r[4..6]) == t.month
            && DigitsValue(r[6..8]) == t.day && DigitsValue(r[8..10]) == t.hour
            && DigitsValue(r[10..12]) == t.minute && DigitsValue(r[12..]) == t.second
  {
    PadWidths();
    var y, mo, d := ZeroPad(t.year, 4), ZeroPad(t.month, 2), ZeroPad(t.day, 2);
    var h, mi, s := ZeroPad(t.hour, 2), ZeroPad(t.minute, 2), ZeroPad(t.second, 2);
    StampColumns(y, mo, d, h, mi, s);
    y + mo + d + h + mi + s
  }

  lemma PadWidths()
    ensures Pow10(2) == 100 && Pow10(4) == 10000
  {
  }

  /** Six digit fields of widths 4, 2, 2, 2, 2, 2 sit in their own columns of the concatenation. */
  lemma StampColumns(y: string, mo: string, d: string, h: string, mi: string, s: string)
    requires |y| == 4 && |mo| == 2 && |d| == 2 && |h| == 2 && |mi| == 2 && |s| == 2
    requires AllDigits(y) && AllDigits(mo) && AllDigits(d) && AllDigits(h) && AllDigits(mi) && AllDigits(s)
    ensures var r := y + mo + d + h + mi + s;
      && |r| == 14 && AllDigits(r)
      && r[..4] == y && r[4..6] == mo && r[6..8] == d && r[8..10] == h && r[10..12] == mi && r[12..] == s
  {
    var r := y + mo + d + h + mi + s;
    forall i | 0 <= i < 14 ensures IsDigit(r[i]) {
      if i < 4 { assert r[i] == y[i]; }
      else if i < 6 { assert r[i] == mo[i - 4]; }
      else if i < 8 { assert r[i] == d[i - 6]; }
      else if i < 10 { assert r[i] == h[i - 8]; }
      else if i < 12 { assert r[i] == mi[i - 10]; }
      else { assert r[i] == s[i - 12]; }
    }
  }

  /** The stamp denotes the time as one decimal number, most significant field first. */
  lemma StampValue(t: Timestamp)
    requires ValidTimestamp(t)
    ensures DigitsValue(Stamp(t))
         == ((((t.year * 100 + t.month) * 100 + t.day) * 100 + t.hour) * 100 + t.minute) * 100 + t.second
  {
    PadWidths();
    var y, mo, d := ZeroPad(t.year, 4), ZeroPad(t.month, 2), ZeroPad(t.day, 2);
    var h, mi, s := ZeroPad(t.hour, 2), ZeroPad(t.minute, 2), ZeroPad(t.second, 2);
    assert Stamp(t) == y + mo + d + h + mi + s;
    DigitsValueAppend(y, mo);
    DigitsValueAppend(y + mo, d);
    DigitsValueAppend(y + mo + d, h);
    DigitsValueAppend(y + mo + d + h, mi);
    DigitsValueAppend(y + mo + d + h + mi, s);
  }

  const ZipSuffix: string := ".zip"

  /** The name used when none is given: "documents_", the fourteen-digit UTC stamp, then ".zip". */
  function DefaultZipName(now: Timestamp): (r: string)
    requires ValidTimestamp(now)
    ensures EndsWithIgnoreCase(r, ZipSuffix) && !IsBlank(DotNet, r)
    ensures |r| == 28 && r[..10] == "documents_" && r[10..24] == Stamp(now) && r[24..] == ZipSuffix
  {
    var stem := "documents_" + Stamp(now);
    assert stem[0] == 'd' && stem[..10] == "documents_" && stem[10..] == Stamp(now);
    AppendZipSuffix(stem);
    stem + ZipSuffix
  }

  /** A given name is kept when it already ends in ".zip" (any case) and otherwise gets ".zip" appended. */
  function WithZipSuffix(name: string): (r: string)
    requires !IsBlank(DotNet, name)
    ensures EndsWithIgnoreCase(r, ZipSuffix) && !IsBlank(DotNet, r)
    ensures |name| <= |r| && r[..|name|] == name
    ensures r == name <==> EndsWithIgnoreCase(name, ZipSuffix)
    ensures r != name ==> r[|name|..] == ZipSuffix
  {
    if EndsWithIgnoreCase(name, ZipSuffix) then name
    else
      AppendZipSuffix(name);
      name + ZipSuffix
  }

  /**
   * The download name of the archive: a blank or absent name becomes the
   * default name; any other name is kept or gets ".zip" appended.
   */
  function ZipName(requested: Option<string>, now: Timestamp): (r: string)
    requires ValidTimestamp(now)
    ensures EndsWithIgnoreCase(r, ZipSuffix) && !IsBlank(DotNet, r)
    ensures requested.None? || IsBlank(DotNet, requested.value) ==> r == DefaultZipName(now)
    ensures requested.Some? && !IsBlank(DotNet, requested.value) ==> r == WithZipSuffix(requested.value)
  {
    if requested.None? || IsBlank(DotNet, requested.value) then DefaultZipName(now)
    else WithZipSuffix(requested.value)
  }

  /** Appending ".zip" to a name that is not blank gives a name that is not blank and ends in ".zip". */
  lemma AppendZipSuffix(name: string)
    requires !IsBlank(DotNet, name)
    ensures var r := name + ZipSuffix;
      && EndsWithIgnoreCase(r, ZipSuffix) && !IsBlank(DotNet, r)
      && r[..|name|] == name && r[|name|..] == ZipSuffix
  {
    var r := name + ZipSuffix;
    assert r[|r| - 4..] == ZipSuffix && r[..|name|] == name;
    var k :| 0 <= k < |name| && !IsWhiteSpace(DotNet, name[k]);
    assert r[k] == name[k];
  }

  /** Normalising a name that is already normalised changes nothing, at any time. */
  lemma ZipNameIdempotent(requested: Option<string>, now: Timestamp, later: Timestamp)
    requires ValidTimestamp(now) && ValidTimestamp(later)
    ensures ZipName(Some(ZipName(requested, now)), later) == ZipName(requested, now)
  {
  }

  // ---------- bulk download ----------

  /**
   * The archive entries for the requested names: each distinct name (ordinal
   * comparison) once, in order of first request, skipping names with no file.
   */
  function ZipEntries(files: set<string>, names: seq<string>): (r: seq<string>)
    ensures NoDuplicates(r)
    ensures forall n :: n in r <==> n in names && n in files
    ensures FirstOccurrenceOrder(names, r)
  {
    var r := Filter(Distinct(names), (n: string) => n in files);
    forall i, j | 0 <= i < j < |r|
      ensures r[i] in names && r[j] in names && FirstIndex(names, r[i]) < FirstIndex(names, r[j]) && r[i] != r[j]
    {
      FilterDistinctOrder(names, (n: string) => n in files, i, j);
    }
    r
  }

  /** POST api/documents/download/zip: any authenticated caller; no access filter. */
  function DownloadZip(files: set<string>, caller: Option<seq<Claim>>, fileNames: Option<seq<string>>,
                       zipName: Option<string>, now: Timestamp): (r: Reply)
    requires ValidTimestamp(now)
    ensures StatusCode(r) == 401 <==> caller.None?
    ensures StatusCode(r) == 400 <==> caller.Some? && (fileNames.None? || |fileNames.value| == 0)
    ensures r.Zip? ==>
      && fileNames.Some? && r.contentType == "application/zip"
      && r.entries == ZipEntries(files, fileNames.value)
      && r.downloadName == ZipName(zipName, now)
    ensures r.Challenged? || r.BadRequest? || r.Zip?
  {
    if caller.None? then Challenged
    else if fileNames.None? || |fileNames.value| == 0 then BadRequest("No files specified")
    else Zip(ZipEntries(files, fileNames.value), "application/zip", ZipName(zipName, now))
  }

  /**
   * A repeated name is archived once, and a name whose file is missing is
   * skipped without failing the request.
   */
  lemma ZipSkipsMissingAndRepeats(files: set<string>, caller: seq<Claim>, present: string, missing: string,
                                  zipName: Option<string>, now: Timestamp)
    requires ValidTimestamp(now)
    requires present in files && missing !in files
    ensures DownloadZip(files, Some(caller), Some([present, missing, present]), zipName, now).entries == [present]
  {
    var s := [present, missing, present];
    ZipOfPresentAndMissing(files, present, missing);
    assert DownloadZip(files, Some(caller), Some(s), zipName, now).entries == ZipEntries(files, s);
  }

  lemma ZipOfPresentAndMissing(files: set<string>, present: string, missing: string)
    requires present in files && missing !in files
    ensures ZipEntries(files, [present, missing, present]) == [present]
  {
    var s := [present, missing, present];
    assert s[..2] == [present, missing] && s[..2][..1] == [present] && [present][..0] == [];
    assert Distinct([present]) == [present];
    assert Distinct([present, missing]) == [present, missing];
    assert Distinct(s) == [present, missing];
    var f := (n: string) => n in files;
    assert [present, missing][1..] == [missing] && [missing][1..] == [];
    assert Filter([missing], f) == [];
    assert Filter([present, missing], f) == [present];
  }

  // ---------- single download and delete ----------

  const OctetStream: string := "application/octet-stream"

  /** GET api/documents/download/{fileName}: the stored file under its stored name. */
  function Download(files: set<string>, caller: Option<seq<Claim>>, fileName: string): (r: Reply)
    ensures StatusCode(r) == 401 <==> caller.None?
    ensures StatusCode(r) == 400 <==> caller.Some? && IsBlank(DotNet, fileName)
    ensures StatusCode(r) == 404 <==> caller.Some? && !IsBlank(DotNet, fileName) && fileName !in files
    ensures StatusCode(r) == 200 ==> fileName in files && r == FileContent(fileName, OctetStream, fileName)
  {
    if caller.None? then Challenged
    else if IsBlank(DotNet, fileName) then BadRequest("")
    else if fileName !in files then NotFound
    else FileContent(fileName, OctetStream, fileName)
  }

  /** DELETE api/documents/{fileName}: 404 when there was no such file, else 204. */
  function Delete(files: set<string>, caller: Option<seq<Claim>>, fileName: string): (r: (set<string>, Reply))
    ensures StatusCode(r.1) == 401 <==> caller.None?
    ensures caller.Some? ==> (r.1 == NotFound <==> fileName !in files)
    ensures r.1 != NoContent ==> r.0 == files
    ensures r.1 == NoContent ==> fileName in files && r.0 == files - {fileName}
  {
    if caller.None? then (files, Challenged)
    else
      var (files', deleted) := DeleteFile(files, fileName);
      if !deleted then (files, NotFound) else (files', NoContent)
  }

  /** Deleting twice: the second call finds nothing and changes nothing. */
  lemma DeleteTwice(files: set<string>, caller: seq<Claim>, fileName: string)
    ensures var (files', _) := Delete(files, Some(caller), fileName);
      Delete(files', Some(caller), fileName) == (files', NotFound)
  {
  }

  // ---------- upload ----------

  /** The multipart form of an upload; an absent field is None. */
  datatype UploadRequest = UploadRequest(
    file: Option<FormFile>,
    majorHeadId: int,
    minorHeadId: int,
    remarks: Option<string>,
    documentDate: Option<Instant>,
    tags: Option<seq<string>>)

  /** The state the upload writes to: the database and the upload directory. */
  datatype Storage = Storage(db: Db, files: set<string>)

  /**
   * The user-id claim value: the NameIdentifier claim, else "sub" (the code
   * asks for JwtRegisteredClaimNames.Sub and then for "sub", the same type),
   * else "id".
   */
  function CallerIdValue(claims: seq<Claim>): Option<string> {
    match FindFirst(claims, NameIdentifier)
    case Some(v) => Some(v)
    case None =>
      match FindFirst(claims, "sub")
      case Some(v) => Some(v)
      case None => FindFirst(claims, "id")
  }

  /** int.TryParse of the claim value, accepted only when positive. */
  function CallerId(claims: seq<Claim>): (r: Option<nat>)
    ensures r.Some? ==> 0 < r.value <= 0x7FFF_FFFF
    ensures r.Some? <==>
      CallerIdValue(claims).Some? && ParseInt32(CallerIdValue(claims).value).Some?
      && ParseInt32(CallerIdValue(claims).value).value > 0
  {
    match CallerIdValue(claims)
    case None => None
    case Some(v) =>
      match ParseInt32(v)
      case Some(uid) => if uid > 0 then Some(uid) else None
      case None => None
  }

  /**
   * A token minted for a user carries that user's id, read from its "sub"
   * claim when inbound claims keep their names.
   */
  lemma UploadCallerIsTokenOwner(u: User)
    requires 0 < u.id <= 0x7FFF_FFFF
    ensures CallerId(ClaimsFor(u)) == Some(u.id)
  {
    TokenIdClaims(u);
    ParseNatToString(u.id);
    CallerIdOf(ClaimsFor(u), NatToString(u.id), u.id);
  }

  /** A minted token has no NameIdentifier claim and its "sub" is the decimal id. */
  lemma TokenIdClaims(u: User)
    ensures FindFirst(ClaimsFor(u), NameIdentifier).None?
    ensures FindFirst(ClaimsFor(u), "sub") == Some(NatToString(u.id))
  {
    var c := ClaimsFor(u);
    assert c[0] == Claim("sub", NatToString(u.id)) && EqualsIgnoreCase(c[0].kind, "sub");
    ClaimKindsShort(c);
    NoNameIdentifier(c);
  }

  lemma ClaimKindsShort(c: seq<Claim>)
    requires |c| == 4 && c[0].kind == "sub" && c[1].kind == "mobile" && c[2].kind == "username" && c[3].kind == "isAdmin"
    ensures forall i :: 0 <= i < |c| ==> |c[i].kind| <= 8
  {
  }

  /** With no NameIdentifier claim, the id is read from "sub". */
  lemma CallerIdOf(c: seq<Claim>, v: string, id: nat)
    requires FindFirst(c, NameIdentifier).None? && FindFirst(c, "sub") == Some(v)
    requires ParseInt32(v) == Some(id) && id > 0
    ensures CallerId(c) == Some(id)
  {
  }

  /** The same holds when "sub" was renamed to NameIdentifier on the way in. */
  lemma MappedCallerIsTokenOwner(u: User)
    requires 0 < u.id <= 0x7FFF_FFFF
    ensures CallerId(MapInbound(ClaimsFor(u))) == Some(u.id)
  {
    var m := MapInbound(ClaimsFor(u));
    assert m[0] == Claim(NameIdentifier, NatToString(u.id));
    assert FindFirst(m, NameIdentifier) == Some(NatToString(u.id));
    assert CallerIdValue(m) == Some(NatToString(u.id));
    ParseNatToString(u.id);
  }

  /** A minted token carries no NameIdentifier claim: every claim type is shorter. */
  lemma NoNameIdentifier(c: seq<Claim>)
    requires forall i :: 0 <= i < |c| ==> |c[i].kind| <= 8
    ensures FindFirst(c, NameIdentifier).None?
  {
    assert |NameIdentifier| > 8;
    forall i | 0 <= i < |c| ensures !EqualsIgnoreCase(c[i].kind, NameIdentifier) {
      assert |Lower(c[i].kind)| == |c[i].kind|;
    }
  }

  /**
   * The Document object the upload builds, with the defaults for absent
   * fields; `original` is what it carries as FileOriginalName.
   */
  function UploadDocument(file: FormFile, req: UploadRequest, original: Option<string>, uid: nat, now: Instant)
    : NewDocument
  {
    NewDocument(
      original, file.fileName, file.contentType, file.length,
      req.majorHeadId, req.minorHeadId,
      Some(req.remarks.GetOr("")), Some(req.documentDate.GetOr(now)), now, Some(uid))
  }

  /** The form carries a non-empty file. */
  predicate FileGiven(req: UploadRequest) {
    req.file.Some? && req.file.value.length != 0
  }

  /** The request passes every check before storage. */
  predicate Admitted(st: Storage, caller: Option<seq<Claim>>, req: UploadRequest) {
    && caller.Some?
    && FileGiven(req)
    && CallerId(caller.value).Some?
    && UserById(st.db.users, CallerId(caller.value).value).Some?
  }

  /**
   * The storing half of the upload, after every check passed: save the file
   * under the GUID and the client's extension, then insert the row and its
   * tags. A failed insert rolls the database back but the saved file stays
   * in the directory.
   */
  function Store(st: Storage, file: FormFile, doc: NewDocument, tags: seq<string>, maxFileSize: int, guid: string)
    : (r: (Storage, Reply))
    ensures r.1.ServerError? || r.1.Uploaded?
    ensures r.1.ServerError? ==> r.0.db == st.db
    ensures file.length > maxFileSize ==> r == (st, ServerError)
    ensures file.length <= maxFileSize ==> r.0.files == st.files + {guid + GetExtension(file.fileName)}
    ensures doc.fileOriginalName.None? ==> r.1 == ServerError
    ensures r.1.Uploaded? ==>
      && doc.fileOriginalName.Some?
      && r.1.url == GetFileUrl(r.1.fileName)
      && |guid| <= |r.1.fileName| && r.1.fileName[..|guid|] == guid
      && r.0.files == st.files + {r.1.fileName}
      && r.0.db.documents == st.db.documents + [RowOf(doc, r.1.id)]
  {
    match SaveFile(st.files, maxFileSize, file, guid)
    case Failure(_) => (st, ServerError)
    case Success((files', saved)) =>
      match InsertDocument(st.db, doc, tags)
      case Failure(_) => (Storage(st.db, files'), ServerError)
      case Success((db', id)) => (Storage(db', files'), Uploaded(id, saved, GetFileUrl(saved)))
  }

  /**
   * The body of POST api/documents/upload after its first line, with the
   * value bound to FileOriginalName chosen by `bindName`: the client's file
   * name, or nothing. The checks run in order: file present and non-empty, a
   * positive int id claim, a user with that id; only then is anything stored.
   */
  function UploadBinding(st: Storage, caller: Option<seq<Claim>>, req: UploadRequest, maxFileSize: int,
                         guid: string, now: Instant, bindName: bool): (r: (Storage, Reply))
    ensures r.1.Challenged? <==> caller.None?
    ensures r.1.BadRequest? <==> caller.Some? && !FileGiven(req)
    ensures r.1.Unauthorized? <==> caller.Some? && FileGiven(req) && !Admitted(st, caller, req)
    ensures !Admitted(st, caller, req) ==> r.0 == st
    ensures Admitted(st, caller, req) ==>
      var file := req.file.value;
      r == Store(st, file,
                 UploadDocument(file, req, if bindName then Some(file.fileName) else None, CallerId(caller.value).value, now),
                 req.tags.GetOr([]), maxFileSize, guid)
  {
    if caller.None? then (st, Challenged)
    else if !FileGiven(req) then (st, BadRequest("File is required"))
    else if CallerId(caller.value).None? then (st, Unauthorized("Missing or invalid user id claim"))
    else if UserById(st.db.users, CallerId(caller.value).value).None? then (st, Unauthorized("User does not exist"))
    else
      var file := req.file.value;
      var uid := CallerId(caller.value).value;
      Store(st, file, UploadDocument(file, req, if bindName then Some(file.fileName) else None, uid, now),
            req.tags.GetOr([]), maxFileSize, guid)
  }

  /**
   * POST api/documents/upload ([Authorize] only) as written. Its first line
   * sets the request-body size limit, which the server refuses once the body
   * has been read (`bodyRead`): binding the [FromForm] request reads the form
   * before the action runs, so that line throws and the reply is a 500 with
   * nothing stored. Past it, the new Document never gets a FileOriginalName
   * and the insert binds null into that NOT NULL column.
   */
  function Upload(st: Storage, caller: Option<seq<Claim>>, req: UploadRequest, maxFileSize: int,
                  guid: string, now: Instant, bodyRead: bool): (r: (Storage, Reply))
    ensures r.1.Challenged? <==> caller.None?
    ensures caller.Some? && bodyRead ==> r == (st, ServerError)
    ensures !bodyRead ==> r == UploadBinding(st, caller, req, maxFileSize, guid, now, false)
  {
    if caller.None? then (st, Challenged)
    else if bodyRead then (st, ServerError)
    else UploadBinding(st, caller, req, maxFileSize, guid, now, false)
  }

  /**
   * Past the size-limit line, an admitted upload within the size limit
   * always answers 500: the database is unchanged, and the file it saved
   * stays behind in the directory.
   */
  lemma UnsetNameFailsInsert(st: Storage, caller: Option<seq<Claim>>, req: UploadRequest, maxFileSize: int,
                             guid: string, now: Instant)
    requires Admitted(st, caller, req) && req.file.value.length <= maxFileSize
    ensures var (st', reply) := UploadBinding(st, caller, req, maxFileSize, guid, now, false);
      && reply == ServerError && st'.db == st.db
      && st'.files == st.files + {guid + GetExtension(req.file.value.fileName)}
  {
  }

  /** No request ever gets a 200 from the upload as written, whether or not its body was read. */
  lemma UploadNeverSucceeds(st: Storage, caller: Option<seq<Claim>>, req: UploadRequest, maxFileSize: int,
                            guid: string, now: Instant, bodyRead: bool)
    ensures StatusCode(Upload(st, caller, req, maxFileSize, guid, now, bodyRead).1) != 200
  {
  }

  /**
   * The upload as evidently intended: the size limit is left to the server's
   * configuration, and FileOriginalName is the client's file name.
   */
  function UploadCorrected(st: Storage, caller: Option<seq<Claim>>, req: UploadRequest, maxFileSize: int,
                           guid: string, now: Instant): (r: (Storage, Reply))
    ensures r.1.Challenged? <==> caller.None?
    ensures r.1.BadRequest? <==> caller.Some? && !FileGiven(req)
    ensures r.1.Unauthorized? <==> caller.Some? && FileGiven(req) && !Admitted(st, caller, req)
    ensures !Admitted(st, caller, req) ==> r.0 == st
    ensures r.1.Uploaded? ==>
      && Admitted(st, caller, req)
      && r.0.db.documents == st.db.documents + [RowOf(UploadDocument(req.file.value, req, Some(req.file.value.fileName),
                                                                     CallerId(caller.value).value, now), r.1.id)]
  {
    UploadBinding(st, caller, req, maxFileSize, guid, now, true)
  }

  /**
   * For a well-formed database, the corrected upload within the size limit
   * succeeds exactly when both head ids name existing heads and no non-blank
   * tag repeats. The stored row records the client's file name, takes the
   * defaults for absent fields, records the caller, and carries exactly the
   * non-blank tags.
   */
  lemma UploadDefaults(st: Storage, caller: Option<seq<Claim>>, req: UploadRequest, maxFileSize: int,
                       guid: string, now: Instant)
    requires Valid(st.db) && Admitted(st, caller, req) && req.file.value.length <= maxFileSize
    ensures var (st', reply) := UploadCorrected(st, caller, req, maxFileSize, guid, now);
      && (reply.Uploaded? <==>
            HasMajor(st.db, req.majorHeadId) && HasMinor(st.db, req.minorHeadId) && NoDuplicates(Kept(req.tags.GetOr([]))))
      && (reply.Uploaded? ==>
            var row := st'.db.documents[|st.db.documents|];
            && row.id == reply.id
            && row.fileOriginalName == req.file.value.fileName
            && row.fileName == req.file.value.fileName && row.size == req.file.value.length
            && row.remarks == Some(if req.remarks.Some? then req.remarks.value else "")
            && row.documentDate == Some(if req.documentDate.Some? then req.documentDate.value else now)
            && row.uploadedAt == now && row.uploadedBy == Some(CallerId(caller.value).value)
            && Valid(st'.db)
            && forall n :: Linked(st'.db, reply.id, n) <==> n in req.tags.GetOr([]) && NonBlank(n))
  {
    var file := req.file.value;
    var doc := UploadDocument(file, req, Some(file.fileName), CallerId(caller.value).value, now);
    InsertDocumentTags(st.db, doc, req.tags.GetOr([]));
  }

  /**
   * A file the corrected upload stored can be downloaded by any caller under
   * the name the reply gives (a GUID's text is never blank).
   */
  lemma UploadThenDownload(st: Storage, caller: Option<seq<Claim>>, req: UploadRequest, maxFileSize: int,
                           guid: string, now: Instant, reader: seq<Claim>)
    requires !IsBlank(DotNet, guid)
    requires UploadCorrected(st, caller, req, maxFileSize, guid, now).1.Uploaded?
    ensures var (st', reply) := UploadCorrected(st, caller, req, maxFileSize, guid, now);
      Download(st'.files, Some(reader), reply.fileName) == FileContent(reply.fileName, OctetStream, reply.fileName)
  {
    var (st', reply) := UploadCorrected(st, caller, req, maxFileSize, guid, now);
    assert Admitted(st, caller, req);
    var saved := reply.fileName;
    assert saved in st'.files && |guid| <= |saved| && saved[..|guid|] == guid;
    var k :| 0 <= k < |guid| && !IsWhiteSpace(DotNet, guid[k]);
    assert saved[k] == guid[k];
  }
}

=== FILE: file_helpers.dfy ===
/**
 * FileHelpers.IsValidFile: the upload extension whitelist, applied to the
 * extension Path.GetExtension finds, lower-cased.
 */
module FileHelpers {
  import opened Text

  /** The directory separator GetExtension stops at (a Unix host). */
  predicate IsSeparator(c: char) {
    c == '/'
  }

  /**
   * `k` is where the extension of `path` starts: a '.' that is not the last
   * character, with neither a '.' nor a separator after it.
   */
  predicate ExtensionAt(path: string, k: int) {
    && 0 <= k < |path| - 1
    && path[k] == '.'
    && forall j :: k < j < |path| ==> path[j] != '.' && !IsSeparator(path[j])
  }

  /** The scan of Path.GetExtension from position `i - 1` down to the start. */
  function ExtensionScan(path: string, i: nat): string
    requires i <= |path|
    decreases i
  {
    if i == 0 then ""
    else if path[i - 1] == '.' then (if i == |path| then "" else path[i - 1..])
    else if IsSeparator(path[i - 1]) then ""
    else ExtensionScan(path, i - 1)
  }

  /** Scanning down from `i` past a tail free of '.' and separators finds exactly the extension. */
  lemma {:induction false} ScanSpec(path: string, i: nat)
    requires i <= |path|
    requires forall j :: i <= j < |path| ==> path[j] != '.' && !IsSeparator(path[j])
    ensures ExtensionScan(path, i) == "" <==> forall k :: !ExtensionAt(path, k)
    ensures var r := ExtensionScan(path, i);
      r != "" ==> |r| <= |path| && ExtensionAt(path, |path| - |r|) && r == path[|path| - |r|..]
    decreases i
  {
    if i == 0 {
    } else if path[i - 1] == '.' {
      if i == |path| {
        forall k ensures !ExtensionAt(path, k) {
          if 0 <= k < |path| - 1 {
            assert path[|path| - 1] == '.';
          }
        }
      } else {
        assert ExtensionAt(path, i - 1);
      }
    } else if IsSeparator(path[i - 1]) {
      forall k ensures !ExtensionAt(path, k) {
        if 0 <= k < i - 1 {
          assert IsSeparator(path[i - 1]);
        }
      }
    } else {
      ScanSpec(path, i - 1);
    }
  }

  /**
   * Path.GetExtension: from the last '.' of the last path segment to the end,
   * or "" when the segment has no '.' or ends with one.
   */
  function GetExtension(path: string): (r: string)
    ensures r == "" <==> forall k :: !ExtensionAt(path, k)
    ensures r != "" ==> exists k :: ExtensionAt(path, k) && r == path[k..]
  {
    ScanSpec(path, |path|);
    var r := ExtensionScan(path, |path|);
    assert r != "" ==> ExtensionAt(path, |path| - |r|) && r == path[|path| - |r|..];
    r
  }

  /** At most one position can start the extension. */
  lemma ExtensionAtUnique(path: string, k: int, k': int)
    requires ExtensionAt(path, k) && ExtensionAt(path, k')
    ensures k == k'
  {
  }

  /** A well-formed extension is kept whatever comes before it. */
  lemma GetExtensionOfSuffix(stem: string, ext: string)
    requires |ext| >= 2 && ext[0] == '.'
    requires forall j :: 1 <= j < |ext| ==> ext[j] != '.' && !IsSeparator(ext[j])
    ensures GetExtension(stem + ext) == ext
  {
    var path := stem + ext;
    assert ExtensionAt(path, |stem|);
    var k :| ExtensionAt(path, k) && GetExtension(path) == path[k..];
    ExtensionAtUnique(path, k, |stem|);
    assert path[|stem|..] == ext;
  }

  const PermittedExtensions: seq<string> := [".jpg", ".jpeg", ".png", ".gif", ".pdf"]

  /** IsValidFile: the lower-cased extension is non-empty and one of the five permitted ones. */
  predicate IsValidFile(fileName: string) {
    var ext := Lower(GetExtension(fileName));
    ext != "" && ext in PermittedExtensions
  }

  /** Lower-casing leaves '.' and '/' where they are, so it commutes with GetExtension. */
  lemma GetExtensionLower(path: string)
    ensures GetExtension(Lower(path)) == Lower(GetExtension(path))
  {
    ScanLower(path, |path|);
  }

  lemma {:induction false} ScanLower(path: string, i: nat)
    requires i <= |path|
    requires forall j :: i <= j < |path| ==> path[j] != '.' && !IsSeparator(path[j])
    ensures forall j :: i <= j < |path| ==> Lower(path)[j] != '.' && !IsSeparator(Lower(path)[j])
    ensures ExtensionScan(Lower(path), i) == Lower(ExtensionScan(path, i))
    decreases i
  {
    var lp := Lower(path);
    forall j | i <= j < |path| ensures lp[j] != '.' && !IsSeparator(lp[j]) {
      LowerCharKeepsPunctuation(path[j]);
    }
    if i > 0 {
      LowerCharKeepsPunctuation(path[i - 1]);
      if path[i - 1] == '.' {
        LowerSuffix(path, i - 1);
      } else if !IsSeparator(path[i - 1]) {
        ScanLower(path, i - 1);
      }
    }
  }

  lemma LowerCharKeepsPunctuation(c: char)
    ensures (LowerChar(c) == '.' <==> c == '.') && (IsSeparator(LowerChar(c)) <==> IsSeparator(c))
  {
  }

  lemma LowerSuffix(s: string, k: nat)
    requires k <= |s|
    ensures Lower(s[k..]) == Lower(s)[k..]
  {
  }

  /**
   * The whitelist in terms of the name: accepted exactly when the name has an
   * extension whose lower-cased form is permitted.
   */
  lemma IsValidFileIff(fileName: string)
    ensures IsValidFile(fileName) <==>
      exists k :: ExtensionAt(fileName, k) && Lower(fileName[k..]) in PermittedExtensions
  {
    if IsValidFile(fileName) {
      var k :| ExtensionAt(fileName, k) && GetExtension(fileName) == fileName[k..];
    }
    if k :| ExtensionAt(fileName, k) && Lower(fileName[k..]) in PermittedExtensions {
      var k' :| ExtensionAt(fileName, k') && GetExtension(fileName) == fileName[k'..];
      ExtensionAtUnique(fileName, k, k');
    }
  }

  /** Acceptance ignores case. */
  lemma IsValidFileIgnoresCase(fileName: string)
    ensures IsValidFile(Lower(fileName)) == IsValidFile(fileName)
  {
    GetExtensionLower(fileName);
    LowerIdempotent(GetExtension(fileName));
  }

  /** Every permitted extension starts with ".j", ".p" or ".g". */
  lemma PermittedInitials(ext: string)
    requires |ext| >= 2 && ext[1] !in "jpg"
    ensures ext !in PermittedExtensions
  {
  }

  /** Only the final extension counts: "report.pdf.exe" is refused, "scan.exe.PDF" is accepted. */
  lemma OnlyFinalExtensionCounts()
    ensures !IsValidFile("report.pdf.exe")
    ensures IsValidFile("scan.exe.PDF")
  {
    ExeRefused();
    UpperPdfAccepted();
  }

  lemma ExeRefused()
    ensures !IsValidFile("report.pdf.exe")
  {
    GetExtensionOfSuffix("report.pdf", ".exe");
    assert "report.pdf" + ".exe" == "report.pdf.exe";
    assert Lower(".exe") == ".exe";
    PermittedInitials(".exe");
  }

  lemma UpperPdfAccepted()
    ensures IsValidFile("scan.exe.PDF")
  {
    GetExtensionOfSuffix("scan.exe", ".PDF");
    assert "scan.exe" + ".PDF" == "scan.exe.PDF";
    assert Lower(".PDF") == ".pdf";
  }

  /** A name without an extension, or ending in '.', is refused. */
  lemma NoExtensionRefused(fileName: string)
    requires '.' !in fileName || fileName[|fileName| - 1] == '.'
    ensures !IsValidFile(fileName)
  {
    assert GetExtension(fileName) == "";
  }
}

=== FILE: file_service.dfy ===
/**
 * FileService over an abstract upload directory: the directory is the set of
 * stored file names, the GUID is a parameter, and the configured size limit
 * arrives already parsed.
 */
module FileService {
  import opened Wrappers
  import opened Text
  import opened FileHelpers

  /** The parts of an IFormFile the service and the upload endpoint read. */
  datatype FormFile = FormFile(fileName: string, contentType: string, length: nat)

  const BytesPerMegabyte: int := 1024 * 1024

  /** The byte limit: the configured megabytes (10 when the setting is absent) times 1024 * 1024. */
  function MaxFileSize(configuredMb: Option<int>): int {
    configuredMb.GetOr(10) * BytesPerMegabyte
  }

  /** The exception SaveFileAsync throws for an oversized file. */
  const TooLarge: string := "File size exceeds the maximum allowed limit."

  /**
   * SaveFileAsync: refuses a file longer than the limit (a file of exactly the
   * limit passes); otherwise stores it as the GUID followed by the client
   * name's extension and returns that name.
   */
  function SaveFile(files: set<string>, maxFileSize: int, file: FormFile, guid: string)
    : (r: Result<(set<string>, string), string>)
    ensures r.Failure? <==> file.length > maxFileSize
    ensures r.Failure? ==> r.error == TooLarge
    ensures r.Success? ==>
      var (files', name) := r.value;
      && files' == files + {name}
      && |guid| <= |name| && name[..|guid|] == guid
      && (name[|guid|..] == "" || exists k :: ExtensionAt(file.fileName, k) && name[|guid|..] == file.fileName[k..])
  {
    if file.length > maxFileSize then Failure(TooLarge)
    else
      var name := guid + GetExtension(file.fileName);
      assert name[..|guid|] == guid && name[|guid|..] == GetExtension(file.fileName);
      Success((files + {name}, name))
  }

  /**
   * Only the extension of the client's name reaches the stored name: two
   * names that share an extension are stored under the same name for the
   * same GUID.
   */
  lemma StoredNameKeepsOnlyExtension(files: set<string>, maxFileSize: int, guid: string,
                                     stem1: string, stem2: string, ext: string, contentType: string, length: nat)
    requires |ext| >= 2 && ext[0] == '.'
    requires forall j :: 1 <= j < |ext| ==> ext[j] != '.' && !IsSeparator(ext[j])
    requires length <= maxFileSize
    ensures SaveFile(files, maxFileSize, FormFile(stem1 + ext, contentType, length), guid).value.1
         == SaveFile(files, maxFileSize, FormFile(stem2 + ext, contentType, length), guid).value.1
         == guid + ext
  {
    GetExtensionOfSuffix(stem1, ext);
    GetExtensionOfSuffix(stem2, ext);
  }

  /** With no configured limit, exactly the files longer than 10 MiB are refused. */
  lemma DefaultLimit(files: set<string>, file: FormFile, guid: string)
    ensures SaveFile(files, MaxFileSize(None), file, guid).Failure? <==> file.length > 10485760
  {
  }

  /** DeleteFileAsync: removes the file and reports true exactly when it existed. */
  function DeleteFile(files: set<string>, fileName: string): (r: (set<string>, bool))
    ensures r.1 <==> fileName in files
    ensures fileName !in r.0 && r.0 + (if r.1 then {fileName} else {}) == files
  {
    if fileName in files then (files - {fileName}, true) else (files, false)
  }

  /** Deleting a file just saved under a fresh name reports true and restores the directory. */
  lemma SaveThenDelete(files: set<string>, maxFileSize: int, file: FormFile, guid: string)
    requires SaveFile(files, maxFileSize, file, guid).Success?
    requires SaveFile(files, maxFileSize, file, guid).value.1 !in files
    ensures var (files', name) := SaveFile(files, maxFileSize, file, guid).value;
      DeleteFile(files', name) == (files, true)
  {
  }

  const UploadsPrefix: string := "/uploads/"

  /** GetFileUrl: the public URL of a stored file. */
  function GetFileUrl(fileName: string): (r: string)
    ensures |r| == |UploadsPrefix| + |fileName|
    ensures r[..|UploadsPrefix|] == UploadsPrefix && r[|UploadsPrefix|..] == fileName
  {
    UploadsPrefix + fileName
  }

  /** Distinct stored names get distinct URLs. */
  lemma FileUrlInjective(a: string, b: string)
    requires GetFileUrl(a) == GetFileUrl(b)
    ensures a == b
  {
    assert a == GetFileUrl(a)[|UploadsPrefix|..];
  }
}

=== FILE: heads_controller.dfy ===
/**
 * HeadsController: listing minor heads by major (open to anyone) and
 * creating or deleting a minor head behind the AdminOnly policy.
 */
module HeadsController {
  import opened Wrappers
  import opened Text
  import opened Tables
  import opened JwtTokenHelper

  datatype Reply =
    | Created(id: nat, name: string, majorHeadId: int)
    | BadRequest(message: string)
    | NotFound
    | NoContent
    | Challenged
    | Forbidden
    | ServerError

  function StatusCode(r: Reply): nat {
    match r
    case Created(_, _, _) => 200
    case BadRequest(_) => 400
    case NotFound => 404
    case NoContent => 204
    case Challenged => 401
    case Forbidden => 403
    case ServerError => 500
  }

  /** GET api/heads/minor/{majorHeadId}: exactly the minor heads under that major. */
  function GetByMajor(db: Db, majorHeadId: int): (r: seq<MinorHead>)
    ensures forall m :: m in r <==> m in db.minors && m.majorHeadId == majorHeadId
  {
    MinorHeadsByMajor(db, majorHeadId)
  }

  /**
   * POST api/heads/minor: a blank name is refused; otherwise the trimmed name
   * is inserted and the reply echoes the name as sent. An unknown major id
   * breaks the foreign key, and the exception becomes a 500.
   */
  function Create(db: Db, caller: Option<seq<Claim>>, majorHeadId: int, name: Option<string>): (r: (Db, Reply))
    ensures StatusCode(r.1) == 401 <==> caller.None?
    ensures StatusCode(r.1) == 403 <==> caller.Some? && !AdminOnly(caller.value)
    ensures StatusCode(r.1) == 400 <==>
      AuthorizeAdmin(caller) == Allow && (name.None? || IsBlank(DotNet, name.value))
    ensures StatusCode(r.1) == 500 <==>
      AuthorizeAdmin(caller) == Allow && name.Some? && !IsBlank(DotNet, name.value) && !HasMajor(db, majorHeadId)
    ensures r.1.Created? ==> HasMajor(db, majorHeadId)
    ensures !r.1.Created? ==> r.0 == db
    ensures r.1.Created? ==>
      && name.Some? && r.1.name == name.value && r.1.majorHeadId == majorHeadId
      && (forall i :: 0 <= i < |db.minors| ==> db.minors[i].id != r.1.id)
      && r.0 == db.(minors := db.minors + [MinorHead(r.1.id, majorHeadId, Trim(DotNet, name.value))])
  {
    match AuthorizeAdmin(caller)
    case Challenge => (db, Challenged)
    case Forbid => (db, Forbidden)
    case Allow =>
      if name.None? || IsBlank(DotNet, name.value) then (db, BadRequest("Name required"))
      else
        match InsertMinorHead(db, majorHeadId, Trim(DotNet, name.value))
        case Failure(_) => (db, ServerError)
        case Success((db1, id)) => (db1, Created(id, name.value, majorHeadId))
  }

  /**
   * DELETE api/heads/minor/{id}: 404 when no row had that id; 500 when the
   * delete throws because a document still files under the head; else 204.
   */
  function Delete(db: Db, caller: Option<seq<Claim>>, id: int): (r: (Db, Reply))
    ensures StatusCode(r.1) == 401 <==> caller.None?
    ensures StatusCode(r.1) == 403 <==> caller.Some? && !AdminOnly(caller.value)
    ensures AuthorizeAdmin(caller) == Allow ==>
      (r.1 == NotFound <==> forall i :: 0 <= i < |db.minors| ==> db.minors[i].id != id)
    ensures AuthorizeAdmin(caller) == Allow ==>
      (r.1 == ServerError <==> HasMinor(db, id) && MinorInUse(db, id))
    ensures r.1 != NoContent ==> r.0 == db
    ensures r.1 == NoContent ==> forall m :: m in r.0.minors <==> m in db.minors && m.id != id
  {
    match AuthorizeAdmin(caller)
    case Challenge => (db, Challenged)
    case Forbid => (db, Forbidden)
    case Allow =>
      match DeleteMinorHead(db, id)
      case Failure(_) => (db, ServerError)
      case Success((db1, removed)) => if !removed then (db, NotFound) else (db1, NoContent)
  }

  /**
   * A created head is listed under its major with the trimmed name, and
   * deleting it answers 204 and restores the table.
   */
  lemma CreateListDelete(db: Db, caller: Option<seq<Claim>>, majorHeadId: int, name: Option<string>)
    requires Create(db, caller, majorHeadId, name).1.Created?
    requires MinorRefsHold(db)
    ensures var (db1, reply) := Create(db, caller, majorHeadId, name);
      && MinorHead(reply.id, majorHeadId, Trim(DotNet, name.value)) in GetByMajor(db1, majorHeadId)
      && Delete(db1, caller, reply.id) == (db, NoContent)
  {
    var (db1, reply) := Create(db, caller, majorHeadId, name);
    assert db1.minors[|db.minors|] == MinorHead(reply.id, majorHeadId, Trim(DotNet, name.value));
    InsertThenDeleteMinorHead(db, majorHeadId, Trim(DotNet, name.value));
  }

  /** A head some document is filed under cannot be deleted: the admin gets 500 and the tables stay. */
  lemma InUseHeadNotDeleted(db: Db, caller: seq<Claim>, k: nat)
    requires AdminOnly(caller)
    requires k < |db.documents| && HasMinor(db, db.documents[k].minorHeadId)
    ensures Delete(db, Some(caller), db.documents[k].minorHeadId) == (db, ServerError)
  {
  }

  /** The stored name is never blank, and is already trimmed. */
  lemma CreatedNameTrimmed(db: Db, caller: Option<seq<Claim>>, majorHeadId: int, name: Option<string>)
    requires Create(db, caller, majorHeadId, name).1.Created?
    ensures var stored := Create(db, caller, majorHeadId, name).0.minors[|db.minors|].name;
      !IsBlank(DotNet, stored) && Trim(DotNet, stored) == stored
  {
    TrimIdempotent(DotNet, name.value);
  }
}

=== FILE: http.dfy ===
/**
 * The axios wrapper of the frontend: query-string building, the bearer
 * header the request interceptor adds, and the message the response
 * interceptor rejects with. Percent-encoding (URLSearchParams) is a
 * parameter; the proofs state as requirements only the facts they need about it.
 */
module Http {
  import opened Wrappers
  import opened Text
  import opened Seqs

  // ---------- buildQuery ----------

  /** A value of the record passed to buildQuery. */
  datatype QueryValue = Undefined | Null | Str(s: string) | Num(n: int)

  /** The values buildQuery keeps: everything but undefined, null and ''. */
  predicate Sent(v: QueryValue) {
    (v.Str? && v.s != "") || v.Num?
  }

  /** String(v) for a kept value. */
  function Stringify(v: QueryValue): string
    requires v.Str? || v.Num?
  {
    if v.Str? then v.s else IntToString(v.n)
  }

  /** The appended (key, String(value)) pairs, in the record's order. */
  function KeptPairs(params: seq<(string, QueryValue)>): (r: seq<(string, string)>)
    ensures |r| <= |params|
    ensures forall i :: 0 <= i < |r| ==>
      exists j :: 0 <= j < |params| && params[j].0 == r[i].0 && Sent(params[j].1) && Stringify(params[j].1) == r[i].1
    ensures forall j :: 0 <= j < |params| && Sent(params[j].1) ==> (params[j].0, Stringify(params[j].1)) in r
  {
    var kept := Filter(params, (p: (string, QueryValue)) => Sent(p.1));
    assert forall i :: 0 <= i < |kept| ==> Sent(kept[i].1) by {
      forall i | 0 <= i < |kept| ensures Sent(kept[i].1) {
        assert kept[i] in kept;
      }
    }
    var r := seq(|kept|, i requires 0 <= i < |kept| => (kept[i].0, Stringify(kept[i].1)));
    forall i | 0 <= i < |r|
      ensures exists j :: 0 <= j < |params| && params[j].0 == r[i].0 && Sent(params[j].1) && Stringify(params[j].1) == r[i].1
    {
      assert kept[i] in kept;
    }
    forall j | 0 <= j < |params| && Sent(params[j].1) ensures (params[j].0, Stringify(params[j].1)) in r {
      assert params[j] in kept;
      var i :| 0 <= i < |kept| && kept[i] == params[j];
      assert r[i] == (params[j].0, Stringify(params[j].1));
    }
    r
  }

  /** The kept pairs come out in the order their keys had in the record. */
  lemma KeptPairsOrder(params: seq<(string, QueryValue)>, i: nat, i': nat)
    requires i < i' < |KeptPairs(params)|
    ensures exists a, b :: 0 <= a < b < |params| && params[a].0 == KeptPairs(params)[i].0 && params[b].0 == KeptPairs(params)[i'].0
  {
    var f := (p: (string, QueryValue)) => Sent(p.1);
    FilterOrder(params, f, i, i');
  }

  /** One serialized pair: the encoded key, '=', the encoded value. */
  function Serialize(p: (string, string), encode: string -> string): string {
    encode(p.0) + "=" + encode(p.1)
  }

  /** URLSearchParams.toString(): the serialized pairs joined with '&'. */
  function QueryString(pairs: seq<(string, string)>, encode: string -> string): string {
    Join(seq(|pairs|, i requires 0 <= i < |pairs| => Serialize(pairs[i], encode)), '&')
  }

  /** buildQuery: '' when nothing is kept, otherwise '?' and the encoded pairs. */
  function BuildQuery(params: seq<(string, QueryValue)>, encode: string -> string): (r: string)
    ensures r == "" <==> |KeptPairs(params)| == 0
    ensures r != "" ==> r[0] == '?' && r[1..] == QueryString(KeptPairs(params), encode)
  {
    var pairs := KeptPairs(params);
    var qs := QueryString(pairs, encode);
    QueryStringEmpty(pairs, encode);
    if qs == "" then "" else "?" + qs
  }

  /** Every serialized pair holds a '=', so the query string is empty exactly when there are no pairs. */
  lemma QueryStringEmpty(pairs: seq<(string, string)>, encode: string -> string)
    ensures QueryString(pairs, encode) == "" <==> |pairs| == 0
  {
    if |pairs| > 0 {
      var parts := seq(|pairs|, i requires 0 <= i < |pairs| => Serialize(pairs[i], encode));
      JoinStartsWith(parts, '&');
      assert parts[0][|encode(pairs[0].0)|] == '=';
    }
  }

  lemma {:induction false} JoinStartsWith(parts: seq<string>, sep: char)
    requires |parts| >= 1
    ensures |parts[0]| <= |Join(parts, sep)| && Join(parts, sep)[..|parts[0]|] == parts[0]
    decreases |parts|
  {
    if |parts| > 1 {
      assert Join(parts, sep) == parts[0] + [sep] + Join(parts[1..], sep);
    }
  }

  /** A zero is a value like any other and is sent as "0". */
  lemma ZeroIsSent(key: string, encode: string -> string)
    ensures KeptPairs([(key, Num(0))]) == [(key, "0")]
    ensures BuildQuery([(key, Num(0))], encode) == "?" + encode(key) + "=" + encode("0")
  {
    var kp := KeptPairs([(key, Num(0))]);
    assert (key, Stringify(Num(0))) in kp;
    assert Stringify(Num(0)) == "0";
    assert kp == [(key, "0")];
  }

  /**
   * Reading a query string back the way application/x-www-form-urlencoded
   * parsing does: drop the '?', split on '&', cut each piece at its first
   * '=', and decode both sides.
   */
  function ParseQuery(q: string, decode: string -> string): seq<(string, string)> {
    if |q| == 0 then []
    else
      var pieces := Split(q[1..], '&');
      seq(|pieces|, i requires 0 <= i < |pieces| => ParsePair(pieces[i], decode))
  }

  function ParsePair(piece: string, decode: string -> string): (string, string) {
    if '=' in piece then
      var k := FirstIndex(piece, '=');
      (decode(piece[..k]), decode(piece[k + 1..]))
    else (decode(piece), "")
  }

  /** The encoder escapes the separators and the decoder undoes it. */
  ghost predicate CodecPair(encode: string -> string, decode: string -> string) {
    forall s :: '&' !in encode(s) && '=' !in encode(s) && decode(encode(s)) == s
  }

  /** Parsing what buildQuery produced gives back exactly the kept pairs, in order. */
  lemma BuildQueryRoundTrip(params: seq<(string, QueryValue)>, encode: string -> string, decode: string -> string)
    requires CodecPair(encode, decode)
    ensures ParseQuery(BuildQuery(params, encode), decode) == KeptPairs(params)
  {
    var pairs := KeptPairs(params);
    if |pairs| > 0 {
      var parts := seq(|pairs|, i requires 0 <= i < |pairs| => Serialize(pairs[i], encode));
      var q := BuildQuery(params, encode);
      assert q[1..] == Join(parts, '&');
      forall i | 0 <= i < |parts| ensures '&' !in parts[i] {
        assert parts[i] == encode(pairs[i].0) + "=" + encode(pairs[i].1);
        assert '&' !in encode(pairs[i].0) && '&' !in encode(pairs[i].1);
      }
      SplitJoin(parts, '&');
      var got := ParseQuery(q, decode);
      forall i | 0 <= i < |pairs| ensures got[i] == pairs[i] {
        ParseSerialized(pairs[i], encode, decode);
      }
    }
  }

  lemma ParseSerialized(p: (string, string), encode: string -> string, decode: string -> string)
    requires CodecPair(encode, decode)
    ensures ParsePair(Serialize(p, encode), decode) == p
  {
    var piece := Serialize(p, encode);
    var ek := encode(p.0);
    assert '=' !in ek && '=' !in encode(p.1);
    assert piece[|ek|] == '=' && piece[..|ek|] == ek && piece[|ek| + 1..] == encode(p.1);
    assert FirstIndex(piece, '=') == |ek|;
  }

  // ---------- request interceptor ----------

  const Authorization: string := "Authorization"
  const BearerPrefix: string := "Bearer "

  /** The headers after the interceptor: a bearer header exactly when a non-empty token is set. */
  function WithAuth(headers: map<string, string>, token: Option<string>): (r: map<string, string>)
    ensures token.Some? && token.value != "" ==>
      Authorization in r && r[Authorization] == BearerPrefix + token.value
    ensures !(token.Some? && token.value != "") ==> r == headers
    ensures forall h :: h != Authorization ==> (h in r <==> h in headers) && (h in r ==> r[h] == headers[h])
  {
    if token.Some? && token.value != "" then headers[Authorization := BearerPrefix + token.value] else headers
  }

  /** The header carries the token verbatim after the fixed prefix. */
  lemma BearerCarriesToken(headers: map<string, string>, token: string)
    requires token != ""
    ensures var v := WithAuth(headers, Some(token))[Authorization];
      |v| == |BearerPrefix| + |token| && v[..|BearerPrefix|] == BearerPrefix && v[|BearerPrefix|..] == token
  {
  }

  // ---------- response interceptor ----------

  /** A property of the error body: missing, a string, or some other value. */
  datatype Field = Missing | Text(s: string) | NotText

  /** The response body: an object with `message` and `error` properties, or anything else. */
  datatype Body = Object(message: Field, error: Field) | NotObject

  /** How a request failed. */
  datatype Failure =
    | Responded(data: Body, statusText: string)
    | NoResponse
    | NotSent(message: string)

  const RequestFailed: string := "Request failed"
  const NetworkError: string := "Network error or no response from server"

  /**
   * The message the rejection carries. With a response: a string `message`
   * (even an empty one, which then falls through), else a string `error`,
   * and when that is empty or absent the status text, else "Request failed".
   * A request that got no response gives the network message; one that was
   * never sent is rejected with its own error.
   */
  function RejectionMessage(f: Failure): (r: string)
    ensures f.Responded? || f.NoResponse? ==> r != ""
    ensures f.NoResponse? ==> r == NetworkError
    ensures f.NotSent? ==> r == f.message
    ensures f.Responded? && f.data.Object? && f.data.message.Text? && f.data.message.s != "" ==> r == f.data.message.s
    ensures f.Responded? && f.data.Object? && !f.data.message.Text? && f.data.error.Text? && f.data.error.s != "" ==>
      r == f.data.error.s
    ensures (&& f.Responded?
             && !(f.data.Object? && f.data.message.Text? && f.data.message.s != "")
             && !(f.data.Object? && !f.data.message.Text? && f.data.error.Text? && f.data.error.s != "")) ==>
      r == (if f.statusText != "" then f.statusText else RequestFailed)
    ensures f.Responded? && f.data.Object? && f.data.message.Text? && f.data.message.s == "" ==>
      r == (if f.statusText != "" then f.statusText else RequestFailed)
    ensures f.Responded? && r != f.statusText && r != RequestFailed ==>
      f.data.Object? && ((f.data.message.Text? && r == f.data.message.s) || (f.data.error.Text? && r == f.data.error.s))
  {
    match f
    case Responded(data, statusText) =>
      var message :=
        if data.Object? && data.message.Text? then data.message.s
        else if data.Object? && data.error.Text? then data.error.s
        else "";
      if message != "" then message
      else if statusText != "" then statusText
      else RequestFailed
    case NoResponse => NetworkError
    case NotSent(message) => message
  }

  /**
   * An empty string `message` shadows `error`: the rejection then falls back
   * to the status text even when `error` has text.
   */
  lemma EmptyMessageShadowsError(e: string, statusText: string)
    requires statusText != ""
    ensures RejectionMessage(Responded(Object(Text(""), Text(e)), statusText)) == statusText
  {
  }

  /** A body that is not an object (a plain-text error) is never shown. */
  lemma PlainBodyNotShown(statusText: string)
    ensures RejectionMessage(Responded(NotObject, statusText)) == (if statusText != "" then statusText else RequestFailed)
  {
  }
}

=== FILE: jwt_token_helper.dfy ===
/**
 * JwtTokenHelper: the claim list a session token carries, the token's
 * three-segment compact shape (signing and base64url encoding left opaque),
 * and the AdminOnly authorization policy that reads the `isAdmin` claim.
 */
module JwtTokenHelper {
  import opened Wrappers
  import opened Text
  import opened Tables

  datatype Claim = Claim(kind: string, value: string)

  /** ClaimTypes.NameIdentifier, the type the bearer handler maps an inbound "sub" claim to. */
  const NameIdentifier: string := "http://schemas.xmlsoap.org/ws/2005/05/identity/claims/nameidentifier"

  /**
   * The opaque parts of JwtSecurityTokenHandler.WriteToken: the encoded header,
   * the encoded payload for a claim list (issuer, audience and expiry included),
   * and the HMAC-SHA256 signature of the signing input.
   */
  datatype Jose = Jose(header: string, payload: seq<Claim> -> string, signature: string -> string)

  /** The claims GenerateToken puts in a token, in order; null text claims become "". */
  function UserClaims(id: nat, mobile: Option<string>, username: Option<string>, isAdmin: bool): seq<Claim>
  {
    [ Claim("sub", NatToString(id)),
      Claim("mobile", mobile.GetOr("")),
      Claim("username", username.GetOr("")),
      Claim("isAdmin", if isAdmin then "true" else "false") ]
  }

  function ClaimsFor(u: User): seq<Claim> {
    UserClaims(u.id, Some(u.mobile), Some(u.username), u.isAdmin)
  }

  /** ClaimsPrincipal.FindFirst(type)?.Value: the first claim whose type matches ignoring case. */
  function FindFirst(claims: seq<Claim>, kind: string): (r: Option<string>)
    ensures r.Some? ==> exists i :: 0 <= i < |claims| && EqualsIgnoreCase(claims[i].kind, kind) && claims[i].value == r.value
    ensures r.None? ==> forall i :: 0 <= i < |claims| ==> !EqualsIgnoreCase(claims[i].kind, kind)
  {
    if |claims| == 0 then None
    else if EqualsIgnoreCase(claims[0].kind, kind) then Some(claims[0].value)
    else
      var r := FindFirst(claims[1..], kind);
      assert forall i :: 1 <= i < |claims| ==> claims[1..][i - 1] == claims[i];
      r
  }

  /**
   * The claim list read back by type: subject = the decimal id, mobile and
   * username (or "" when null), isAdmin = "true" exactly for admins.
   */
  lemma UserClaimsRead(id: nat, mobile: Option<string>, username: Option<string>, isAdmin: bool)
    ensures var c := UserClaims(id, mobile, username, isAdmin);
      && |c| == 4
      && FindFirst(c, "sub") == Some(NatToString(id))
      && FindFirst(c, "mobile") == Some(mobile.GetOr(""))
      && FindFirst(c, "username") == Some(username.GetOr(""))
      && (FindFirst(c, "isAdmin") == Some("true") <==> isAdmin)
      && (FindFirst(c, "isAdmin") == Some("false") <==> !isAdmin)
  {
    var c := UserClaims(id, mobile, username, isAdmin);
    ClaimAt(c, 0, "sub");
    ClaimAt(c, 1, "mobile");
    ClaimAt(c, 2, "username");
    ClaimAt(c, 3, "isAdmin");
  }

  /** In the four-claim list, each claim type is found at its own position. */
  lemma ClaimAt(c: seq<Claim>, k: nat, kind: string)
    requires |c| == 4 && k < 4 && c[k].kind == kind
    requires c[0].kind == "sub" && c[1].kind == "mobile" && c[2].kind == "username" && c[3].kind == "isAdmin"
    ensures FindFirst(c, kind) == Some(c[k].value)
  {
    LengthsDiffer("sub", "mobile");
    LengthsDiffer("sub", "username");
    LengthsDiffer("sub", "isAdmin");
    LengthsDiffer("mobile", "username");
    LengthsDiffer("mobile", "isAdmin");
    LengthsDiffer("username", "isAdmin");
    FindFirstSkips(c, kind, k);
  }

  /** FindFirst passes over claims that do not match and returns the first that does. */
  lemma {:induction false} FindFirstSkips(c: seq<Claim>, kind: string, k: nat)
    requires k < |c| && EqualsIgnoreCase(c[k].kind, kind)
    requires forall i :: 0 <= i < k ==> !EqualsIgnoreCase(c[i].kind, kind)
    ensures FindFirst(c, kind) == Some(c[k].value)
    decreases k
  {
    if k > 0 {
      assert !EqualsIgnoreCase(c[0].kind, kind);
      assert forall i :: 0 <= i < k - 1 ==> c[1..][i] == c[i + 1];
      FindFirstSkips(c[1..], kind, k - 1);
    }
  }

  /** Claim types of different lengths never match, whatever their case. */
  lemma LengthsDiffer(a: string, b: string)
    requires |a| != |b|
    ensures !EqualsIgnoreCase(a, b) && !EqualsIgnoreCase(b, a)
  {
  }

  /**
   * GenerateToken: header, payload and signature joined by '.', where the
   * signature covers "header.payload".
   */
  function GenerateToken(u: User, jose: Jose): (token: string)
    ensures token != ""
  {
    var payload := jose.payload(ClaimsFor(u));
    var signature := jose.signature(jose.header + "." + payload);
    Join([jose.header, payload, signature], '.')
  }

  /** When the encoder's segments are free of '.', the token splits back into exactly those three segments. */
  lemma TokenSegments(u: User, jose: Jose)
    requires '.' !in jose.header
    requires '.' !in jose.payload(ClaimsFor(u))
    requires '.' !in jose.signature(jose.header + "." + jose.payload(ClaimsFor(u)))
    ensures var payload := jose.payload(ClaimsFor(u));
      Split(GenerateToken(u, jose), '.') == [jose.header, payload, jose.signature(jose.header + "." + payload)]
  {
    var payload := jose.payload(ClaimsFor(u));
    SplitJoin([jose.header, payload, jose.signature(jose.header + "." + payload)], '.');
  }

  // ---------- the AdminOnly policy ----------

  /** RequireClaim("isAdmin", "true"): some claim of that type (ignoring case) has exactly the value "true". */
  predicate AdminOnly(claims: seq<Claim>) {
    exists i :: 0 <= i < |claims| && EqualsIgnoreCase(claims[i].kind, "isAdmin") && claims[i].value == "true"
  }

  /** A token minted for a user satisfies the AdminOnly policy exactly when the user is an admin. */
  lemma AdminOnlyIffAdmin(u: User)
    ensures AdminOnly(ClaimsFor(u)) <==> u.isAdmin
  {
    var c := ClaimsFor(u);
    assert !EqualsIgnoreCase("sub", "isAdmin") && !EqualsIgnoreCase("mobile", "isAdmin");
    assert !EqualsIgnoreCase("username", "isAdmin") && EqualsIgnoreCase("isAdmin", "isAdmin");
    if u.isAdmin {
      assert c[3].value == "true";
    }
  }

  /** The verdict of an [Authorize] attribute. */
  datatype Access = Challenge | Forbid | Allow

  /** [Authorize(Policy = "AdminOnly")]: 401 without a principal, 403 without the claim. */
  function AuthorizeAdmin(caller: Option<seq<Claim>>): (a: Access)
    ensures a == Allow <==> caller.Some? && AdminOnly(caller.value)
    ensures a == Challenge <==> caller.None?
  {
    match caller
    case None => Challenge
    case Some(c) => if AdminOnly(c) then Allow else Forbid
  }

  /** [Authorize]: any authenticated principal. */
  function AuthorizeAny(caller: Option<seq<Claim>>): (a: Access)
    ensures a == Allow <==> caller.Some?
    ensures a != Forbid
  {
    if caller.Some? then Allow else Challenge
  }

  /**
   * The bearer handler's inbound claim-type mapping as it affects these claims:
   * "sub" becomes NameIdentifier, the others keep their type.
   */
  function MapInbound(claims: seq<Claim>): (r: seq<Claim>)
    ensures |r| == |claims|
  {
    seq(|claims|, i requires 0 <= i < |claims| =>
      if claims[i].kind == "sub" then Claim(NameIdentifier, claims[i].value) else claims[i])
  }
}

=== FILE: login_page.dfy ===
/**
 * The login page's step machine: mobile, then the one-time code, then (for
 * a reply of 206) the profile details. Requests are outputs of the
 * transitions and replies are inputs; the redirect after a login and the
 * department list are not modelled.
 */
module LoginPage {
  import opened Wrappers
  import opened Text
  import opened Tables
  import opened JwtTokenHelper
  import AuthService
  import AuthController
  import AuthStore

  datatype Step = MobileStep | OtpStep | DetailsStep

  /** The page's state; an unselected department ('') is None. */
  datatype Page = Page(
    step: Step,
    mobile: string,
    otp: string,
    username: string,
    password: string,
    department: Option<int>,
    serverOtp: Option<string>,
    loading: bool,
    error: string)

  const Initial: Page := Page(MobileStep, "", "", "", "", None, None, false, "")

  const MobileRequired: string := "Mobile required"
  const CodeRequired: string := "Mobile and OTP required"
  const InvalidOtp: string := "Invalid OTP"
  const ValidationError: string := "Validation error (check password length / username)"
  const Unexpected: string := "Unexpected response"

  // ---------- requesting a code ----------

  /** handleRequestOtp: a blank mobile is refused; otherwise the trimmed mobile is posted. */
  function RequestOtp(p: Page): (r: (Page, Option<string>))
    ensures r.1.None? <==> IsBlank(JavaScript, p.mobile)
    ensures r.1.None? ==> r.0 == p.(error := MobileRequired)
    ensures r.1.Some? ==> r.0 == p.(error := "", loading := true) && r.1.value == Trim(JavaScript, p.mobile)
  {
    if Trim(JavaScript, p.mobile) == "" then (p.(error := MobileRequired), None)
    else (p.(error := "", loading := true), Some(Trim(JavaScript, p.mobile)))
  }

  /**
   * The request-otp reply: success moves to the code step and remembers a
   * returned non-empty code; a failure shows its message and stays.
   */
  function OtpRequested(p: Page, outcome: Result<Option<string>, string>): (r: Page)
    ensures !r.loading
    ensures outcome.Success? ==> r.step == OtpStep && r.error == p.error
    ensures outcome.Success? ==>
      r.serverOtp == (if outcome.value.Some? && outcome.value.value != "" then outcome.value else p.serverOtp)
    ensures outcome.Failure? ==> r == p.(error := outcome.error, loading := false)
  {
    match outcome
    case Success(code) =>
      p.(step := OtpStep, serverOtp := if code.Some? && code.value != "" then code else p.serverOtp, loading := false)
    case Failure(e) => p.(error := e, loading := false)
  }

  // ---------- validating the code ----------

  /** The body posted to auth/validate-otp; an undefined property is None. */
  datatype ValidateRequest = ValidateRequest(
    mobile: string,
    otp: string,
    username: Option<string>,
    password: Option<string>,
    department: Option<int>)

  /**
   * handleValidateOtp: a blank mobile or code is refused; otherwise both are
   * sent trimmed, and the profile fields only from the details step (a
   * blank username or an empty password is left out).
   */
  function Validate(p: Page): (r: (Page, Option<ValidateRequest>))
    ensures r.1.None? <==> IsBlank(JavaScript, p.mobile) || IsBlank(JavaScript, p.otp)
    ensures r.1.None? ==> r.0 == p.(error := CodeRequired)
    ensures r.1.Some? ==>
      && r.0 == p.(error := "", loading := true)
      && r.1.value.mobile == Trim(JavaScript, p.mobile) && r.1.value.otp == Trim(JavaScript, p.otp)
    ensures r.1.Some? && p.step != DetailsStep ==>
      r.1.value.username.None? && r.1.value.password.None? && r.1.value.department.None?
    ensures r.1.Some? && p.step == DetailsStep ==>
      && (r.1.value.username.Some? <==> !IsBlank(JavaScript, p.username))
      && (r.1.value.username.Some? ==> r.1.value.username.value == Trim(JavaScript, p.username))
      && (r.1.value.password.Some? <==> p.password != "")
      && (r.1.value.password.Some? ==> r.1.value.password.value == p.password)
      && r.1.value.department == p.department
  {
    if Trim(JavaScript, p.mobile) == "" || Trim(JavaScript, p.otp) == "" then (p.(error := CodeRequired), None)
    else
      var details := p.step == DetailsStep;
      var username := Trim(JavaScript, p.username);
      (p.(error := "", loading := true),
       Some(ValidateRequest(
         Trim(JavaScript, p.mobile),
         Trim(JavaScript, p.otp),
         if details && username != "" then Some(username) else None,
         if details && p.password != "" then Some(p.password) else None,
         if details then p.department else None)))
  }

  /** The session fields of a 200 reply. */
  datatype Session = Session(id: int, username: string, mobile: string, isAdmin: bool, token: string)

  /** What validateOtpRaw resolves to: the status, with the body only for 200. */
  datatype Outcome = Replied(status: int, data: Option<Session>) | Failed(message: string)

  /**
   * The validate-otp reply: 401 and 400 set their messages and keep the
   * step; 206 moves to the details step; 200 with a body signs in with its
   * token and user; anything else is unexpected. A failed call shows its
   * message. Loading ends either way.
   */
  function Validated(p: Page, outcome: Outcome): (r: (Page, Option<AuthStore.Payload>))
    ensures !r.0.loading
    ensures r.1.Some? <==> outcome.Replied? && outcome.status == 200 && outcome.data.Some?
    ensures r.1.Some? ==>
      var s := outcome.data.value;
      && r.1.value.token == s.token
      && r.1.value.user == AuthStore.StoredUser(s.id, Some(s.username), s.mobile, s.isAdmin)
      && r.0 == p.(loading := false)
    ensures r.0.step != p.step ==> r.0.step == DetailsStep && outcome.Replied? && outcome.status == 206
    ensures outcome.Replied? && outcome.status == 401 ==> r.0 == p.(error := InvalidOtp, loading := false)
    ensures outcome.Replied? && outcome.status == 400 ==> r.0 == p.(error := ValidationError, loading := false)
    ensures outcome.Replied? && outcome.status == 206 ==> r.0 == p.(step := DetailsStep, loading := false)
    ensures outcome.Replied? && (outcome.status !in {200, 206, 400, 401} || (outcome.status == 200 && outcome.data.None?)) ==>
      r.0 == p.(error := Unexpected, loading := false)
    ensures outcome.Failed? ==> r == (p.(error := outcome.message, loading := false), None)
  {
    var done := p.(loading := false);
    match outcome
    case Failed(message) => (done.(error := message), None)
    case Replied(status, data) =>
      if status == 401 then (done.(error := InvalidOtp), None)
      else if status == 400 then (done.(error := ValidationError), None)
      else if status == 206 then (done.(step := DetailsStep), None)
      else if status == 200 && data.Some? then
        var s := data.value;
        (done, Some(AuthStore.Payload(s.token, AuthStore.StoredUser(s.id, Some(s.username), s.mobile, s.isAdmin))))
      else (done.(error := Unexpected), None)
  }

  /** The Back buttons: from the code step to the mobile step with the code cleared, from details to the code step. */
  function Back(p: Page): (r: Page)
    ensures p.step == OtpStep ==> r == p.(step := MobileStep, otp := "")
    ensures p.step == DetailsStep ==> r == p.(step := OtpStep)
    ensures p.step == MobileStep ==> r == p
  {
    match p.step
    case OtpStep => p.(step := MobileStep, otp := "")
    case DetailsStep => p.(step := OtpStep)
    case MobileStep => p
  }

  /** Going back from the details step and validating again sends no profile fields. */
  lemma BackDropsDetails(p: Page)
    requires p.step == DetailsStep && Validate(p).1.Some?
    ensures var q := Validate(Back(p)).1;
      && q.Some? && q.value.username.None? && q.value.password.None? && q.value.department.None?
      && q.value.mobile == Validate(p).1.value.mobile && q.value.otp == Validate(p).1.value.otp
  {
  }

  // ---------- against the server ----------

  /** The request body as the server binds it: omitted properties are null. */
  function ToDto(req: ValidateRequest): AuthController.ValidateOtpDto {
    AuthController.ValidateOtpDto(Some(req.mobile), Some(req.otp), req.username, req.password, req.department)
  }

  /** What validateOtpRaw reports for a server reply: the status, and the body only for a session. */
  function Observe(reply: AuthController.Reply): (r: Outcome)
    ensures r.Replied? && r.status == AuthController.StatusCode(reply) as int
    ensures r.data.Some? <==> reply.Session?
  {
    match reply
    case Session(id, username, mobile, _, isAdmin, token) =>
      Replied(200, Some(Session(id, username, mobile, isAdmin, token)))
    case _ => Replied(AuthController.StatusCode(reply) as int, None)
  }

  /**
   * Against the server as written, the details step is never reached: the
   * server never answers 206, so the page never asks a new user for a
   * profile.
   */
  lemma DetailsNeverReached(p: Page, st: AuthService.AuthState, jose: Jose, hash: string -> string)
    requires Validate(p).1.Some?
    requires p.step != DetailsStep
    ensures var reply := AuthController.ValidateOtp(st, ToDto(Validate(p).1.value), jose, hash).1;
      Validated(Validate(p).0, Observe(reply)).0.step == p.step
  {
    var reply := AuthController.ValidateOtp(st, ToDto(Validate(p).1.value), jose, hash).1;
    AuthController.ValidateOtpNeverPartial(st, ToDto(Validate(p).1.value), jose, hash);
    assert Observe(reply).status != 206;
  }

  /** A session reply signs the page in with exactly the token and user the server sent. */
  lemma SessionSignsIn(p: Page, reply: AuthController.Reply)
    requires reply.Session?
    ensures var (_, payload) := Validated(p, Observe(reply));
      && payload.Some? && payload.value.token == reply.token
      && payload.value.user == AuthStore.StoredUser(reply.id, Some(reply.username), reply.mobile, reply.isAdmin)
  {
  }
}

=== FILE: profile_page.dfy ===
/**
 * The profile page: reading the claims out of the session token without
 * checking it, and the remaining session time shown next to the expiry.
 * Base64 decoding and JSON parsing are parameters (either may fail), and
 * the clock reading is an argument.
 */
module ProfilePage {
  import opened Wrappers
  import opened Text
  import opened Tables
  import opened JwtTokenHelper

  /** The numeric claims the page reads; a missing or non-numeric claim is None. */
  datatype Decoded = Decoded(exp: Option<int>, iat: Option<int>)

  /** The base64url alphabet's two extra characters, mapped to their base64 counterparts. */
  function ToBase64Char(c: char): char {
    if c == '-' then '+' else if c == '_' then '/' else c
  }

  function FromBase64Char(c: char): char {
    if c == '+' then '-' else if c == '/' then '_' else c
  }

  /** The payload segment rewritten from base64url to base64, character by character. */
  function ToBase64(s: string): (r: string)
    ensures |r| == |s| && forall i :: 0 <= i < |s| ==> r[i] == ToBase64Char(s[i])
    ensures '-' !in r && '_' !in r
  {
    seq(|s|, i requires 0 <= i < |s| => ToBase64Char(s[i]))
  }

  function FromBase64(s: string): (r: string)
    ensures |r| == |s| && forall i :: 0 <= i < |s| ==> r[i] == FromBase64Char(s[i])
  {
    seq(|s|, i requires 0 <= i < |s| => FromBase64Char(s[i]))
  }

  /** On base64url text (no '+' or '/'), the rewrite is undone by the reverse mapping. */
  lemma Base64RoundTrip(s: string)
    requires '+' !in s && '/' !in s
    ensures FromBase64(ToBase64(s)) == s
  {
  }

  /** On base64 text (no '-' or '_'), the reverse mapping is undone by the rewrite. */
  lemma Base64UrlRoundTrip(s: string)
    requires '-' !in s && '_' !in s
    ensures ToBase64(FromBase64(s)) == s
  {
  }

  /**
   * decodeJwt: null unless the token has exactly three '.'-separated parts;
   * otherwise the middle part rewritten to base64, decoded and parsed (a
   * failure of either step gives null).
   */
  function DecodeJwt(token: string, atob: string -> Option<string>, parse: string -> Option<Decoded>): (r: Option<Decoded>)
    ensures |Split(token, '.')| != 3 ==> r.None?
    ensures |Split(token, '.')| == 3 ==>
      var text := atob(ToBase64(Split(token, '.')[1]));
      r == (if text.Some? then parse(text.value) else None)
  {
    var parts := Split(token, '.');
    if |parts| != 3 then None
    else
      match atob(ToBase64(parts[1]))
      case None => None
      case Some(json) => parse(json)
  }

  /** A token minted by the server decodes to whatever its payload segment decodes to. */
  lemma DecodesServerToken(u: User, jose: Jose, atob: string -> Option<string>, parse: string -> Option<Decoded>)
    requires '.' !in jose.header
    requires '.' !in jose.payload(ClaimsFor(u))
    requires '.' !in jose.signature(jose.header + "." + jose.payload(ClaimsFor(u)))
    ensures var text := atob(ToBase64(jose.payload(ClaimsFor(u))));
      DecodeJwt(GenerateToken(u, jose), atob, parse) == if text.Some? then parse(text.value) else None
  {
    TokenSegments(u, jose);
  }

  /** A token with a '.' too many or too few is not decoded at all. */
  lemma TwoPartsRejected(a: string, b: string, atob: string -> Option<string>, parse: string -> Option<Decoded>)
    requires '.' !in a && '.' !in b
    ensures DecodeJwt(a + "." + b, atob, parse).None?
  {
    SplitJoin([a, b], '.');
    assert Join([a, b], '.') == a + "." + b;
  }

  // ---------- session time ----------

  /** The expiry instant in milliseconds: only a truthy (present, non-zero) exp counts. */
  function ExpiryMs(decoded: Option<Decoded>): (r: Option<int>)
    ensures r.Some? <==> decoded.Some? && decoded.value.exp.Some? && decoded.value.exp.value != 0
    ensures r.Some? ==> r.value == decoded.value.exp.value * 1000
  {
    if decoded.Some? && decoded.value.exp.Some? && decoded.value.exp.value != 0 then
      Some(decoded.value.exp.value * 1000)
    else None
  }

  /** Math.max(0, expiry - now) with an expiry, 0 without one. */
  function RemainingMs(expiry: Option<int>, now: int): (r: nat)
    ensures expiry.None? ==> r == 0
    ensures expiry.Some? ==> r >= expiry.value - now && (r == 0 || r == expiry.value - now)
  {
    if expiry.Some? && expiry.value - now > 0 then expiry.value - now else 0
  }

  /** Whole minutes left, with an expiry. */
  function RemainingMin(expiry: Option<int>, now: int): (r: Option<nat>)
    ensures r.Some? <==> expiry.Some?
    ensures r.Some? ==> r.value * 60000 <= RemainingMs(expiry, now) < (r.value + 1) * 60000
  {
    if expiry.Some? then Some(RemainingMs(expiry, now) / 60000) else None
  }

  /** Whole seconds left within the current minute, with an expiry. */
  function RemainingSec(expiry: Option<int>, now: int): (r: Option<nat>)
    ensures r.Some? <==> expiry.Some?
    ensures r.Some? ==> r.value <= 59
  {
    if expiry.Some? then Some((RemainingMs(expiry, now) % 60000) / 1000) else None
  }

  /**
   * The minutes and seconds shown account for the remaining time to within
   * one second.
   */
  lemma {:induction false} RemainingReconstructs(expiry: Option<int>, now: int)
    requires expiry.Some?
    ensures var ms, m, s := RemainingMs(expiry, now), RemainingMin(expiry, now).value, RemainingSec(expiry, now).value;
      m * 60000 + s * 1000 <= ms < m * 60000 + s * 1000 + 1000
  {
    var ms := RemainingMs(expiry, now);
    var m, rest := ms / 60000, ms % 60000;
    assert ms == m * 60000 + rest;
    var s := rest / 1000;
    assert rest == s * 1000 + rest % 1000;
  }

  /** Time passing never adds time left. */
  lemma RemainingShrinks(expiry: Option<int>, now: int, later: int)
    requires now <= later
    ensures RemainingMs(expiry, later) <= RemainingMs(expiry, now)
  {
  }

  /** An exp claim of 0 is treated as no expiry at all. */
  lemma ZeroExpiryHidden(iat: Option<int>, now: int)
    ensures ExpiryMs(Some(Decoded(Some(0), iat))) == None
    ensures RemainingMin(ExpiryMs(Some(Decoded(Some(0), iat))), now) == None
    ensures RemainingSec(ExpiryMs(Some(Decoded(Some(0), iat))), now) == None
  {
  }
}

=== FILE: search_page.dfy ===
/**
 * The search page: the criteria it sends, the tag text it parses, the
 * preview type it infers from a file name, the checkbox selection and the
 * bulk download it hands to the server. Rendering, object URLs and the
 * head lists are not modelled.
 */
module SearchPage {
  import opened Wrappers
  import opened Text
  import opened Seqs
  import opened DocumentsApi
  import JwtTokenHelper
  import DocumentsController

  // ---------- tag text ----------

  /** Each piece trimmed, in order. */
  function TrimAll(pieces: seq<string>): (r: seq<string>)
    ensures |r| == |pieces| && forall i :: 0 <= i < |pieces| ==> r[i] == Trim(JavaScript, pieces[i])
  {
    seq(|pieces|, i requires 0 <= i < |pieces| => Trim(JavaScript, pieces[i]))
  }

  predicate NonEmpty(t: string) {
    t != ""
  }

  /** The comma-separated tag text: split on ',', each piece trimmed, empty pieces dropped. */
  function ParseTags(text: string): (r: seq<string>)
    ensures forall i :: 0 <= i < |r| ==> r[i] != "" && ',' !in r[i] && Trim(JavaScript, r[i]) == r[i]
    ensures forall t :: t in r <==> t != "" && t in TrimAll(Split(text, ','))
  {
    var pieces := Split(text, ',');
    TrimmedPieces(pieces);
    var r := Filter(TrimAll(pieces), NonEmpty);
    assert forall i :: 0 <= i < |r| ==> r[i] in r;
    r
  }

  /** Trimmed comma-free pieces are comma-free and stay put when trimmed again. */
  lemma TrimmedPieces(pieces: seq<string>)
    requires forall i :: 0 <= i < |pieces| ==> ',' !in pieces[i]
    ensures forall t :: t in TrimAll(pieces) ==> ',' !in t && Trim(JavaScript, t) == t
  {
    var trimmed := TrimAll(pieces);
    forall t | t in trimmed ensures ',' !in t && Trim(JavaScript, t) == t {
      var j :| 0 <= j < |trimmed| && trimmed[j] == t;
      TrimInfix(pieces[j]);
      TrimIdempotent(JavaScript, pieces[j]);
    }
  }

  /** A trimmed piece is a part of the piece, so it holds no character the piece lacks. */
  lemma TrimInfix(s: string)
    ensures forall c :: c in Trim(JavaScript, s) ==> c in s
  {
    var k := TrimOffset(JavaScript, s);
    var t := Trim(JavaScript, s);
    forall c | c in t ensures c in s {
      var i :| 0 <= i < |t| && t[i] == c;
      assert s[k + i] == c;
    }
  }

  /** The tags argument of the search: the parsed list, or undefined when it is empty. */
  function TagsArgument(text: string): (r: Option<seq<string>>)
    ensures r.None? <==> |ParseTags(text)| == 0
    ensures r.Some? ==> r.value == ParseTags(text)
  {
    var t := ParseTags(text);
    if |t| > 0 then Some(t) else None
  }

  /** Tags that are trimmed, non-empty and free of commas survive a trip through the text box. */
  lemma {:induction false} ParseJoinedTags(tags: seq<string>)
    requires forall i :: 0 <= i < |tags| ==> tags[i] != "" && ',' !in tags[i] && Trim(JavaScript, tags[i]) == tags[i]
    ensures ParseTags(Join(tags, ',')) == tags
  {
    if |tags| == 0 {
      ParseEmpty();
    } else {
      var text := Join(tags, ',');
      SplitJoin(tags, ',');
      assert Split(text, ',') == tags;
      TrimAllTrimmed(tags);
      FilterAll(tags, NonEmpty);
    }
  }

  lemma TrimAllTrimmed(tags: seq<string>)
    requires forall i :: 0 <= i < |tags| ==> Trim(JavaScript, tags[i]) == tags[i]
    ensures TrimAll(tags) == tags
  {
  }

  /** An empty tag text gives no tags. */
  lemma ParseEmpty()
    ensures ParseTags("") == []
  {
    assert Split("", ',') == [""];
    assert TrimAll([""]) == [""];
    assert Filter([""], NonEmpty) == [];
  }

  /** Whatever the text, the tags parsed from it are sent comma-joined and split back unchanged. */
  lemma ParsedTagsSplitBack(text: string)
    requires |ParseTags(text)| > 0
    ensures Split(Join(ParseTags(text), ','), ',') == ParseTags(text)
  {
    SplitJoin(ParseTags(text), ',');
  }

  // ---------- preview type ----------

  datatype PreviewType = Image | Pdf | Unsupported

  /** The classification of a lower-cased extension. */
  function Classify(ext: string): (r: PreviewType)
    ensures r == Image <==> ext in ["jpg", "jpeg", "png", "gif"]
    ensures r == Pdf <==> ext == "pdf"
  {
    if ext == "" then Unsupported
    else if ext in ["jpg", "jpeg", "png", "gif"] then Image
    else if ext == "pdf" then Pdf
    else Unsupported
  }

  /** The text after the last '.', or the whole name when it has none. */
  function LastPiece(name: string): (r: string)
    ensures '.' !in r
  {
    var pieces := Split(name, '.');
    pieces[|pieces| - 1]
  }

  /** inferTypeFromName: the lower-cased text after the last '.' decides. */
  function InferType(name: string): (r: PreviewType)
    ensures r == Image <==> Lower(LastPiece(name)) in ["jpg", "jpeg", "png", "gif"]
    ensures r == Pdf <==> Lower(LastPiece(name)) == "pdf"
  {
    Classify(Lower(LastPiece(name)))
  }

  /** The last piece of `stem.ext` is `ext` when `ext` has no '.'. */
  lemma {:induction false} LastPieceOfSuffix(stem: string, ext: string)
    requires '.' !in ext
    ensures LastPiece(stem + "." + ext) == ext
    decreases |stem|
  {
    var s := stem + "." + ext;
    assert s[|stem|] == '.';
    if '.' !in stem {
      assert s[..|stem|] == stem;
      FirstIndexUnique(s, |stem|, '.');
      assert s[|stem| + 1..] == ext;
    } else {
      var k := FirstIndex(stem, '.');
      assert s[..|stem|] == stem;
      FirstIndexPrefix(s, |stem|, '.');
      assert s[k + 1..] == stem[k + 1..] + "." + ext;
      LastPieceOfSuffix(stem[k + 1..], ext);
    }
  }

  /** Only the extension counts: any stem before the last '.' gives the same type. */
  lemma TypeByExtension(stem: string, ext: string)
    requires '.' !in ext
    ensures InferType(stem + "." + ext) == Classify(Lower(ext)) == InferType(ext)
  {
    LastPieceOfSuffix(stem, ext);
  }

  /** A name ending in '.' has an empty extension and cannot be previewed. */
  lemma TrailingDotUnsupported(stem: string)
    ensures InferType(stem + ".") == Unsupported
  {
    LastPieceOfSuffix(stem, "");
    assert stem + "." + "" == stem + ".";
  }

  /** Upper-case extensions are recognised, and a bare "PDF" is its own extension. */
  lemma UpperCaseRecognised()
    ensures InferType("PDF") == Pdf
    ensures InferType("scan.JPG") == Image
  {
    BarePdf();
    ScanJpg();
  }

  lemma BarePdf()
    ensures InferType("PDF") == Pdf
  {
    assert Split("PDF", '.') == ["PDF"];
    assert Lower("PDF") == "pdf";
    assert "pdf"[0] != "jpg"[0] && "pdf" != "png" && "pdf"[0] != "gif"[0] && |"pdf"| != |"jpeg"|;
  }

  lemma ScanJpg()
    ensures InferType("scan.JPG") == Image
  {
    LastPieceOfSuffix("scan", "JPG");
    assert "scan" + "." + "JPG" == "scan.JPG";
    assert Lower("JPG") == "jpg";
  }

  /** The document fields the page reads. */
  datatype DocumentItem = DocumentItem(fileName: string, fileOriginalName: string)

  /** The preview is typed by the original name, or by the stored name when that is empty. */
  function PreviewName(d: DocumentItem): (r: string)
    ensures r != "" ==> r == d.fileOriginalName || (d.fileOriginalName == "" && r == d.fileName)
    ensures d.fileOriginalName != "" ==> r == d.fileOriginalName
  {
    if d.fileOriginalName != "" then d.fileOriginalName else d.fileName
  }

  // ---------- selection ----------

  /** The checkbox of a file: unticking removes it, ticking appends it. */
  function Toggle(selected: seq<string>, f: string): (r: seq<string>)
    ensures f in r <==> f !in selected
    ensures forall g :: g != f ==> (g in r <==> g in selected)
    ensures NoDuplicates(selected) ==> NoDuplicates(r)
  {
    if f in selected then RemoveAll(selected, f) else selected + [f]
  }

  /** Ticking a file and unticking it restores the selection exactly. */
  lemma ToggleTwiceRestores(selected: seq<string>, f: string)
    requires f !in selected
    ensures Toggle(Toggle(selected, f), f) == selected
  {
    assert RemoveAll(selected + [f], f) == selected by {
      RemoveAllAppend(selected, f);
    }
  }

  lemma {:induction false} RemoveAllAppend(s: seq<string>, f: string)
    requires f !in s
    ensures RemoveAll(s + [f], f) == s
    decreases |s|
  {
    if |s| == 0 {
      assert [f][1..] == [];
    } else {
      assert (s + [f])[1..] == s[1..] + [f];
      RemoveAllAppend(s[1..], f);
      assert s == [s[0]] + s[1..];
    }
  }

  /**
   * Unticking a ticked file and ticking it again keeps the same files but
   * moves that file to the end of the list.
   */
  lemma ToggleTwiceMovesToEnd(selected: seq<string>, k: nat)
    requires NoDuplicates(selected) && k < |selected|
    ensures Toggle(Toggle(selected, selected[k]), selected[k]) == selected[..k] + selected[k + 1..] + [selected[k]]
  {
    RemoveAllAt(selected, k);
  }

  function ToggleAll(selected: seq<string>, clicks: seq<string>): seq<string>
    decreases |clicks|
  {
    if |clicks| == 0 then selected else ToggleAll(Toggle(selected, clicks[0]), clicks[1..])
  }

  /** However the checkboxes are clicked, the selection never lists a file twice. */
  lemma {:induction false} ClicksKeepNoDuplicates(selected: seq<string>, clicks: seq<string>)
    requires NoDuplicates(selected)
    ensures NoDuplicates(ToggleAll(selected, clicks))
    decreases |clicks|
  {
    if |clicks| > 0 {
      ClicksKeepNoDuplicates(Toggle(selected, clicks[0]), clicks[1..]);
    }
  }

  // ---------- page state ----------

  /** The page's state; an unselected head ("Any") is None. */
  datatype Page = Page(
    majorId: Option<int>,
    minorId: Option<int>,
    from: string,
    to: string,
    tagText: string,
    documents: seq<DocumentItem>,
    selected: seq<string>,
    loading: bool,
    error: string,
    info: string)

  /** `id || undefined`: an unselected head and the id 0 are both left out. */
  function IdOrUndefined(id: Option<int>): (r: Option<int>)
    ensures r.Some? <==> id.Some? && id.value != 0
    ensures r.Some? ==> r == id
  {
    if id.Some? && id.value != 0 then id else None
  }

  /** The criteria runSearch passes to searchDocuments. */
  function PageCriteria(p: Page): (r: Criteria)
    ensures r.majorHeadId == IdOrUndefined(p.majorId) && r.minorHeadId == IdOrUndefined(p.minorId)
    ensures r.from == OrUndefined(p.from) && r.to == OrUndefined(p.to)
    ensures r.tags == TagsArgument(p.tagText)
  {
    Criteria(IdOrUndefined(p.majorId), IdOrUndefined(p.minorId), OrUndefined(p.from), OrUndefined(p.to),
             TagsArgument(p.tagText))
  }

  /** A head whose id is 0 is dropped from the search, exactly like "Any". */
  lemma ZeroHeadIdNotSent(p: Page)
    requires p.majorId == Some(0)
    ensures PageCriteria(p) == PageCriteria(p.(majorId := None))
  {
  }

  /**
   * runSearch: without a token nothing happens; otherwise the error and info
   * are cleared, the page is loading, and the criteria are sent.
   */
  function RunSearch(p: Page, token: Option<string>): (r: (Page, Option<Criteria>))
    ensures r.1.None? <==> token.None? || token.value == ""
    ensures r.1.None? ==> r.0 == p
    ensures r.1.Some? ==> r.0 == p.(error := "", info := "", loading := true) && r.1.value == PageCriteria(p)
  {
    if token.None? || token.value == "" then (p, None)
    else (p.(error := "", info := "", loading := true), Some(PageCriteria(p)))
  }

  /**
   * The search reply: on success the list is replaced, the selection cleared
   * and the count shown; on failure the message is shown and the list kept.
   */
  function SearchDone(p: Page, outcome: Result<seq<DocumentItem>, string>): (r: Page)
    ensures !r.loading
    ensures outcome.Success? ==>
      r.documents == outcome.value && r.selected == [] && r.info == IntToString(|outcome.value|) + " documents"
    ensures outcome.Failure? ==> r == p.(error := outcome.error, loading := false)
  {
    match outcome
    case Success(docs) => p.(documents := docs, selected := [], info := IntToString(|docs|) + " documents", loading := false)
    case Failure(e) => p.(error := e, loading := false)
  }

  /** Choosing a major resets the minor to "Any". */
  function SelectMajor(p: Page, majorId: Option<int>): (r: Page)
    ensures r.majorId == majorId && r.minorId.None?
    ensures r.(majorId := p.majorId, minorId := p.minorId) == p
  {
    p.(majorId := majorId, minorId := None)
  }

  /** The Reset button: every filter, the list, the selection and both messages are cleared. */
  function Reset(p: Page): (r: Page)
    ensures r.majorId.None? && r.minorId.None? && r.from == "" && r.to == "" && r.tagText == ""
    ensures r.documents == [] && r.selected == [] && r.info == "" && r.error == ""
    ensures r.loading == p.loading
  {
    p.(majorId := None, minorId := None, from := "", to := "", tagText := "", selected := [], documents := [],
       info := "", error := "")
  }

  /** After a reset a search sends no filter at all. */
  lemma ResetSearchesEverything(p: Page)
    ensures PageCriteria(Reset(p)) == Criteria(None, None, None, None, None)
  {
    ParseEmpty();
  }

  // ---------- bulk download ----------

  /** handleBulkZip: nothing is sent for an empty selection, else the selected names. */
  function BulkZip(selected: seq<string>): (r: Option<seq<string>>)
    ensures r.None? <==> |selected| == 0
    ensures r.Some? ==> r.value == selected
  {
    if |selected| == 0 then None else Some(selected)
  }

  /**
   * Every bulk download the page sends is accepted by an authenticated
   * server call, and a selection reached by clicking archives exactly the
   * selected files that exist, in the order they were ticked.
   */
  lemma BulkZipAccepted(files: set<string>, caller: seq<JwtTokenHelper.Claim>, clicks: seq<string>,
                        now: DocumentsController.Timestamp)
    requires DocumentsController.ValidTimestamp(now)
    requires BulkZip(ToggleAll([], clicks)).Some?
    ensures var selected := ToggleAll([], clicks);
      var r := DocumentsController.DownloadZip(files, Some(caller), BulkZip(selected), None, now);
      && r.Zip?
      && r.entries == Filter(selected, (n: string) => n in files)
  {
    var selected := ToggleAll([], clicks);
    ClicksKeepNoDuplicates([], clicks);
    DistinctOfNoDuplicates(selected);
  }
}

=== FILE: seqs.dfy ===
/** Sequence helpers: duplicate-freedom, first occurrences, order-keeping removal and filtering. */
module Seqs {

  predicate NoDuplicates<T(==)>(s: seq<T>) {
    forall i, j :: 0 <= i < j < |s| ==> s[i] != s[j]
  }

  /** Position of the first occurrence of `x`. */
  function FirstIndex<T(==)>(s: seq<T>, x: T): (k: nat)
    requires x in s
    ensures k < |s| && s[k] == x && forall m :: 0 <= m < k ==> s[m] != x
  {
    if s[0] == x then 0 else 1 + FirstIndex(s[1..], x)
  }

  lemma FirstIndexUnique<T>(s: seq<T>, k: nat, x: T)
    requires k < |s| && s[k] == x && x !in s[..k]
    ensures FirstIndex(s, x) == k
  {
  }

  lemma FirstIndexPrefix<T>(s: seq<T>, n: nat, x: T)
    requires n <= |s| && x in s[..n]
    ensures FirstIndex(s, x) == FirstIndex(s[..n], x)
  {
    var k := FirstIndex(s[..n], x);
    assert s[..n][..k] == s[..k];
    FirstIndexUnique(s, k, x);
  }

  /**
   * Enumerable.Distinct / keeping first occurrences: the result has no
   * duplicates and the same elements as `s`; DistinctOrder adds that they
   * are listed in order of first occurrence.
   */
  function Distinct<T(==, !new)>(s: seq<T>): (r: seq<T>)
    ensures NoDuplicates(r)
    ensures forall x :: x in r <==> x in s
    decreases |s|
  {
    if |s| == 0 then []
    else
      var d := Distinct(s[..|s| - 1]);
      var x := s[|s| - 1];
      assert s == s[..|s| - 1] + [x];
      if x in d then d
      else
        AppendNew(d, x);
        d + [x]
  }

  /** `r` lists elements of `s` in order of their first occurrence in `s`. */
  predicate FirstOccurrenceOrder<T(==)>(s: seq<T>, r: seq<T>) {
    forall i, j :: 0 <= i < j < |r| ==> r[i] in s && r[j] in s && FirstIndex(s, r[i]) < FirstIndex(s, r[j])
  }

  /** The order half of the Distinct step: appending the last element only when it is new keeps first-occurrence order. */
  lemma DistinctStep<T(!new)>(s: seq<T>, d: seq<T>)
    requires |s| > 0
    requires NoDuplicates(d)
    requires forall y :: y in d <==> y in s[..|s| - 1]
    requires FirstOccurrenceOrder(s[..|s| - 1], d)
    ensures FirstOccurrenceOrder(s, if s[|s| - 1] in d then d else d + [s[|s| - 1]])
  {
    var p := s[..|s| - 1];
    var x := s[|s| - 1];
    assert s == p + [x];
    forall k | 0 <= k < |d|
      ensures d[k] in p && d[k] in s && FirstIndex(s, d[k]) == FirstIndex(p, d[k]) < |p|
    {
      assert d[k] in d;
      FirstIndexPrefix(s, |p|, d[k]);
    }
    if x !in d {
      assert x !in p;
      FirstIndexUnique(s, |p|, x);
      var r := d + [x];
      forall i, j | 0 <= i < j < |r| ensures r[i] in s && r[j] in s && FirstIndex(s, r[i]) < FirstIndex(s, r[j]) {
        assert r[i] == d[i];
        if j < |d| {
          assert r[j] == d[j];
        }
      }
    } else {
      forall i, j | 0 <= i < j < |d| ensures d[i] in s && d[j] in s && FirstIndex(s, d[i]) < FirstIndex(s, d[j]) {
      }
    }
  }

  /** Distinct lists the elements in order of their first occurrence. */
  lemma {:induction false} DistinctOrder<T(!new)>(s: seq<T>)
    ensures FirstOccurrenceOrder(s, Distinct(s))
    decreases |s|
  {
    if |s| > 0 {
      var p := s[..|s| - 1];
      DistinctOrder(p);
      DistinctStep(s, Distinct(p));
      DistinctLast(s);
    } else {
      assert Distinct(s) == [];
    }
  }

  /** Distinct of a non-empty sequence, one step unfolded. */
  lemma DistinctLast<T(!new)>(s: seq<T>)
    requires |s| > 0
    ensures Distinct(s) == if s[|s| - 1] in Distinct(s[..|s| - 1]) then Distinct(s[..|s| - 1])
                           else Distinct(s[..|s| - 1]) + [s[|s| - 1]]
  {
  }

  lemma {:induction false} DistinctOfNoDuplicates<T(!new)>(s: seq<T>)
    requires NoDuplicates(s)
    ensures Distinct(s) == s
    decreases |s|
  {
    if |s| > 0 {
      var p := s[..|s| - 1];
      PrefixNoDuplicates(s);
      DistinctOfNoDuplicates(p);
      DistinctLast(s);
      assert s == p + [s[|s| - 1]];
    }
  }

  /** Dropping the last element keeps a sequence duplicate-free, and that element does not occur before. */
  lemma PrefixNoDuplicates<T>(s: seq<T>)
    requires NoDuplicates(s) && |s| > 0
    ensures NoDuplicates(s[..|s| - 1]) && s[|s| - 1] !in s[..|s| - 1]
  {
  }

  /** Every element except `x`, in order (Array.prototype.filter(y => y !== x)). */
  function RemoveAll<T(==, !new)>(s: seq<T>, x: T): (r: seq<T>)
    ensures forall y :: y in r <==> y in s && y != x
    ensures |r| <= |s|
    ensures x !in s ==> r == s
    ensures NoDuplicates(s) ==> NoDuplicates(r)
  {
    if |s| == 0 then []
    else if s[0] == x then RemoveAll(s[1..], x)
    else
      var r := RemoveAll(s[1..], x);
      assert NoDuplicates(s) ==> s[0] !in s[1..] && NoDuplicates(s[1..]);
      [s[0]] + r
  }

  /** Appending a new element keeps a sequence duplicate-free. */
  lemma AppendNew<T>(s: seq<T>, x: T)
    requires NoDuplicates(s) && x !in s
    ensures NoDuplicates(s + [x])
  {
    var r := s + [x];
    forall i, j | 0 <= i < j < |r| ensures r[i] != r[j] {
      assert r[i] == s[i];
      if j == |s| {
        assert s[i] in s;
      } else {
        assert r[j] == s[j];
      }
    }
  }

  /** In a duplicate-free sequence, removing an element keeps the others in order. */
  lemma {:induction false} RemoveAllAt<T(!new)>(s: seq<T>, k: nat)
    requires NoDuplicates(s) && k < |s|
    ensures RemoveAll(s, s[k]) == s[..k] + s[k + 1..]
    decreases |s|
  {
    NoDuplicatesHead(s, k);
    if k == 0 {
      assert s[..0] + s[1..] == s[1..];
    } else {
      RemoveAllAt(s[1..], k - 1);
      TailSlices(s, k);
    }
  }

  /** The head of a duplicate-free sequence is not in its tail, and the tail is duplicate-free. */
  lemma NoDuplicatesHead<T>(s: seq<T>, k: nat)
    requires NoDuplicates(s) && k < |s|
    ensures s[0] !in s[1..] && NoDuplicates(s[1..])
    ensures 0 < k ==> s[0] != s[k]
  {
  }

  lemma TailSlices<T>(s: seq<T>, k: nat)
    requires 0 < k < |s|
    ensures s[1..][k - 1] == s[k] && [s[0]] + (s[1..][..k - 1] + s[1..][k..]) == s[..k] + s[k + 1..]
  {
  }

  /** The elements satisfying `p`, in order. */
  function Filter<T(!new)>(s: seq<T>, p: T -> bool): (r: seq<T>)
    ensures |r| <= |s|
    ensures forall x :: x in r <==> x in s && p(x)
  {
    if |s| == 0 then []
    else if p(s[0]) then [s[0]] + Filter(s[1..], p)
    else Filter(s[1..], p)
  }

  /** Filtering distributes over concatenation: what is kept keeps its order and its repeats. */
  lemma {:induction false} FilterAppend<T(!new)>(s: seq<T>, t: seq<T>, p: T -> bool)
    ensures Filter(s + t, p) == Filter(s, p) + Filter(t, p)
    decreases |s|
  {
    if |s| == 0 {
      assert s + t == t;
    } else {
      var x, rest := s[0], s[1..];
      var head := if p(x) then [x] else [];
      calc {
        Filter(s + t, p);
        { assert s + t == [x] + (rest + t); }
        Filter([x] + (rest + t), p);
        { FilterCons(x, rest + t, p); }
        head + Filter(rest + t, p);
        { FilterAppend(rest, t, p); }
        head + (Filter(rest, p) + Filter(t, p));
        (head + Filter(rest, p)) + Filter(t, p);
        { assert s == [x] + rest; FilterCons(x, rest, p); }
        Filter(s, p) + Filter(t, p);
      }
    }
  }

  lemma FilterCons<T(!new)>(x: T, s: seq<T>, p: T -> bool)
    ensures Filter([x] + s, p) == (if p(x) then [x] else []) + Filter(s, p)
  {
    assert ([x] + s)[0] == x && ([x] + s)[1..] == s;
  }

  /** A single element is kept exactly when it meets the condition. */
  lemma FilterSingleton<T(!new)>(x: T, p: T -> bool)
    ensures Filter([x], p) == if p(x) then [x] else []
  {
  }

  lemma FilterAll<T(!new)>(s: seq<T>, p: T -> bool)
    requires forall i :: 0 <= i < |s| ==> p(s[i])
    ensures Filter(s, p) == s
  {
  }

  /** Array.prototype.slice(0, n). */
  function Take<T>(s: seq<T>, n: nat): (r: seq<T>)
    ensures |r| == if |s| <= n then |s| else n
    ensures r == s[..|r|]
    ensures |s| <= n ==> r == s
  {
    if |s| <= n then s else s[..n]
  }

  /** Filtering keeps the relative order of the elements it keeps. */
  lemma {:induction false} FilterOrder<T(!new)>(s: seq<T>, p: T -> bool, i: nat, j: nat)
    requires i < j < |Filter(s, p)|
    ensures exists a, b :: 0 <= a < b < |s| && s[a] == Filter(s, p)[i] && s[b] == Filter(s, p)[j]
    decreases |s|
  {
    var r := Filter(s, p);
    var t := Filter(s[1..], p);
    if p(s[0]) {
      assert r == [s[0]] + t;
      if i == 0 {
        assert r[j] == t[j - 1] && t[j - 1] in t;
        var b :| 0 <= b < |s[1..]| && s[1..][b] == t[j - 1];
        assert s[0] == r[0] && s[b + 1] == r[j];
      } else {
        FilterOrder(s[1..], p, i - 1, j - 1);
        var a, b :| 0 <= a < b < |s[1..]| && s[1..][a] == t[i - 1] && s[1..][b] == t[j - 1];
        assert s[a + 1] == r[i] && s[b + 1] == r[j];
      }
    } else {
      assert r == t;
      FilterOrder(s[1..], p, i, j);
      var a, b :| 0 <= a < b < |s[1..]| && s[1..][a] == t[i] && s[1..][b] == t[j];
      assert s[a + 1] == r[i] && s[b + 1] == r[j];
    }
  }

  /** Two kept elements of the distinct elements differ and keep the order of their first occurrences. */
  lemma FilterDistinctOrder<T(!new)>(s: seq<T>, p: T -> bool, i: nat, j: nat)
    requires i < j < |Filter(Distinct(s), p)|
    ensures var r := Filter(Distinct(s), p);
      r[i] != r[j] && FirstIndex(s, r[i]) < FirstIndex(s, r[j])
  {
    var d := Distinct(s);
    DistinctOrder(s);
    FilterOrder(d, p, i, j);
    var a, b :| 0 <= a < b < |d| && d[a] == Filter(d, p)[i] && d[b] == Filter(d, p)[j];
  }

  /** Filtering a duplicate-free sequence leaves it duplicate-free. */
  lemma FilterNoDuplicates<T(!new)>(s: seq<T>, p: T -> bool)
    requires NoDuplicates(s)
    ensures NoDuplicates(Filter(s, p))
  {
    var r := Filter(s, p);
    forall i, j | 0 <= i < j < |r| ensures r[i] != r[j] {
      FilterOrder(s, p, i, j);
    }
  }
}

=== FILE: tables.dfy ===
/**
 * The relational schema of the catalog (the CREATE TABLE statements of
 * AppDbContext) as immutable records over sequences, the key constraints the
 * schema declares, and the single-table statements: user lookup and insert,
 * and the minor-head insert/delete/list statements.
 */
module Tables {
  import opened Wrappers
  import opened Seqs

  /** A DATETIME value; only its order matters to the model. */
  type Instant = int

  datatype User = User(
    id: nat,
    departmentId: Option<int>,
    username: string,
    mobile: string,
    passwordHash: string,
    isAdmin: bool)

  datatype Tag = Tag(id: nat, name: string)

  datatype MajorHead = MajorHead(id: nat, name: string)

  datatype MinorHead = MinorHead(id: nat, majorHeadId: int, name: string)

  datatype DocumentRow = DocumentRow(
    id: nat,
    fileOriginalName: string,
    fileName: string,
    contentType: string,
    size: int,
    majorHeadId: int,
    minorHeadId: int,
    remarks: Option<string>,
    documentDate: Option<Instant>,
    uploadedAt: Instant,
    uploadedBy: Option<int>)

  /** A row of the DocumentTags junction table; its primary key is the pair. */
  datatype DocumentTag = DocumentTag(documentId: nat, tagId: nat)

  datatype Db = Db(
    users: seq<User>,
    tags: seq<Tag>,
    majors: seq<MajorHead>,
    minors: seq<MinorHead>,
    documents: seq<DocumentRow>,
    documentTags: seq<DocumentTag>)

  /** The exception a statement throws when it would break a key constraint. */
  datatype DbError =
    | UniqueViolation(column: string)
    | PrimaryKeyViolation
    | ForeignKeyViolation(column: string)
    | NotNullViolation(column: string)

  /** An AUTO_INCREMENT value: larger than every id already in the table. */
  function NextId<T>(rows: seq<T>, id: T -> nat): (r: nat)
    ensures 0 < r
    ensures forall i :: 0 <= i < |rows| ==> id(rows[i]) < r
  {
    if |rows| == 0 then 1
    else
      var m := NextId(rows[..|rows| - 1], id);
      var last := id(rows[|rows| - 1]);
      assert forall i :: 0 <= i < |rows| - 1 ==> rows[..|rows| - 1][i] == rows[i];
      if last < m then m else last + 1
  }

  // ---------- key constraints ----------

  /** Users: Id is the primary key; Username and Mobile are UNIQUE. */
  predicate UsersUnique(users: seq<User>) {
    forall i, j :: 0 <= i < j < |users| ==>
      && users[i].id != users[j].id
      && users[i].username != users[j].username
      && users[i].mobile != users[j].mobile
  }

  /** Tags: Id is the primary key; Name is UNIQUE. */
  predicate TagsUnique(tags: seq<Tag>) {
    forall i, j :: 0 <= i < j < |tags| ==> tags[i].id != tags[j].id && tags[i].name != tags[j].name
  }

  predicate DocumentIdsUnique(docs: seq<DocumentRow>) {
    forall i, j :: 0 <= i < j < |docs| ==> docs[i].id != docs[j].id
  }

  predicate HasDocument(db: Db, id: nat) {
    exists i :: 0 <= i < |db.documents| && db.documents[i].id == id
  }

  predicate HasTag(db: Db, id: nat) {
    exists j :: 0 <= j < |db.tags| && db.tags[j].id == id
  }

  /** DocumentTags: the pair is the primary key, DocumentId references Documents and TagId references Tags. */
  predicate LinksValid(db: Db) {
    && NoDuplicates(db.documentTags)
    && (forall k :: 0 <= k < |db.documentTags| ==> HasDocument(db, db.documentTags[k].documentId))
    && (forall k :: 0 <= k < |db.documentTags| ==> HasTag(db, db.documentTags[k].tagId))
  }

  predicate Valid(db: Db) {
    && UsersUnique(db.users)
    && TagsUnique(db.tags)
    && DocumentIdsUnique(db.documents)
    && LinksValid(db)
  }

  // ---------- users ----------

  predicate HasMobile(db: Db, mobile: string) {
    exists i :: 0 <= i < |db.users| && db.users[i].mobile == mobile
  }

  predicate HasUsername(db: Db, username: string) {
    exists i :: 0 <= i < |db.users| && db.users[i].username == username
  }

  /** SELECT * FROM Users WHERE Mobile = @Mobile LIMIT 1 (the first matching row). */
  function UserByMobile(users: seq<User>, mobile: string): (r: Option<User>)
    ensures r.None? <==> forall i :: 0 <= i < |users| ==> users[i].mobile != mobile
    ensures r.Some? ==> r.value in users && r.value.mobile == mobile
  {
    if |users| == 0 then None
    else if users[0].mobile == mobile then Some(users[0])
    else UserByMobile(users[1..], mobile)
  }

  /** SELECT * FROM Users WHERE Id = @Id LIMIT 1. */
  function UserById(users: seq<User>, id: int): (r: Option<User>)
    ensures r.None? <==> forall i :: 0 <= i < |users| ==> users[i].id != id
    ensures r.Some? ==> r.value in users && r.value.id == id
  {
    if |users| == 0 then None
    else if users[0].id == id then Some(users[0])
    else UserById(users[1..], id)
  }

  /** With unique ids, the lookup by id finds exactly the row that has it. */
  lemma {:induction false} UserByIdFindsRow(users: seq<User>, k: nat)
    requires UsersUnique(users) && k < |users|
    ensures UserById(users, users[k].id) == Some(users[k])
  {
    if k > 0 {
      assert users[0].id != users[k].id;
      assert UsersUnique(users[1..]);
      UserByIdFindsRow(users[1..], k - 1);
      assert users[1..][k - 1] == users[k];
    }
  }

  function NextUserId(db: Db): nat {
    NextId(db.users, (u: User) => u.id)
  }

  /**
   * INSERT INTO Users ...; SELECT LAST_INSERT_ID(): the row gets a fresh id, or the
   * statement throws when the username or the mobile is already taken.
   */
  function InsertUser(db: Db, username: string, mobile: string, passwordHash: string, isAdmin: bool)
    : (r: Result<(Db, User), DbError>)
    ensures r.Failure? <==> HasUsername(db, username) || HasMobile(db, mobile)
    ensures r.Success? ==>
      var (db', u) := r.value;
      && u == User(NextUserId(db), None, username, mobile, passwordHash, isAdmin)
      && db' == db.(users := db.users + [u])
    ensures r.Success? && UsersUnique(db.users) ==> UsersUnique(r.value.0.users)
  {
    if HasUsername(db, username) then Failure(UniqueViolation("Username"))
    else if HasMobile(db, mobile) then Failure(UniqueViolation("Mobile"))
    else
      var u := User(NextUserId(db), None, username, mobile, passwordHash, isAdmin);
      Success((db.(users := db.users + [u]), u))
  }

  // ---------- tags ----------

  /** SELECT * FROM Tags WHERE Name = @Name, first row. */
  function TagByName(tags: seq<Tag>, name: string): (r: Option<Tag>)
    ensures r.None? <==> forall j :: 0 <= j < |tags| ==> tags[j].name != name
    ensures r.Some? ==> r.value in tags && r.value.name == name
  {
    if |tags| == 0 then None
    else if tags[0].name == name then Some(tags[0])
    else TagByName(tags[1..], name)
  }

  /** With unique names, the lookup by name finds exactly the row that has it. */
  lemma {:induction false} TagByNameFindsRow(tags: seq<Tag>, j: nat)
    requires TagsUnique(tags) && j < |tags|
    ensures TagByName(tags, tags[j].name) == Some(tags[j])
  {
    if j > 0 {
      assert tags[0].name != tags[j].name;
      assert TagsUnique(tags[1..]);
      TagByNameFindsRow(tags[1..], j - 1);
      assert tags[1..][j - 1] == tags[j];
    }
  }

  function NextTagId(db: Db): nat {
    NextId(db.tags, (t: Tag) => t.id)
  }

  /** InsertTagAsync: a new tag row under a fresh id; the caller has checked that the name is free. */
  function InsertTag(db: Db, name: string): (r: (Db, nat))
    ensures !HasTag(db, r.1)
    ensures r.0 == db.(tags := db.tags + [Tag(r.1, name)])
    ensures TagsUnique(db.tags) && TagByName(db.tags, name).None? ==> TagsUnique(r.0.tags)
  {
    var id := NextTagId(db);
    (db.(tags := db.tags + [Tag(id, name)]), id)
  }

  function NextDocumentId(db: Db): nat {
    NextId(db.documents, (d: DocumentRow) => d.id)
  }

  // ---------- major / minor heads ----------

  function NextMinorId(db: Db): nat {
    NextId(db.minors, (m: MinorHead) => m.id)
  }

  predicate HasMajor(db: Db, id: int) {
    exists i :: 0 <= i < |db.majors| && db.majors[i].id == id
  }

  /**
   * InsertMinorHeadAsync: appends one row under a fresh id and returns that
   * id. MinorHeads.MajorHeadId references MajorHeads(Id), so a major id with
   * no row throws and inserts nothing.
   */
  function InsertMinorHead(db: Db, majorHeadId: int, name: string): (r: Result<(Db, nat), DbError>)
    ensures r.Failure? <==> !HasMajor(db, majorHeadId)
    ensures r.Failure? ==> r.error == ForeignKeyViolation("MajorHeadId")
    ensures r.Success? ==> forall i :: 0 <= i < |db.minors| ==> db.minors[i].id != r.value.1
    ensures r.Success? ==> r.value.0 == db.(minors := db.minors + [MinorHead(r.value.1, majorHeadId, name)])
  {
    if !HasMajor(db, majorHeadId) then Failure(ForeignKeyViolation("MajorHeadId"))
    else
      var id := NextMinorId(db);
      Success((db.(minors := db.minors + [MinorHead(id, majorHeadId, name)]), id))
  }

  function WithoutMinor(minors: seq<MinorHead>, id: int): (r: seq<MinorHead>)
    ensures forall m :: m in r <==> m in minors && m.id != id
    ensures |r| <= |minors|
  {
    if |minors| == 0 then []
    else if minors[0].id == id then WithoutMinor(minors[1..], id)
    else [minors[0]] + WithoutMinor(minors[1..], id)
  }

  predicate HasMinor(db: Db, id: int) {
    exists i :: 0 <= i < |db.minors| && db.minors[i].id == id
  }

  /** Some document is still filed under minor head `id`. */
  predicate MinorInUse(db: Db, id: int) {
    exists i :: 0 <= i < |db.documents| && db.documents[i].minorHeadId == id
  }

  /** Documents.MinorHeadId references MinorHeads(Id): every document's minor head exists. */
  predicate MinorRefsHold(db: Db) {
    forall i :: 0 <= i < |db.documents| ==> HasMinor(db, db.documents[i].minorHeadId)
  }

  /**
   * DeleteMinorHeadAsync: DELETE FROM MinorHeads WHERE Id = @Id, reporting
   * whether any row was removed; every other row stays. The foreign key of
   * Documents.MinorHeadId has no ON DELETE action, so removing a row that a
   * document still references throws and deletes nothing.
   */
  function DeleteMinorHead(db: Db, id: int): (r: Result<(Db, bool), DbError>)
    ensures r.Failure? <==> HasMinor(db, id) && MinorInUse(db, id)
    ensures r.Failure? ==> r.error == ForeignKeyViolation("MinorHeadId")
    ensures r.Success? ==> (r.value.1 <==> HasMinor(db, id))
    ensures r.Success? ==> r.value.0 == db.(minors := WithoutMinor(db.minors, id))
    ensures r.Success? && !r.value.1 ==> r.value.0 == db
  {
    if !HasMinor(db, id) then
      WithoutMinorAbsent(db.minors, id);
      Success((db, false))
    else if MinorInUse(db, id) then Failure(ForeignKeyViolation("MinorHeadId"))
    else Success((db.(minors := WithoutMinor(db.minors, id)), true))
  }

  lemma WithoutMinorAbsent(minors: seq<MinorHead>, id: int)
    requires forall i :: 0 <= i < |minors| ==> minors[i].id != id
    ensures WithoutMinor(minors, id) == minors
  {
  }

  /**
   * When every document files under an existing minor head, a head freshly
   * inserted under an existing major is unreferenced: deleting it restores the table and reports
   * a removal.
   */
  lemma InsertThenDeleteMinorHead(db: Db, majorHeadId: int, name: string)
    requires MinorRefsHold(db) && HasMajor(db, majorHeadId)
    ensures var (db1, id) := InsertMinorHead(db, majorHeadId, name).value;
      DeleteMinorHead(db1, id) == Success((db, true))
  {
    var (db1, id) := InsertMinorHead(db, majorHeadId, name).value;
    var row := MinorHead(id, majorHeadId, name);
    assert db1.minors[|db.minors|] == row;
    assert HasMinor(db1, id);
    forall i | 0 <= i < |db.documents| ensures db.documents[i].minorHeadId != id {
      assert HasMinor(db, db.documents[i].minorHeadId);
      var j :| 0 <= j < |db.minors| && db.minors[j].id == db.documents[i].minorHeadId;
    }
    WithoutMinorAppend(db.minors, row);
    WithoutMinorAbsent(db.minors, id);
  }

  lemma WithoutMinorAppend(minors: seq<MinorHead>, row: MinorHead)
    ensures WithoutMinor(minors + [row], row.id) == WithoutMinor(minors, row.id)
  {
    if |minors| > 0 {
      assert (minors + [row])[1..] == minors[1..] + [row];
      WithoutMinorAppend(minors[1..], row);
    }
  }

  /** GetMinorHeadsByMajorAsync: exactly the minor heads under that major, in table order. */
  function MinorHeadsByMajor(db: Db, majorHeadId: int): (r: seq<MinorHead>)
    ensures forall m :: m in r <==> m in db.minors && m.majorHeadId == majorHeadId
  {
    Filter(db.minors, (m: MinorHead) => m.majorHeadId == majorHeadId)
  }
}

=== FILE: text.dfy ===
/**
 * String helpers shared by the backend (C#) and frontend (TypeScript) parts of
 * the model: white space, trimming, ASCII case folding, splitting/joining on a
 * separator, and decimal formatting/parsing of integers.
 */
module Text {
  import opened Wrappers
  import opened Seqs

  /** Which platform's notion of white space applies. */
  datatype Space =
    | DotNet        // char.IsWhiteSpace: string.Trim, string.IsNullOrWhiteSpace
    | JavaScript    // WhiteSpace + LineTerminator: String.prototype.trim
    | DotNetNumber  // NumberStyles.AllowLeadingWhite / AllowTrailingWhite

  predicate IsWhiteSpace(sp: Space, c: char) {
    var n := c as int;
    match sp
    case DotNetNumber => n == 0x20 || 0x09 <= n <= 0x0D
    case _ =>
      || 0x09 <= n <= 0x0D || n == 0x20 || n == 0xA0 || n == 0x1680
      || 0x2000 <= n <= 0x200A || n == 0x2028 || n == 0x2029 || n == 0x202F
      || n == 0x205F || n == 0x3000
      || (sp == DotNet && n == 0x85) || (sp == JavaScript && n == 0xFEFF)
  }

  /** Empty or white space only (C#'s IsNullOrWhiteSpace on a non-null string; `!s.trim()` in JS). */
  predicate IsBlank(sp: Space, s: string) {
    forall i :: 0 <= i < |s| ==> IsWhiteSpace(sp, s[i])
  }

  /** The first index at or after `i` whose character is not white space, or |s|. */
  function FirstKept(sp: Space, s: string, i: nat): (r: nat)
    requires i <= |s|
    ensures i <= r <= |s|
    ensures forall m :: i <= m < r ==> IsWhiteSpace(sp, s[m])
    ensures r < |s| ==> !IsWhiteSpace(sp, s[r])
    decreases |s| - i
  {
    if i < |s| && IsWhiteSpace(sp, s[i]) then FirstKept(sp, s, i + 1) else i
  }

  /** The end of the last character in [lo, j) that is not white space, or lo. */
  function EndKept(sp: Space, s: string, lo: nat, j: nat): (r: nat)
    requires lo <= j <= |s|
    ensures lo <= r <= j
    ensures forall m :: r <= m < j ==> IsWhiteSpace(sp, s[m])
    ensures r > lo ==> !IsWhiteSpace(sp, s[r - 1])
    decreases j
  {
    if j > lo && IsWhiteSpace(sp, s[j - 1]) then EndKept(sp, s, lo, j - 1) else j
  }

  /** Offset of the first character that `Trim` keeps. */
  function TrimOffset(sp: Space, s: string): nat
    ensures TrimOffset(sp, s) <= |s|
  {
    FirstKept(sp, s, 0)
  }

  /**
   * Removes leading and trailing white space: the result is the infix of `s`
   * that starts and ends with a non-blank character, and everything cut off is blank.
   */
  function Trim(sp: Space, s: string): (r: string)
    ensures var k := TrimOffset(sp, s);
      && k + |r| <= |s| && r == s[k..k + |r|]
      && (forall i :: 0 <= i < k ==> IsWhiteSpace(sp, s[i]))
      && (forall i :: k + |r| <= i < |s| ==> IsWhiteSpace(sp, s[i]))
    ensures r == [] || (!IsWhiteSpace(sp, r[0]) && !IsWhiteSpace(sp, r[|r| - 1]))
    ensures r == [] <==> IsBlank(sp, s)
  {
    var k := FirstKept(sp, s, 0);
    var e := EndKept(sp, s, k, |s|);
    assert e > k ==> s[k..e][0] == s[k] && s[k..e][e - k - 1] == s[e - 1];
    s[k..e]
  }

  /** A string that neither starts nor ends with white space is its own trim. */
  lemma TrimUnchanged(sp: Space, s: string)
    requires s == [] || (!IsWhiteSpace(sp, s[0]) && !IsWhiteSpace(sp, s[|s| - 1]))
    ensures Trim(sp, s) == s
  {
    assert s[0..|s|] == s;
  }

  lemma TrimIdempotent(sp: Space, s: string)
    ensures Trim(sp, Trim(sp, s)) == Trim(sp, s)
  {
    TrimUnchanged(sp, Trim(sp, s));
  }

  /** A trimmed string that is not empty is not blank. */
  lemma TrimmedNotBlank(sp: Space, s: string)
    requires Trim(sp, s) != []
    ensures !IsBlank(sp, Trim(sp, s))
  {
  }

  // ---------- length ----------

  /**
   * The length `string.Length` in C# and `.length` in JavaScript report: one
   * UTF-16 code unit per character, two for a character outside the Basic
   * Multilingual Plane.
   */
  function Utf16Length(s: string): (n: nat)
    ensures |s| <= n <= 2 * |s|
  {
    if |s| == 0 then 0 else (if s[0] as int >= 0x1_0000 then 2 else 1) + Utf16Length(s[1..])
  }

  predicate InBmp(s: string) {
    forall i :: 0 <= i < |s| ==> s[i] as int < 0x1_0000
  }

  /** The UTF-16 length is the character count exactly when no character lies outside the Basic Multilingual Plane. */
  lemma {:induction false} Utf16LengthIsCount(s: string)
    ensures Utf16Length(s) == |s| <==> InBmp(s)
  {
    if |s| > 0 {
      Utf16LengthIsCount(s[1..]);
      assert InBmp(s) <==> s[0] as int < 0x1_0000 && InBmp(s[1..]) by {
        if InBmp(s[1..]) && s[0] as int < 0x1_0000 {
          forall i | 0 <= i < |s| ensures s[i] as int < 0x1_0000 {
            if i > 0 { assert s[i] == s[1..][i - 1]; }
          }
        }
      }
    }
  }

  /** Code units add up over concatenation. */
  lemma {:induction false} Utf16LengthAppend(a: string, b: string)
    ensures Utf16Length(a + b) == Utf16Length(a) + Utf16Length(b)
    decreases |a|
  {
    if |a| > 0 {
      assert (a + b)[1..] == a[1..] + b;
      Utf16LengthAppend(a[1..], b);
    } else {
      assert a + b == b;
    }
  }

  // ---------- case ----------

  /** ToLowerInvariant / toLowerCase restricted to ASCII letters. */
  function LowerChar(c: char): char
  {
    if 'A' <= c <= 'Z' then (c as int + 32) as char else c
  }

  function Lower(s: string): (r: string)
    ensures |r| == |s|
    ensures forall i :: 0 <= i < |s| ==> r[i] == LowerChar(s[i])
  {
    seq(|s|, i requires 0 <= i < |s| => LowerChar(s[i]))
  }

  lemma LowerAppend(a: string, b: string)
    ensures Lower(a + b) == Lower(a) + Lower(b)
  {
  }

  lemma LowerIdempotent(s: string)
    ensures Lower(Lower(s)) == Lower(s)
  {
  }

  /** String.EndsWith(suffix, StringComparison.OrdinalIgnoreCase), ASCII folding. */
  predicate EndsWithIgnoreCase(s: string, suffix: string) {
    |suffix| <= |s| && Lower(s[|s| - |suffix|..]) == Lower(suffix)
  }

  predicate EqualsIgnoreCase(a: string, b: string) {
    Lower(a) == Lower(b)
  }

  /** `value || undefined` on a text input: an empty input is not sent. */
  function OrUndefined(s: string): (r: Option<string>)
    ensures r.None? <==> s == ""
    ensures r.Some? ==> r.value == s
  {
    if s == "" then None else Some(s)
  }

  // ---------- split / join ----------

  /** Array.prototype.join with a one-character separator. */
  function Join(parts: seq<string>, sep: char): string
  {
    if |parts| == 0 then ""
    else if |parts| == 1 then parts[0]
    else parts[0] + [sep] + Join(parts[1..], sep)
  }

  /**
   * String.prototype.split with a one-character separator: the pieces between
   * separators, at least one piece, none containing the separator, joining back to `s`.
   */
  function Split(s: string, sep: char): (parts: seq<string>)
    ensures |parts| >= 1
    ensures forall i :: 0 <= i < |parts| ==> sep !in parts[i]
    ensures Join(parts, sep) == s
    decreases |s|
  {
    if sep !in s then [s]
    else
      var k := FirstIndex(s, sep);
      var rest := Split(s[k + 1..], sep);
      assert s == s[..k] + [sep] + s[k + 1..];
      [s[..k]] + rest
  }

  /** Splitting a join of separator-free pieces gives the pieces back. */
  lemma {:induction false} SplitJoin(parts: seq<string>, sep: char)
    requires |parts| >= 1
    requires forall i :: 0 <= i < |parts| ==> sep !in parts[i]
    ensures Split(Join(parts, sep), sep) == parts
    decreases |parts|
  {
    if |parts| > 1 {
      var p, rest := parts[0], Join(parts[1..], sep);
      var s := Join(parts, sep);
      assert s == p + [sep] + rest;
      SeparatorAfter(p, sep, rest);
      SplitJoin(parts[1..], sep);
      assert Split(s, sep) == [p] + Split(rest, sep);
      assert parts == [p] + parts[1..];
    }
  }

  /** In `p + [sep] + rest` with `p` free of `sep`, the first separator is the one after `p`. */
  lemma SeparatorAfter(p: string, sep: char, rest: string)
    requires sep !in p
    ensures var s := p + [sep] + rest;
      && sep in s && FirstIndex(s, sep) == |p|
      && s[..|p|] == p && s[|p| + 1..] == rest
  {
    var s := p + [sep] + rest;
    assert s[|p|] == sep;
    assert s[..|p|] == p;
    assert s[|p| + 1..] == rest;
  }

  // ---------- decimal numbers ----------

  predicate IsDigit(c: char) {
    '0' <= c <= '9'
  }

  predicate AllDigits(s: string) {
    forall i :: 0 <= i < |s| ==> IsDigit(s[i])
  }

  function DigitChar(d: nat): char
    requires d < 10
  {
    ('0' as int + d) as char
  }

  /** The number a string of decimal digits denotes (most significant digit first). */
  function DigitsValue(s: string): nat
    requires AllDigits(s)
  {
    if |s| == 0 then 0 else 10 * DigitsValue(s[..|s| - 1]) + (s[|s| - 1] as int - '0' as int)
  }

  function Pow10(k: nat): (r: nat)
    ensures r >= 1
  {
    if k == 0 then 1 else 10 * Pow10(k - 1)
  }

  /** Appending digits shifts the value of the prefix by one decimal place per digit. */
  lemma {:induction false} DigitsValueAppend(a: string, b: string)
    requires AllDigits(a) && AllDigits(b)
    ensures AllDigits(a + b) && DigitsValue(a + b) == DigitsValue(a) * Pow10(|b|) + DigitsValue(b)
    decreases |b|
  {
    if |b| > 0 {
      var b' := b[..|b| - 1];
      var d := b[|b| - 1] as int - '0' as int;
      assert (a + b)[..|a + b| - 1] == a + b' && (a + b)[|a + b| - 1] == b[|b| - 1];
      DigitsValueAppend(a, b');
      var va, vb := DigitsValue(a), DigitsValue(b');
      assert DigitsValue(a + b) == 10 * (va * Pow10(|b'|) + vb) + d;
      assert DigitsValue(b) == 10 * vb + d;
      ShiftDecimal(va, Pow10(|b'|), vb, d);
    } else {
      assert a + b == a;
    }
  }

  lemma ShiftDecimal(va: int, p: int, vb: int, d: int)
    ensures 10 * (va * p + vb) + d == va * (10 * p) + (10 * vb + d)
  {
  }

  /** Decimal rendering of a natural number (C#'s int.ToString() / JS String(n)): digits only, no leading zero, denoting n. */
  function NatToString(n: nat): (r: string)
    ensures 1 <= |r| && AllDigits(r)
    ensures DigitsValue(r) == n
    ensures |r| > 1 ==> r[0] != '0'
    decreases n
  {
    if n < 10 then
      [DigitChar(n)]
    else
      var a := NatToString(n / 10);
      var r := a + [DigitChar(n % 10)];
      assert r[..|r| - 1] == a;
      r
  }

  /** A number in [10^k, 10^(k+1)) is written with exactly k+1 digits. */
  lemma {:induction false} NatToStringLength(n: nat, k: nat)
    requires Pow10(k) <= n < Pow10(k + 1)
    ensures |NatToString(n)| == k + 1
    decreases n
  {
    if k > 0 {
      assert Pow10(k - 1) <= n / 10 < Pow10(k);
      NatToStringLength(n / 10, k - 1);
    }
  }

  /** A number below 10^w (w >= 1) is written with at most w digits. */
  lemma {:induction false} NatToStringLengthBound(n: nat, w: nat)
    requires 1 <= w && n < Pow10(w)
    ensures |NatToString(n)| <= w
    decreases n
  {
    if n >= 10 {
      assert n / 10 < Pow10(w - 1);
      NatToStringLengthBound(n / 10, w - 1);
    }
  }

  function Zeros(k: nat): (r: string)
    ensures |r| == k && AllDigits(r)
  {
    seq(k, i => '0')
  }

  lemma {:induction false} LeadingZeros(k: nat, s: string)
    requires AllDigits(s)
    ensures AllDigits(Zeros(k) + s) && DigitsValue(Zeros(k) + s) == DigitsValue(s)
    decreases |s|
  {
    var z := Zeros(k) + s;
    if |s| == 0 {
      assert z == Zeros(k);
      ZerosValue(k);
    } else {
      assert z[..|z| - 1] == Zeros(k) + s[..|s| - 1];
      LeadingZeros(k, s[..|s| - 1]);
    }
  }

  lemma {:induction false} ZerosValue(k: nat)
    ensures DigitsValue(Zeros(k)) == 0
  {
    if k > 0 {
      assert Zeros(k)[..k - 1] == Zeros(k - 1);
      ZerosValue(k - 1);
    }
  }

  /** The .NET custom format specifiers `yyyy`, `MM`, `dd`, ...: n left-padded with zeros to `width` digits. */
  function ZeroPad(n: nat, width: nat): (r: string)
    requires 1 <= width && n < Pow10(width)
    ensures |r| == width && AllDigits(r) && DigitsValue(r) == n
  {
    var d := NatToString(n);
    NatToStringLengthBound(n, width);
    LeadingZeros(width - |d|, d);
    Zeros(width - |d|) + d
  }

  /** Decimal rendering of an integer, with a leading '-' when negative (JS String(n) for integral n). */
  function IntToString(n: int): (r: string)
    ensures 1 <= |r|
  {
    if n < 0 then "-" + NatToString(-n) else NatToString(n)
  }

  /** The length of a leading '-' or '+'. */
  function SignLength(t: string): (k: nat)
    ensures k <= 1 && k <= |t|
  {
    if |t| > 0 && (t[0] == '-' || t[0] == '+') then 1 else 0
  }

  /** An optional sign followed by one or more ASCII digits. */
  predicate SignedDigits(t: string) {
    SignLength(t) < |t| && AllDigits(t[SignLength(t)..])
  }

  /** The value of signed digits: negative exactly after a '-'. */
  function SignedValue(t: string): int
    requires SignedDigits(t)
  {
    var magnitude: int := DigitsValue(t[SignLength(t)..]);
    if t[0] == '-' then -magnitude else magnitude
  }

  predicate InInt32(v: int) {
    -0x8000_0000 <= v <= 0x7FFF_FFFF
  }

  /**
   * int.TryParse(s, out v) under NumberStyles.Integer: optional surrounding
   * white space, an optional sign, one or more ASCII digits, and a value that
   * fits a 32-bit int. TryParse reads the sign symbols of the current culture;
   * the model takes them to be '-' and '+'.
   */
  function ParseInt32(s: string): (r: Option<int>)
    ensures r.Some? <==> SignedDigits(Trim(DotNetNumber, s)) && InInt32(SignedValue(Trim(DotNetNumber, s)))
    ensures r.Some? ==> r.value == SignedValue(Trim(DotNetNumber, s))
  {
    var t := Trim(DotNetNumber, s);
    if |t| > 0 && (t[0] == '-' || t[0] == '+') then
      var body := t[1..];
      if |body| == 0 || !AllDigits(body) then None
      else
        var v: int := if t[0] == '-' then 0 - DigitsValue(body) as int else DigitsValue(body) as int;
        if InInt32(v) then Some(v) else None
    else if |t| == 0 || !AllDigits(t) then None
    else if InInt32(DigitsValue(t)) then Some(DigitsValue(t))
    else None
  }

  lemma DigitsNotWhite(c: char)
    requires IsDigit(c)
    ensures !IsWhiteSpace(DotNetNumber, c) && c != '-' && c != '+'
  {
  }

  /** Parsing the decimal rendering of a 32-bit natural gives the number back. */
  lemma ParseNatToString(n: nat)
    requires n <= 0x7FFF_FFFF
    ensures ParseInt32(NatToString(n)) == Some(n)
  {
    var d := NatToString(n);
    assert IsDigit(d[0]) && IsDigit(d[|d| - 1]);
    DigitsNotWhite(d[0]);
    DigitsNotWhite(d[|d| - 1]);
    TrimUnchanged(DotNetNumber, d);
  }

  /** Parsing the decimal rendering of any 32-bit integer, negative ones included, gives the number back. */
  lemma ParseIntToString(n: int)
    requires InInt32(n)
    ensures ParseInt32(IntToString(n)) == Some(n)
  {
    if n >= 0 {
      ParseNatToString(n);
    } else {
      var d := NatToString(-n);
      var s := "-" + d;
      assert s[|s| - 1] == d[|d| - 1] && IsDigit(d[|d| - 1]);
      DigitsNotWhite(d[|d| - 1]);
      TrimUnchanged(DotNetNumber, s);
      assert s[1..] == d;
    }
  }

  /** Trailing text that is not a digit is refused, and surrounding white space is skipped. */
  lemma ParseExamples()
    ensures ParseInt32("12abc") == None
    ensures ParseInt32(" -5 ") == Some(-5)
  {
    assert !IsDigit("12abc"[2]);
    var t := " -5 ";
    assert !IsWhiteSpace(DotNetNumber, t[1]) && !IsWhiteSpace(DotNetNumber, t[2]);
    assert Trim(DotNetNumber, t) == "-5";
    assert "-5"[1..] == "5";
  }
}

=== FILE: upload_page.dfy ===
/**
 * The upload page: the chosen-tag editor, the suggestion list, submit
 * validation and what the page resets after an upload. Fetching the heads
 * and suggestions, and the rendering, are not modelled.
 */
module UploadPage {
  import opened Wrappers
  import opened Text
  import opened Seqs
  import opened DocumentsApi
  import DocumentStore

  /** The file input's selection. */
  datatype LocalFile = LocalFile(name: string, size: nat)

  /** The page's state; an unselected head (the '' option) is None. */
  datatype Page = Page(
    major: Option<int>,
    minor: Option<int>,
    date: string,
    remarks: string,
    file: Option<LocalFile>,
    tagInput: string,
    tags: seq<string>,
    message: string,
    error: string,
    uploading: bool)

  const Empty: Page := Page(None, None, "", "", None, "", [], "", "", false)

  // ---------- tag editor ----------

  /** addTag: the trimmed input is appended unless it is empty or already chosen. */
  function AddTag(tags: seq<string>, t: string): (r: seq<string>)
    ensures Trim(JavaScript, t) == "" || Trim(JavaScript, t) in tags ==> r == tags
    ensures Trim(JavaScript, t) != "" && Trim(JavaScript, t) !in tags ==> r == tags + [Trim(JavaScript, t)]
  {
    var cleaned := Trim(JavaScript, t);
    if cleaned == "" || cleaned in tags then tags else tags + [cleaned]
  }

  /** removeTag: every other tag stays, in order. */
  function RemoveTag(tags: seq<string>, t: string): (r: seq<string>)
    ensures forall x :: x in r <==> x in tags && x != t
    ensures t !in tags ==> r == tags
  {
    RemoveAll(tags, t)
  }

  /** In a list without repeats, removing a tag closes the gap and keeps the rest in order. */
  lemma RemoveTagKeepsOrder(tags: seq<string>, k: nat)
    requires NoDuplicates(tags) && k < |tags|
    ensures RemoveTag(tags, tags[k]) == tags[..k] + tags[k + 1..]
  {
    RemoveAllAt(tags, k);
  }

  /** The chosen tags are trimmed, non-blank and distinct. */
  predicate TagsOk(tags: seq<string>) {
    && NoDuplicates(tags)
    && forall i :: 0 <= i < |tags| ==> tags[i] != "" && Trim(JavaScript, tags[i]) == tags[i]
  }

  lemma AddTagKeepsOk(tags: seq<string>, t: string)
    requires TagsOk(tags)
    ensures TagsOk(AddTag(tags, t))
  {
    var c := Trim(JavaScript, t);
    if c != "" && c !in tags {
      AppendNew(tags, c);
      TrimIdempotent(JavaScript, t);
      var r := tags + [c];
      forall i | 0 <= i < |r| ensures r[i] != "" && Trim(JavaScript, r[i]) == r[i] {
        if i < |tags| {
          assert r[i] == tags[i];
        }
      }
    }
  }

  lemma RemoveTagKeepsOk(tags: seq<string>, t: string)
    requires TagsOk(tags)
    ensures TagsOk(RemoveTag(tags, t))
  {
    var r := RemoveTag(tags, t);
    forall i | 0 <= i < |r| ensures r[i] != "" && Trim(JavaScript, r[i]) == r[i] {
      assert r[i] in tags;
    }
  }

  /** An edit of the chosen tags: typing/picking a tag, or clicking one away. */
  datatype TagEdit = Add(t: string) | Remove(t: string)

  function ApplyEdits(tags: seq<string>, edits: seq<TagEdit>): seq<string>
    decreases |edits|
  {
    if |edits| == 0 then tags
    else
      var next := match edits[0] case Add(t) => AddTag(tags, t) case Remove(t) => RemoveTag(tags, t);
      ApplyEdits(next, edits[1..])
  }

  /** Whatever the user does, the chosen tags stay trimmed, non-blank and distinct. */
  lemma {:induction false} EditsKeepTagsOk(tags: seq<string>, edits: seq<TagEdit>)
    requires TagsOk(tags)
    ensures TagsOk(ApplyEdits(tags, edits))
    decreases |edits|
  {
    if |edits| > 0 {
      match edits[0]
      case Add(t) => AddTagKeepsOk(tags, t); EditsKeepTagsOk(AddTag(tags, t), edits[1..]);
      case Remove(t) => RemoveTagKeepsOk(tags, t); EditsKeepTagsOk(RemoveTag(tags, t), edits[1..]);
    }
  }

  /** Starting from no tags, every reachable tag list is well formed. */
  lemma ReachableTagsOk(edits: seq<TagEdit>)
    ensures TagsOk(ApplyEdits([], edits))
  {
    EditsKeepTagsOk([], edits);
  }

  /** Adding a tag and then removing it gives back the list it was added to. */
  lemma AddThenRemove(tags: seq<string>, t: string)
    requires TagsOk(tags) && Trim(JavaScript, t) !in tags
    ensures RemoveTag(AddTag(tags, t), Trim(JavaScript, t)) == tags
  {
    var c := Trim(JavaScript, t);
    if c != "" {
      AppendNew(tags, c);
      RemoveTagKeepsOrder(tags + [c], |tags|);
      assert (tags + [c])[..|tags|] == tags;
    }
  }

  /** Enter or ',' in the tag input adds the input as a tag and clears it; other keys do nothing. */
  function KeyDown(p: Page, key: string): (r: Page)
    ensures key != "Enter" && key != "," ==> r == p
    ensures key == "Enter" || key == "," ==>
      r == p.(tags := AddTag(p.tags, p.tagInput), tagInput := "")
  {
    if key == "Enter" || key == "," then p.(tags := AddTag(p.tags, p.tagInput), tagInput := "") else p
  }

  /** The known tags not yet chosen, in order. */
  function Unchosen(known: seq<string>, tags: seq<string>): (r: seq<string>)
    ensures forall x :: x in r <==> x in known && x !in tags
  {
    Filter(known, (x: string) => x !in tags)
  }

  /** The suggestion buttons: the first ten known tags not yet chosen. */
  function Suggestions(known: seq<string>, tags: seq<string>): (r: seq<string>)
    ensures |r| <= 10
    ensures forall x :: x in r ==> x in known && x !in tags
    ensures |r| <= |Unchosen(known, tags)| && r == Unchosen(known, tags)[..|r|]
    ensures |r| == if |Unchosen(known, tags)| < 10 then |Unchosen(known, tags)| else 10
  {
    var f := Unchosen(known, tags);
    var r := Take(f, 10);
    assert forall x :: x in r ==> x in f;
    r
  }

  /** Clicking a (trimmed, non-empty) suggestion appends exactly that tag. */
  lemma PickSuggestion(known: seq<string>, tags: seq<string>, s: string)
    requires s in Suggestions(known, tags) && s != "" && Trim(JavaScript, s) == s
    ensures AddTag(tags, s) == tags + [s]
  {
  }

  // ---------- submit ----------

  const FileRequired: string := "File required"
  const SelectHeads: string := "Select major and minor"

  /**
   * onSubmit: clears the error and message, then refuses a missing file
   * first and missing heads second; otherwise the page is marked uploading
   * and the request is the file with the form fields.
   */
  function Submit(p: Page): (r: (Page, Option<(LocalFile, UploadFields)>))
    ensures p.file.None? ==> r.1.None? && r.0 == p.(error := FileRequired, message := "")
    ensures p.file.Some? && (p.major.None? || p.minor.None?) ==>
      r.1.None? && r.0 == p.(error := SelectHeads, message := "")
    ensures r.1.Some? <==> p.file.Some? && p.major.Some? && p.minor.Some?
    ensures r.1.Some? ==>
      && r.0 == p.(error := "", message := "", uploading := true)
      && r.1.value.0 == p.file.value
      && r.1.value.1 == UploadFields(p.major.value, p.minor.value, OrUndefined(p.remarks), OrUndefined(p.date), p.tags)
  {
    var cleared := p.(error := "", message := "");
    if p.file.None? then (cleared.(error := FileRequired), None)
    else if p.major.None? || p.minor.None? then (cleared.(error := SelectHeads), None)
    else
      (cleared.(uploading := true),
       Some((p.file.value, UploadFields(p.major.value, p.minor.value, OrUndefined(p.remarks), OrUndefined(p.date), p.tags))))
  }

  /**
   * The outcome of the upload call: on success the message names the new id
   * and the file, tags, remarks, date and minor are reset while the major is
   * kept; on failure the error shows the rejection's message. Either way the
   * page stops uploading.
   */
  function Completed(p: Page, outcome: Result<int, string>): (r: Page)
    ensures !r.uploading
    ensures outcome.Success? ==>
      && r.message == "Uploaded document id=" + IntToString(outcome.value)
      && r.file.None? && r.tags == [] && r.remarks == "" && r.date == "" && r.minor.None?
      && r.major == p.major && r.tagInput == p.tagInput && r.error == p.error
    ensures outcome.Failure? ==> r == p.(error := outcome.error, uploading := false)
  {
    match outcome
    case Success(id) =>
      p.(message := "Uploaded document id=" + IntToString(id), file := None, tags := [], remarks := "",
         date := "", minor := None, uploading := false)
    case Failure(e) => p.(error := e, uploading := false)
  }

  /** The Clear button: file, tags, remarks, date and both heads reset. */
  function Clear(p: Page): (r: Page)
    ensures r.file.None? && r.tags == [] && r.remarks == "" && r.date == "" && r.major.None? && r.minor.None?
    ensures r.tagInput == p.tagInput && r.message == p.message && r.error == p.error && r.uploading == p.uploading
  {
    p.(file := None, tags := [], remarks := "", date := "", major := None, minor := None)
  }

  /** Choosing a category unsets the sub-category. */
  function SelectMajor(p: Page, major: Option<int>): (r: Page)
    ensures r.major == major && r.minor.None?
    ensures r.(major := p.major, minor := p.minor) == p
  {
    p.(major := major, minor := None)
  }

  /** After a successful upload, an immediate second submit is refused for the missing file. */
  lemma SubmitAfterUploadNeedsFile(p: Page, id: int)
    ensures Submit(Completed(p, Success(id))).1.None?
    ensures Submit(Completed(p, Success(id))).0.error == FileRequired
  {
  }

  /**
   * The tags the page sends never repeat among the names the server acts on,
   * so under the exact comparison the server's tag insert never fails on a
   * repeated name. MySQL's case-insensitive collation would still treat
   * ["Tax", "tax"] as one tag and refuse the second (DocumentId, TagId) link.
   */
  lemma PageTagsInsertable(tags: seq<string>)
    requires TagsOk(tags)
    ensures NoDuplicates(DocumentStore.Kept(tags))
  {
    FilterNoDuplicates(tags, (n: string) => DocumentStore.NonBlank(n));
  }

  /**
   * U+0085 is not white space to the page's trim but is to the server's, so
   * a tag the page accepts can still be dropped by the server.
   */
  lemma NextLineTagDropped()
    ensures TagsOk(["\U{85}"])
    ensures DocumentStore.Kept(["\U{85}"]) == []
  {
    var t := "\U{85}";
    assert !IsWhiteSpace(JavaScript, t[0]) && IsWhiteSpace(DotNet, t[0]);
    TrimUnchanged(JavaScript, t);
    assert !DocumentStore.NonBlank(t);
  }
}

=== FILE: wrappers.dfy ===
/** Failure-compatible wrappers shared by every module of the model. */
module Wrappers {

  /** A value that may be absent: C#'s `null`, TypeScript's `undefined`/`null`. */
  datatype Option<+T> = None | Some(value: T) {

    /** The value, or `default` when absent (C#'s `??`). */
    function GetOr(default: T): T {
      match this
      case Some(v) => v
      case None => default
    }
  }

  /** The outcome of an operation that can throw: the exception is the `Failure`. */
  datatype Result<+R, +E> = Success(value: R) | Failure(error: E) {

    predicate IsFailure() {
      Failure?
    }

    function PropagateFailure<U>(): Result<U, E>
      requires Failure?
    {
      Failure(error)
    }

    function Extract(): R
      requires Success?
    {
      value
    }
  }
}
